=== FILE: README.md ===
# Product demand forecasting: a verified model of its data rules

The repository is a Flask application with an account system (signup, login,
logout and a `login_required` guard backed by a MongoDB users collection and
bcrypt). It also mounts five Dash pages over the Supermart grocery sales table.
This project models, in Dafny, the deterministic rules those pages and
handlers apply, and proves what they promise:

- **Cleaning.** Order Date coercion or strict parsing, and the rows that
  survive it.
- **Monthly bucketing.** `YearMonth` periods, month arithmetic, month-end
  forecast dates and `Month_Ordinal`.
- **Group-by sums.** One generic model of `groupby(key)[col].sum()`, shared
  by every page.
- **Filter chain.** The sales-analysis page's chain of optional filters.
- **Label encoders and the future grid.** The category page's `LabelEncoder`s
  and the triple loop that builds `future_df`.
- **Customer derivations.** The customer page's recency / frequency /
  total_spent / clv / segment columns and its top-10 table.
- **Accounts.** The application's user store and session.

A transaction table is a `seq<Row<D>>`. `D` is the Order Date column's
type: `string` as read, `Option<Day>` after coercion (`None` is NaT), `Day`
after `dropna`. Sales, Profit and Discount are `real`.

The following are parameters of the functions that use them:
- the date parsers;
- statsmodels' Holt-Winters (`Forecasting.Forecaster`: any function that
  returns as many values as it is asked for);
- the XGBoost regressor (a function of the three feature columns);
- bcrypt (`Auth.Hashing`, a salted hash plus a check, with soundness stated
  by `Auth.Sound`).

Modules:
- `Wrappers`, `Collections`, `Text`, `Calendar` and `Transactions` are shared
  building blocks.
- `Forecasting` covers what the pages do around the fitted model.
- One module per page or handler file: `CategoryPredictions`,
  `SalesAnalysis`, `CustomerInsights`, `Dashboard`, `GeoForecast` and `Auth`.

Where the source changes state step by step, the model does too:
- `Dashboard.SalesFrame` and `CustomerInsights.CustomerFrame` are the pages'
  DataFrames, with one method per column rewrite.
- `CategoryPredictions.SortByMonth` sorts an `array` in place.
- `CategoryPredictions.BuildFutureRows` is the triple loop.
- `SalesAnalysis.FilterRows` is the filter chain.
- `Auth.App` holds the user store and the session.

Each method is proved against a specification function, and the properties
are proved about that function.

## Model

| member | source | states |
|---|---|---|
| Transactions.Coerce | src/geo_forecast.py:18 | coercion replaces only the Order Date of every row, row for row, with the parser's answer (NaT as None); no row is dropped |
| Transactions.Clean | src/category_predictions.py:13-15 | after `dropna` exactly the rows whose date parses survive; each carries its parsed date and is otherwise the raw row |
| Transactions.DropUndated | src/sales_analysis.py:16-17 | the NaT-free table: every kept row was a dated row, every dated row is kept |
| Transactions.UndatedSplit | src/geo_forecast.py:18-21 | the Sales total splits into the dated rows' total plus the undated rows' total |
| Transactions.Mean | src/category_predictions.py:20 | the mean times the row count is the column total; there is no mean (NaN) exactly on an empty column |
| Transactions.GroupSum | src/dashboard.py:18 | `groupby(key)[col].sum()`: keys strictly ascending, exactly the keys present in the rows, each total the sum of its key's rows |
| Transactions.GroupSumCharacterized | src/dashboard.py:34-40 | any table with sorted keys, exactly the present keys and per-key sums is the group-by table, so the promise determines it |
| Transactions.GroupSumAdditive | src/dashboard.py:28-40 | the group totals add up to the column total |
| Transactions.LastKeyIsGreatest | src/geo_forecast.py:38 | the last row of a group-by table holds the greatest key of any row |
| Transactions.DistinctCount | src/dashboard.py:30 | `nunique` is the number of distinct values of the column, at most the row count and 0 only on an empty column |
| Transactions.RepeatLowersDistinctCount | src/dashboard.py:30 | a value occurring twice makes `nunique` smaller than the row count |
| Transactions.SumWhereIsMaskedTotal | src/category_predictions.py:197 | a key's sum is the total of the rows the mask `key == k` selects |
| Transactions.SumWhereAbsent | src/sales_analysis.py:222 | a key no row carries sums to 0 (the `fill_value=0` of `unstack`) |
| Collections.SortedDistinct | src/sales_analysis.py:96 | `sorted(col.unique())`: strictly ascending and holding exactly the column's values |
| Collections.Unique | src/category_predictions.py:59-60 | `Series.unique()`: no repeats and exactly the column's values |
| Collections.UniqueFirstAppearance | src/category_predictions.py:59-60 | `Series.unique()` lists the values in order of first appearance |
| Collections.Keep | src/sales_analysis.py:196 | `df[mask]`: exactly the rows passing the mask, no more rows than before |
| Collections.KeepIsSubsequence | src/sales_analysis.py:194-207 | a mask keeps the surviving rows in their original order |
| Collections.IndexOf | src/category_predictions.py:49-50 | the first position holding the value |
| Text.Strip | src/dashboard.py:15 | `str.strip()`: a result without surrounding whitespace that sits in the input between whitespace only |
| Text.StripIdempotent | src/dashboard.py:15 | stripping twice is stripping once |
| Text.Lower | src/app.py:54 | `str.lower()`: same length, every letter lower case, every other character unchanged |
| Text.LowerIdempotent | src/app.py:54 | lower-casing twice is lower-casing once |
| Text.LowerStripCommute | src/app.py:81 | `lower().strip()` equals `strip().lower()` |
| Text.ReplaceChar | src/customer_insights.py:16 | `str.replace('-', '/')`: same length, and no '-' is left |
| Calendar.OrdinalOrder | src/category_predictions.py:45 | `toordinal()` orders valid dates exactly as the calendar does and is injective |
| Calendar.Ordinal | src/category_predictions.py:45 | `toordinal()`: 0001-01-01 is day 1, and a valid date's ordinal lies within its year's run of days |
| Calendar.NextDay | src/customer_insights.py:20 | the calendar day after a date is a valid, later date |
| Calendar.OrdinalNextDay | src/customer_insights.py:20 | consecutive days have consecutive ordinals, so an ordinal difference is a day count |
| Calendar.NextDayIsSuccessor | src/customer_insights.py:20 | no date lies strictly between a day and the next one |
| Calendar.WeekdayIndex | src/sales_analysis.py:20 | the weekday is one of 0..6 |
| Calendar.DayName | src/sales_analysis.py:20 | `dt.day_name()` is one of the seven day names |
| Calendar.WeekdayAnchor | src/sales_analysis.py:20 | 0001-01-01 is a Monday |
| Calendar.WeekdayNextDay | src/sales_analysis.py:20 | the weekday and its name move on by one each day, Sunday wrapping to Monday; with the anchor this is each date's own weekday |
| Calendar.AddMonths | src/category_predictions.py:57 | adding n months moves the period index by exactly n |
| Calendar.Bucket | src/category_predictions.py:23 | `dt.to_period('M')`: the period runs from its first day to its month end and contains the date |
| Calendar.MonthEndsAfter | src/dashboard.py:64 | the n month ends after a period, the i-th being the end of the period i+1 months later |
| Calendar.MonthEndsAfterOrdered | src/geo_forecast.py:38 | those month ends strictly increase and are later than every date of the starting period or before it |
| Calendar.MonthOrdinalIncreasing | src/category_predictions.py:45 | `Month_Ordinal` strictly increases with the period |
| Calendar.MonthOrdinal | src/category_predictions.py:66 | `Month_Ordinal` is the ordinal of the period's first day, and the period's days run from it to its month end |
| Calendar.LaterPeriodLaterDate | src/category_predictions.py:26 | a date in a later period is a later date |
| Forecasting.ForecastTable | src/dashboard.py:61-65 | the forecast frame has n rows; row i pairs the month end i+1 periods after the last with the model's i-th value |
| Forecasting.ForecastTableOrdered | src/dashboard.py:64 | the forecast dates strictly increase and all come after every date up to the last period |
| CategoryPredictions.ComputeKpis | src/category_predictions.py:18-20 | total sales and profit are the column totals; the mean discount times the row count is the discount total, and it is NaN on an empty table |
| CategoryPredictions.RegionalSales | src/category_predictions.py:36 | one row per region present, ascending, each its Sales sum |
| CategoryPredictions.CategorySales | src/category_predictions.py:37 | one row per category present, ascending, each its Sales sum |
| CategoryPredictions.SubcategorySales | src/category_predictions.py:38 | one row per (category, sub-category) pair present, ascending by pair, each its Sales sum |
| CategoryPredictions.MonthlySales | src/category_predictions.py:23-24 | one row per monthly period present, chronological, each the period's Sales sum |
| CategoryPredictions.BreakdownsAddUp | src/category_predictions.py:18-38 | the regional, category, sub-category and monthly breakdowns each add up to the total-sales KPI |
| CategoryPredictions.SortByMonth | src/category_predictions.py:26 | the in-place sort leaves the array chronological and a permutation of what it held |
| CategoryPredictions.InsertIntoSorted | src/category_predictions.py:26 | one insertion step extends the sorted prefix by one and only permutes the array |
| CategoryPredictions.SortedPermutationOfChronological | src/category_predictions.py:26 | a chronologically sorted permutation of a table with strictly increasing periods is that table |
| CategoryPredictions.SortingMonthlySalesKeepsIt | src/category_predictions.py:24-26 | sorting the group-by output by month leaves it exactly as it was |
| CategoryPredictions.HoltWintersTable | src/category_predictions.py:27-33 | `hw_df` has three rows, dated at the month ends of the three periods after the last monthly row, the i-th holding the model's i-th prediction on the monthly Sales sums; there is no table without history |
| CategoryPredictions.HoltWintersAfterHistory | src/category_predictions.py:30-33 | those dates strictly increase and each is later than every order date |
| CategoryPredictions.LastMonthIsLatest | src/category_predictions.py:31 | the last monthly row holds the latest order's period |
| CategoryPredictions.Fit | src/category_predictions.py:47-48 | `classes_` is strictly ascending and holds exactly the column's values |
| CategoryPredictions.Transform | src/category_predictions.py:49-50 | a label encodes exactly when fit saw it; its code is its index in `classes_`; an unseen label is an error |
| CategoryPredictions.TransformAll | src/category_predictions.py:49-50 | a column encodes exactly when every label was seen, code for code, else it fails |
| CategoryPredictions.FitThenTransform | src/category_predictions.py:47-50 | a column always encodes with the encoder fitted on it |
| CategoryPredictions.CodesFollowLabelOrder | src/category_predictions.py:47-50 | codes are injective and ordered like the labels' string order (both directions) |
| CategoryPredictions.CodeCountsSmallerLabels | src/category_predictions.py:47-50 | a label's code is the number of distinct labels sorting before it |
| CategoryPredictions.Grp | src/category_predictions.py:42-43 | `grp` has one row per (category, sub-category, period) present, ascending, each its Sales sum |
| CategoryPredictions.FitEncoders | src/category_predictions.py:47-48 | `le_cat` and `le_sub` know exactly the categories and sub-categories of `grp` |
| CategoryPredictions.TrainingFeatures | src/category_predictions.py:44-52 | X has one row per `grp` row, holding the encoders' codes of its labels and the ordinal of its period's first day |
| CategoryPredictions.LatestMonth | src/category_predictions.py:56 | `last` is a period of `grp`, no period is later, and there is none (NaT) for an empty `grp` |
| CategoryPredictions.FutureMonths | src/category_predictions.py:57 | three periods, exactly 1, 2 and 3 months after `last` |
| CategoryPredictions.FutureMonthsAfterHistory | src/category_predictions.py:45-57 | the future periods are in order, distinct, and later than every `grp` period, and so are their ordinals |
| CategoryPredictions.Categories | src/category_predictions.py:59 | `grp['Category'].unique()`: no repeats, exactly the categories present |
| CategoryPredictions.SubCategoriesOf | src/category_predictions.py:60 | the sub-categories observed with category c, each once |
| CategoryPredictions.ObservedPairs | src/category_predictions.py:59-60 | the pairs the two outer loops visit: each observed pair exactly once |
| CategoryPredictions.BuildFutureRows | src/category_predictions.py:58-68 | the triple loop appends exactly the grid of the observed pairs by the given months |
| CategoryPredictions.FutureGrid | src/category_predictions.py:58-68 | the rows for months ms: #observed pairs × #months rows, each for an observed pair and one of the months, without repeats when the months do not repeat |
| CategoryPredictions.GridRowsListed | src/category_predictions.py:58-68 | every grid row belongs to a listed pair and one of the months |
| CategoryPredictions.AppendCategory | src/category_predictions.py:60-68 | the middle loop appends the blocks of c's sub-categories, in order |
| CategoryPredictions.AppendMonthRows | src/category_predictions.py:61-68 | the inner loop appends one row per month for one pair |
| CategoryPredictions.GridSize | src/category_predictions.py:58-68 | the grid has one block of as many rows as months per pair |
| CategoryPredictions.MonthRowsShape | src/category_predictions.py:61-68 | a pair's block holds the i-th month's row at position i |
| CategoryPredictions.GridMembership | src/category_predictions.py:58-68 | a row is in the grid exactly when its pair is listed, its month is one of the months, and its codes and ordinal are the encoders' |
| CategoryPredictions.GridDistinct | src/category_predictions.py:58-68 | no row repeats when neither pairs nor months repeat |
| CategoryPredictions.GridSelect | src/category_predictions.py:197 | selecting a listed pair gives exactly its block; an unlisted pair selects nothing |
| CategoryPredictions.FutureTableShape | src/category_predictions.py:56-69 | `future_df` has 3 × #observed pairs rows, no repeats and no unseen pair; each row's codes are the encoders' and its ordinal is later than every historical one; every (pair, future month) has its row |
| CategoryPredictions.FutureTable | src/category_predictions.py:56-69 | `future_df`: 3 × #observed pairs rows, no repeats, every row for an observed pair and one of the three future months |
| CategoryPredictions.SetSubOptions | src/category_predictions.py:181-185 | without a category: no options and disabled; otherwise enabled, with exactly the sub-categories observed with it, each once |
| CategoryPredictions.TruncToInt | src/category_predictions.py:200 | `int(x)` truncates toward zero: the integer between 0 and x within distance 1 |
| CategoryPredictions.TruncIsOdd | src/category_predictions.py:200 | truncation is symmetric about zero |
| CategoryPredictions.UpdateXgb | src/category_predictions.py:194-202 | blank exactly when a selection is missing; otherwise one bar per selected row, each its month and prediction, and units = int(sum of predictions / 100) |
| CategoryPredictions.UpdateXgbOnFutureTable | src/category_predictions.py:194-202 | on `future_df` an observed pair gets three bars, one per future month in order; any other pair gets no bars and 0 units |
| CategoryPredictions.PairRowsOfFutureTable | src/category_predictions.py:197 | an observed pair's rows are its three future months in order; an unseen pair has none |
| SalesAnalysis.Enrich | src/sales_analysis.py:18-20 | Year, Month and Weekday are the year, month and day name of each row's date, row for row |
| SalesAnalysis.LoadTable | src/sales_analysis.py:16-20 | one row per row of the cleaned table, in order: row for row the rows whose date parses, with that date, and the Year, Month and Weekday columns derived from it |
| SalesAnalysis.LoadTableKeepsParsedRows | src/sales_analysis.py:16-20 | every input row whose date parses is in the table, with its parsed date and the year, month and weekday of that date |
| SalesAnalysis.CategoryOptions | src/sales_analysis.py:96 | strictly ascending, exactly the categories present |
| SalesAnalysis.CityOptions | src/sales_analysis.py:104 | strictly ascending, exactly the cities present |
| SalesAnalysis.YearOptions | src/sales_analysis.py:112 | strictly ascending, exactly the years present |
| SalesAnalysis.MonthValues | src/sales_analysis.py:120 | strictly ascending, exactly the month numbers present |
| SalesAnalysis.MonthOptions | src/sales_analysis.py:120 | one option per month value, in order, labelled with that month's full name |
| SalesAnalysis.FilterRows | src/sales_analysis.py:194-207 | the chain of optional filters leaves exactly the rows the conjunctive mask keeps |
| SalesAnalysis.ChainIsConjunction | src/sales_analysis.py:194-207 | five masks applied in the page's order act as their conjunction |
| SalesAnalysis.FilteredIsOrderedSubset | src/sales_analysis.py:194-207 | the filtered table is an order-preserving subset of `df`, holding exactly the rows matching every supplied filter |
| SalesAnalysis.FilterOrderIrrelevant | src/sales_analysis.py:194-207 | running the chain in reverse order gives the same table |
| SalesAnalysis.DiscountRangeInclusive | src/sales_analysis.py:203-207 | the discount filter keeps a row exactly when low <= Discount <= high |
| SalesAnalysis.SortByTotal | src/sales_analysis.py:210 | `sort_values()`: ascending by total and a permutation of its input |
| SalesAnalysis.SortKeepsKeysAndTotal | src/sales_analysis.py:210 | sorting keeps the keys distinct and the grand total unchanged |
| SalesAnalysis.SubGroups | src/sales_analysis.py:210 | before sorting: one row per sub-category present after filtering, each its Sales sum |
| SalesAnalysis.SubSales | src/sales_analysis.py:210 | `sub_sales` is ascending by total and a permutation of the group-by table |
| SalesAnalysis.SubSalesShape | src/sales_analysis.py:210 | one bar per filtered sub-category, no repeats, each its Sales sum, ascending, adding up to the filtered sales |
| SalesAnalysis.HeatGroups | src/sales_analysis.py:222 | one row per (weekday, month) present, ascending, each its Sales sum |
| SalesAnalysis.HeatmapTable | src/sales_analysis.py:222 | rows are exactly the weekdays present and columns exactly the months present, both ascending; each cell is its pair's Sales sum |
| SalesAnalysis.HeatmapCells | src/sales_analysis.py:222 | a cell whose pair has no rows holds 0; one whose pair has rows holds that pair's group-by sum |
| CustomerInsights.SlashDate | src/customer_insights.py:16 | the row's date text with every '-' turned into '/', rest of the row unchanged |
| CustomerInsights.DashesToSlashes | src/customer_insights.py:16 | the whole column rewritten, row for row, with no '-' left |
| CustomerInsights.ParseStrict | src/customer_insights.py:17 | all or nothing: success exactly when every row parses, each row keeping its parsed date; otherwise the error names a text that failed |
| CustomerInsights.LoadOrders | src/customer_insights.py:16-17 | the parser only sees dash-free text; success exactly when every rewritten date parses |
| CustomerInsights.LoadKeepsEveryRow | src/customer_insights.py:16-17 | a successful load keeps every row, unlike the coercing pages |
| CustomerInsights.LatestDate | src/customer_insights.py:20 | `max()` is some row's date and no row is later; NaT on an empty table |
| CustomerInsights.Recency | src/customer_insights.py:20 | one value per row: the latest date's ordinal minus the row's, i.e. the days from the row's date to the latest date |
| CustomerInsights.RecencyFacts | src/customer_insights.py:20 | recency is never negative, is 0 exactly on the latest rows, and a row is earlier exactly when its recency is larger |
| CustomerInsights.SomeRowIsLatest | src/customer_insights.py:20 | a non-empty table has a row with recency 0 |
| CustomerInsights.Frequency | src/customer_insights.py:23 | one value per row: the number of rows of that row's customer |
| CustomerInsights.CountIsSumOfOnes | src/customer_insights.py:23 | `transform('count')` is a sum of ones over the customer's rows |
| CustomerInsights.FrequencyFacts | src/customer_insights.py:23 | frequency counts rows, not distinct orders: at least 1, equal across a customer's rows |
| CustomerInsights.RowsPerCustomer | src/customer_insights.py:23 | per customer, the number of its rows, one group per customer present |
| CustomerInsights.RowsPerCustomerAddUp | src/customer_insights.py:23 | the customers' row counts add up to the row count |
| CustomerInsights.TotalSpent | src/customer_insights.py:26 | one value per row: the Sales sum of that row's customer |
| CustomerInsights.SpendByCustomer | src/customer_insights.py:26 | one group per customer, ascending, each its Sales sum |
| CustomerInsights.TotalSpentFacts | src/customer_insights.py:26 | total_spent is the same on all of a customer's rows and equals that customer's group-by sum |
| CustomerInsights.Clv | src/customer_insights.py:29 | the element-wise product of total_spent and frequency |
| CustomerInsights.ClvFacts | src/customer_insights.py:29 | a row's CLV is its total_spent times its frequency, the same for all of a customer's rows |
| CustomerInsights.Rank | src/customer_insights.py:35-36 | a segment's rank indexes the finite bin edges |
| CustomerInsights.SegmentOf | src/customer_insights.py:35-36 | `pd.cut` gives no label exactly when the spend is <= 0 |
| CustomerInsights.SegmentIsBin | src/customer_insights.py:35-36 | the segment is the right-closed bin (edge k, edge k+1] of its rank, the last bin open above (both directions) |
| CustomerInsights.SegmentMonotone | src/customer_insights.py:35-36 | a larger spend never gets a lower segment |
| CustomerInsights.Segments | src/customer_insights.py:36 | the column holds each row's segment |
| CustomerInsights.SpendPairs | src/customer_insights.py:55 | `df[['Customer Name', 'total_spent']]`: the two columns paired row by row |
| CustomerInsights.SortDescending | src/customer_insights.py:55 | non-increasing by spend and a permutation of its input |
| CustomerInsights.NLargest | src/customer_insights.py:55 | `nlargest(n)` has min(n, length) entries |
| CustomerInsights.NLargestShape | src/customer_insights.py:55 | over distinct pairs: no repeats, largest first, only input pairs, and no omitted pair larger than a kept one |
| CustomerInsights.TopCustomersShape | src/customer_insights.py:55 | the table has min(10, #distinct pairs) distinct pairs from the columns, largest spend first, none omitted larger than one shown |
| CustomerInsights.TopCustomers | src/customer_insights.py:55 | `drop_duplicates().nlargest(10, 'total_spent')`: min(10, #distinct pairs) distinct pairs from the two columns, largest spend first |
| CustomerInsights.TopCustomersNamesDistinct | src/customer_insights.py:26-55 | with total_spent the per-customer sum, no customer appears twice |
| CustomerInsights.CustomerFrame.constructor | src/customer_insights.py:10 | the frame starts with the table as read and no derived column |
| CustomerInsights.CustomerFrame.RewriteOrderDates | src/customer_insights.py:16 | the Order Date column becomes its dash-free rewrite |
| CustomerInsights.CustomerFrame.ParseOrderDates | src/customer_insights.py:17 | the parsed table is stored exactly when every date parses; otherwise the frame is unchanged |
| CustomerInsights.CustomerFrame.AddRecency | src/customer_insights.py:20 | the recency column is added |
| CustomerInsights.CustomerFrame.AddFrequency | src/customer_insights.py:23 | the frequency column is added |
| CustomerInsights.CustomerFrame.AddTotalSpent | src/customer_insights.py:26 | the total_spent column is added |
| CustomerInsights.CustomerFrame.AddClv | src/customer_insights.py:29 | the clv column is added |
| CustomerInsights.CustomerFrame.AddRepeatPurchaseFrequency | src/customer_insights.py:32 | repeat_purchase_frequency is the same count as frequency |
| CustomerInsights.CustomerFrame.AddMonetarySegment | src/customer_insights.py:35-36 | the monetary_segment column is added |
| CustomerInsights.CustomerFrame.Build | src/customer_insights.py:16-36 | the page's steps in order: the Order Date column is always rewritten dash-free; it succeeds exactly when the load does, and then every derived column is what its line computes, one value per row; on failure the parsed table and every derived column are left as they were |
| CustomerInsights.CustomerFrame.AddColumns | src/customer_insights.py:20-36 | on the parsed table every derived column is what its line computes, one value per row |
| CustomerInsights.CustomerFrame.TopCustomerTable | src/customer_insights.py:55 | min(10, number of distinct (customer, total_spent) pairs) distinct pairs, largest spend first, each from the table, none omitted larger, non-empty on a non-empty table |
| Dashboard.StripAll | src/dashboard.py:15 | every column name stripped, position for position |
| Dashboard.StripAllIdempotent | src/dashboard.py:15 | stripping the header twice changes nothing |
| Dashboard.CheckOrderDate | src/dashboard.py:22-23 | passes exactly when "Order Date" is a column; otherwise a KeyError carrying the columns |
| Dashboard.HeaderAccepted | src/dashboard.py:15-23 | a header passes exactly when some name is "Order Date" up to surrounding whitespace |
| Dashboard.SalesFrame.constructor | src/dashboard.py:12 | the frame holds the header and rows as read |
| Dashboard.SalesFrame.StripColumnNames | src/dashboard.py:15 | the header is replaced by its stripped form |
| Dashboard.SalesFrame.RequireOrderDate | src/dashboard.py:22-23 | reports the KeyError exactly when the column is missing, changing nothing |
| Dashboard.SalesFrame.CoerceOrderDates | src/dashboard.py:25 | the Order Date column is coerced with the page's parser |
| Dashboard.SalesFrame.Prepare | src/dashboard.py:15-25 | strips, checks, and coerces only when the stripped header has the column; the error is raised exactly otherwise |
| Dashboard.ComputeFigures | src/dashboard.py:28-31 | totals are the column sums; the order count is the distinct Order IDs, 0 only without rows; aov × orders = total sales, and aov is NaN without orders |
| Dashboard.OrdersCountedOnce | src/dashboard.py:30 | two rows sharing an Order ID make the order count smaller than the row count |
| Dashboard.CitySales | src/dashboard.py:18 | one row per city, ascending, each its Sales sum |
| Dashboard.CategorySales | src/dashboard.py:37 | one row per category, ascending, each its Sales sum |
| Dashboard.CustomerSales | src/dashboard.py:40 | one row per customer, ascending, each its Sales sum |
| Dashboard.DailySales | src/dashboard.py:34 | one row per parsed date, ascending, each its Sales sum; NaT rows take no part |
| Dashboard.BreakdownsAddUp | src/dashboard.py:18-40 | city, category and customer sums add up to total sales; the daily sums miss exactly the undated rows' Sales |
| Dashboard.RowSums | src/dashboard.py:50 | `sum(axis=1)`: one total per matrix row, the sum of that row |
| Dashboard.RowSumsAddUp | src/dashboard.py:50 | the row totals add up to the sum of all entries |
| Dashboard.TotalSalesPerRegion | src/dashboard.py:43-50 | four totals, aligned with the four regions, each the sum of that region's seven entries |
| Dashboard.RegionTotals | src/dashboard.py:44-50 | the four totals in exact decimal arithmetic |
| Dashboard.MonthBounds | src/dashboard.py:54 | the earliest and latest period present, none on an empty table |
| Dashboard.MonthRun | src/dashboard.py:54 | the n consecutive periods from the first |
| Dashboard.Resample | src/dashboard.py:53-54 | `resample('M').sum()`: the consecutive periods from the first to the last dated period, each the Sales sum of its rows |
| Dashboard.ResampleFacts | src/dashboard.py:54 | every dated row's period is present, a period without rows holds 0, and the table adds up to the dated Sales |
| Dashboard.ResampleKeys | src/dashboard.py:54 | the resampled periods are distinct, consecutive, and cover every dated row's period |
| Dashboard.DashboardForecast | src/dashboard.py:57-65 | none without dated rows; otherwise three rows, the i-th dated at the end of the i-th month after the latest dated month and holding the model's i-th prediction on the monthly Sales sums |
| Dashboard.DashboardForecastDates | src/dashboard.py:64 | the forecast dates strictly increase and are later than every parsed order date |
| GeoForecast.LoadTable | src/geo_forecast.py:18 | day-first coercion: the column is replaced row by row and no row is removed |
| GeoForecast.SalesOverTime | src/geo_forecast.py:21 | one row per parsed date, ascending, each its Sales sum; NaT rows take no part |
| GeoForecast.SalesBySubCategory | src/geo_forecast.py:24 | one row per sub-category over every row, each its Sales sum |
| GeoForecast.SalesByDiscount | src/geo_forecast.py:27 | one row per discount value, ascending, each its Sales sum |
| GeoForecast.SalesByCity | src/geo_forecast.py:30 | one row per city over every row, each its Sales sum |
| GeoForecast.UndatedRowsStillCount | src/geo_forecast.py:18-30 | the sub-category, discount and city sums add up to all Sales; the per-day sums miss exactly the undated rows |
| GeoForecast.UndatedRowInCityTable | src/geo_forecast.py:30 | an undated row's city still appears in the city table |
| GeoForecast.LatestDay | src/geo_forecast.py:38 | `max()` of the dates: one of the parsed dates, and no parsed date is later; none without parsed dates |
| GeoForecast.GeoForecastTable | src/geo_forecast.py:36-38 | twelve rows dated at the month ends of the twelve periods after the latest date's, the i-th holding the model's i-th prediction on the per-day Sales sums (not monthly ones); none without a parsed date |
| GeoForecast.GeoForecastDates | src/geo_forecast.py:38 | the twelve dates strictly increase and are later than every parsed order date |
| GeoForecast.InventoryList | src/geo_forecast.py:106-108 | one item per forecast value, the i-th numbered i+1 and based on the i-th value |
| GeoForecast.InventoryNumbering | src/geo_forecast.py:107 | product numbers run 1..n, strictly increasing, without gaps or repeats |
| GeoForecast.InventoryFollowsForecast | src/geo_forecast.py:37-107 | on the page the list has twelve items |
| Auth.LoginKey | src/app.py:81 | the login's lookup key has no surrounding whitespace |
| Auth.LoginKeyIdempotent | src/app.py:81 | normalising a normalised e-mail changes nothing |
| Auth.SignupStep | src/app.py:51-76 | a missing field is a 400; a known e-mail is rejected with the store unchanged; an empty password makes the hash raise, with the store unchanged; otherwise exactly one record {name, e-mail, hash, role} is added under the key; the store stays keyed by e-mail |
| Auth.SignupAsWritten | src/app.py:51-76 | the handler as written: a registration adds exactly the lower-cased e-mail as a key, and any other outcome leaves the store unchanged |
| Auth.Signup | src/app.py:51-76 | the handler with the login's normalisation: a registration adds exactly the lower-cased, stripped e-mail as a key, any other outcome leaves the store unchanged, and the store stays keyed by e-mail |
| Auth.Authenticate | src/app.py:81-86 | a record is reached exactly when the normalised e-mail is stored and the password checks against its hash |
| Auth.LoginStep | src/app.py:79-94 | success exactly when authentication does; the session then gets the stored e-mail and role, and is untouched on failure |
| Auth.LoginRequired | src/app.py:32-39 | redirect exactly when the session has no 'email'; otherwise the view's own answer |
| Auth.SignupThenLogin | src/app.py:51-91 | with login's normalisation, a signup is followed by a successful login with the same password under any case/whitespace variant of the e-mail, and the session holds that e-mail and role |
| Auth.FailedLoginStaysLoggedOut | src/app.py:32-39 | a failed login leaves a logged-out session locked out |
| Auth.LoginOpensLogoutCloses | src/app.py:84-103 | after a successful login protected views are served; after logout they redirect |
| Auth.PaddedSignupIsUnreachable | src/app.py:54 | as written, a padded e-mail is stored under its padded key, which no login key can equal |
| Auth.PaddedEmailExample | src/app.py:54-94 | as written, " a@b.com" registers in an empty store and logging in with the same form fails |
| Auth.App.constructor | src/app.py:12-19 | the users collection as found (keyed by e-mail) and an empty session |
| Auth.App.SignupPost | src/app.py:51-76 | the store becomes the signup's new store and stays keyed by e-mail |
| Auth.App.LoginPost | src/app.py:79-94 | the session becomes the login step's session; the store stays keyed by e-mail |
| Auth.App.Logout | src/app.py:99-103 | the session is emptied; the store stays keyed by e-mail |
| Auth.App.Protected | src/app.py:32-39 | the guard's answer on the current session |

## Left out

- The statsmodels Holt-Winters fit and forecast, and the XGBoost fit and predict, are parameters. The model keeps only what the pages do with their output: how many values, the dates or rows they are paired with, and the units computed from them. The fits' own errors (a series too short for 12-period seasonality, an empty training set) are not modelled; a `Forecasting.Forecaster` answers for any history.
- The pandas date parsers (`format="mixed"`, `dayfirst=True`, `infer_datetime_format=True`, `%m/%d/%Y`) are parameters that return a date or nothing. Their format rules are not modelled.
- Text.Lower: only the ASCII letters are lower-cased; Unicode case mapping is not modelled.
- Floating point: Sales, Profit and Discount are exact reals, so rounding and NaN propagation inside sums are not modelled. The same goes for the f-string formatting of KPIs, the discount slider marks, and `round(forecast * 1.1)` in the inventory text. GeoForecast.InventoryList carries the forecast value, not the rounded unit count.
- The hard-coded demonstration figures (the MAPE table and the metric scores of the sales-analysis page) are displayed, not computed.
- All Dash/Plotly layout, styles and callback wiring are left out, as are Flask routing, redirects, templates, flash messages and the GET branches of signup and login. The home route (src/app.py:42-47) only renders a template.
- MongoDB, the `os.urandom` secret key and bcrypt's internals are left out. The store is a map from e-mail to record. The hash draws its salt from a parameter and is assumed sound (`Auth.Sound`). Its one error, a `ValueError` on an empty password, is the `EmptyPassword` outcome.
- CSV paths and file reading, and `print(df.columns)`, are left out. src/product_performance.py passes columns straight to charts and is not part of this model.
- CustomerInsights.SortDescending: it promises a non-increasing permutation and nothing about the order of equal values, which pandas' `nlargest` does not promise either.
- `YearMonth` is a string period in the source, and its `groupby` orders the strings. The model orders periods chronologically, which is the same order for four-digit years.
- CustomerInsights.Frequency: it counts rows. `transform('count')` skips a null Order ID, and null Order IDs are not modelled.
- Missing columns other than Order Date (a KeyError from pandas) are not modelled. Every row has all the columns used.
- Dashboard.CitySales: the source groups the table before converting Order Date. The model groups the converted rows, whose City and Sales are the same.
- The heatmap's `%b` month labels are not modelled. The month dropdown's `%B` labels are.
- CustomerInsights.ClvFacts: CLV is stated through the total_spent and frequency columns it multiplies. It is not restated as "customer sum × customer row count" in one formula; TotalSpentFacts and FrequencyFacts give those two.
- Auth.App.SignupPost: it stores the e-mail under the login's normalisation (lower-case and strip), the corrected behaviour from "## Findings". The handler as written (lower-case only) is `Auth.SignupAsWritten`.

## Findings

| source | as written | input that shows it | evidently intended | confidence | as-written member | corrected member |
|---|---|---|---|---|---|---|
| src/app.py:54 and src/app.py:81 | signup stores `email.lower()`, while login looks up `email.lower().strip()` | signing up with the e-mail " a@b.com" stores the key " a@b.com", which no login can produce, so that account can never log in | signup normalises the e-mail the way login does | not executed | Auth.SignupAsWritten, Auth.PaddedSignupIsUnreachable, Auth.PaddedEmailExample | Auth.SignupThenLogin (about Auth.Signup, which keys by Auth.LoginKey) |

=== FILE: auth.dfy ===
/** The Flask application's accounts: the user store (the MongoDB users
    collection, looked up by e-mail), the session, and the signup, login,
    logout and login_required handlers. bcrypt is a pair of functions, a
    salted hash and a check, assumed sound: a hash made from a password
    checks against that password. */
module Auth {
  import opened Wrappers
  import opened Text

  /** One document of the users collection; `password` holds the hash. */
  datatype User = User(name: string, email: string, password: string, role: string)

  /** bcrypt.generate_password_hash(password) with the salt it draws, and
      bcrypt.check_password_hash(stored, password). */
  datatype Hashing = Hashing(hash: (string, string) -> string, check: (string, string) -> bool)

  ghost predicate Sound(h: Hashing) {
    forall p, salt :: h.check(h.hash(p, salt), p)
  }

  /** find_one({'email': e}) finds the document stored under e. */
  ghost predicate Keyed(users: map<string, User>) {
    forall e :: e in users ==> users[e].email == e
  }

  /** request.form.get(field, ''). */
  function FormGet(form: map<string, string>, field: string): string {
    if field in form then form[field] else ""
  }

  /** How login normalises the e-mail it looks up: lower() then strip(). */
  function LoginKey(email: string): (k: string)
    ensures k == [] || (!IsSpace(k[0]) && !IsSpace(k[|k| - 1]))
  {
    Strip(Lower(email))
  }

  /** Normalising an already normalised e-mail changes nothing. */
  lemma LoginKeyIdempotent(email: string)
    ensures LoginKey(LoginKey(email)) == LoginKey(email)
  {
    var l := Lower(email);
    LowerIdempotent(email);
    LowerStripCommute(l);
    StripIdempotent(l);
  }

  /* ---------- signup ---------- */

  /** EmptyPassword: generate_password_hash raises ValueError on an empty
      password, so the request fails before anything is stored. */
  datatype SignupOutcome = BadRequest | AlreadyRegistered | EmptyPassword | Registered

  /** A POST to /signup with e-mails normalised by `key`: a missing field is
      a 400 error, a known e-mail is rejected with the store unchanged, an
      empty password makes the hash raise with the store unchanged, and
      otherwise exactly one record {name, email, hash, role} is added. */
  function SignupStep(users: map<string, User>, form: map<string, string>, salt: string, h: Hashing,
                      key: string -> string): (r: (map<string, User>, SignupOutcome))
    ensures r.1 == BadRequest <==> !("name" in form && "email" in form && "password" in form && "role" in form)
    ensures r.1 != BadRequest ==> (r.1 == AlreadyRegistered <==> key(form["email"]) in users)
    ensures r.1 == EmptyPassword <==>
              && "name" in form && "email" in form && "password" in form && "role" in form
              && key(form["email"]) !in users && form["password"] == ""
    ensures r.1 != Registered ==> r.0 == users
    ensures r.1 == Registered ==>
              var e := key(form["email"]);
              r.0 == users[e := User(form["name"], e, h.hash(form["password"], salt), form["role"])]
    ensures Keyed(users) ==> Keyed(r.0)
  {
    if !("name" in form && "email" in form && "password" in form && "role" in form) then (users, BadRequest)
    else
      var e := key(form["email"]);
      if e in users then (users, AlreadyRegistered)
      else if form["password"] == "" then (users, EmptyPassword)
      else (users[e := User(form["name"], e, h.hash(form["password"], salt), form["role"])], Registered)
  }

  /** The handler as written: the e-mail is only lower-cased. */
  function SignupAsWritten(users: map<string, User>, form: map<string, string>, salt: string, h: Hashing)
    : (r: (map<string, User>, SignupOutcome))
    ensures r.1 != Registered ==> r.0 == users
    ensures r.1 == Registered ==> "email" in form && r.0.Keys == users.Keys + {Lower(form["email"])}
  {
    SignupStep(users, form, salt, h, Lower)
  }

  /** The handler with the login's normalisation, the one the application
      object below uses. */
  function Signup(users: map<string, User>, form: map<string, string>, salt: string, h: Hashing)
    : (r: (map<string, User>, SignupOutcome))
    ensures r.1 != Registered ==> r.0 == users
    ensures r.1 == Registered ==> "email" in form && r.0.Keys == users.Keys + {LoginKey(form["email"])}
    ensures Keyed(users) ==> Keyed(r.0)
  {
    SignupStep(users, form, salt, h, LoginKey)
  }

  /* ---------- login, logout, login_required ---------- */

  /** The record a login reaches: the one stored under the normalised
      e-mail, provided the typed password checks against its hash. */
  function Authenticate(users: map<string, User>, email: string, password: string, h: Hashing): (u: Option<User>)
    ensures u.Some? <==> LoginKey(email) in users && h.check(users[LoginKey(email)].password, password)
    ensures u.Some? ==> u.value == users[LoginKey(email)]
  {
    var e := LoginKey(email);
    if e in users && h.check(users[e].password, password) then Some(users[e]) else None
  }

  /** A POST to /login: the e-mail and password fields default to empty;
      on success the session gets the record's email and role, otherwise it
      is left alone. */
  function LoginStep(users: map<string, User>, session: map<string, string>, form: map<string, string>, h: Hashing)
    : (r: (map<string, string>, bool))
    ensures var u := Authenticate(users, FormGet(form, "email"), FormGet(form, "password"), h);
            && (r.1 <==> u.Some?)
            && (u.Some? ==> r.0 == session["email" := u.value.email]["role" := u.value.role])
            && (u.None? ==> r.0 == session)
  {
    match Authenticate(users, FormGet(form, "email"), FormGet(form, "password"), h)
    case Some(u) => (session["email" := u.email]["role" := u.role], true)
    case None => (session, false)
  }

  /** What a protected route answers. */
  datatype Guarded<R> = RedirectToLogin | Served(response: R)

  /** login_required: without 'email' in the session the view is not
      called and the client is sent to the login page. */
  function LoginRequired<R>(session: map<string, string>, view: () -> R): (g: Guarded<R>)
    ensures g.RedirectToLogin? <==> "email" !in session
    ensures g.Served? ==> g.response == view()
  {
    if "email" !in session then RedirectToLogin else Served(view())
  }

  /* ---------- what the handlers promise together ---------- */

  /** With the login's normalisation, a successful signup is followed by a
      successful login with the same password and any spelling of the
      e-mail that differs only in case and surrounding whitespace, and the
      session then holds the stored e-mail and role. */
  lemma SignupThenLogin(users: map<string, User>, form: map<string, string>, salt: string, h: Hashing,
                        session: map<string, string>, login: map<string, string>)
    requires Sound(h) && Keyed(users)
    requires Signup(users, form, salt, h).1 == Registered
    requires "email" in login && LoginKey(login["email"]) == LoginKey(form["email"])
    requires FormGet(login, "password") == form["password"]
    ensures var users' := Signup(users, form, salt, h).0;
            var (session', ok) := LoginStep(users', session, login, h);
            && ok
            && session'["email"] == LoginKey(form["email"])
            && session'["role"] == form["role"]
  {
    var e := LoginKey(form["email"]);
    var users' := Signup(users, form, salt, h).0;
    assert users'[e].password == h.hash(form["password"], salt);
    assert FormGet(login, "email") == login["email"];
  }

  /** A failed login changes nothing, and a session that had no user stays
      locked out of protected routes. */
  lemma FailedLoginStaysLoggedOut<R>(users: map<string, User>, session: map<string, string>,
                                     form: map<string, string>, h: Hashing, view: () -> R)
    requires !LoginStep(users, session, form, h).1
    requires "email" !in session
    ensures LoginRequired(LoginStep(users, session, form, h).0, view) == RedirectToLogin
  {
  }

  /** After a successful login protected routes are served; after logout
      (session.clear()) they redirect again. */
  lemma LoginOpensLogoutCloses<R>(users: map<string, User>, session: map<string, string>,
                                  form: map<string, string>, h: Hashing, view: () -> R)
    requires LoginStep(users, session, form, h).1
    ensures LoginRequired(LoginStep(users, session, form, h).0, view) == Served(view())
    ensures LoginRequired(map[], view) == RedirectToLogin
  {
  }

  /** The handler as written stores an e-mail with surrounding whitespace
      under that padded key, and no login can ever reach it: whatever is
      typed, the login's key has no surrounding whitespace. */
  lemma PaddedSignupIsUnreachable(users: map<string, User>, form: map<string, string>, salt: string, h: Hashing)
    requires SignupAsWritten(users, form, salt, h).1 == Registered
    requires form["email"] != [] && IsSpace(form["email"][0])
    ensures Lower(form["email"]) in SignupAsWritten(users, form, salt, h).0
    ensures forall login :: LoginKey(FormGet(login, "email")) != Lower(form["email"])
  {
    var e := Lower(form["email"]);
    assert IsSpace(e[0]) by {
      assert e[0] == LowerChar(form["email"][0]) == form["email"][0];
    }
  }

  /** Concretely: in an empty store " a@b.com" registers, and logging in
      with the very same form then fails. */
  lemma PaddedEmailExample(salt: string, h: Hashing, session: map<string, string>)
    requires Sound(h)
    ensures var form := map["name" := "A", "email" := " a@b.com", "password" := "pw", "role" := "user"];
            var (users', outcome) := SignupAsWritten(map[], form, salt, h);
            && outcome == Registered
            && !LoginStep(users', session, form, h).1
  {
    var form := map["name" := "A", "email" := " a@b.com", "password" := "pw", "role" := "user"];
    assert Lower(" a@b.com") == " a@b.com";
    assert form["email"][0] == ' ';
    PaddedSignupIsUnreachable(map[], form, salt, h);
    assert SignupAsWritten(map[], form, salt, h).0.Keys == {" a@b.com"};
  }

  /* ---------- the running application ---------- */

  /** The application's mutable state: the users collection and the
      current client's session. */
  class App {
    var users: map<string, User>
    var session: map<string, string>
    const hashing: Hashing

    ghost predicate Valid()
      reads this`users
    {
      Sound(hashing) && Keyed(users)
    }

    /** The application starts on the users collection as it is found,
        with no one logged in. */
    constructor (h: Hashing, users0: map<string, User>)
      requires Sound(h) && Keyed(users0)
      ensures Valid() && hashing == h && users == users0 && session == map[]
    {
      hashing := h;
      users := users0;
      session := map[];
    }

    /** POST /signup; the session is not touched. */
    method SignupPost(form: map<string, string>, salt: string) returns (outcome: SignupOutcome)
      requires Valid()
      modifies this`users
      ensures Valid()
      ensures (users, outcome) == Signup(old(users), form, salt, hashing)
    {
      var r := Signup(users, form, salt, hashing);
      users, outcome := r.0, r.1;
    }

    /** POST /login; the store is not touched. */
    method LoginPost(form: map<string, string>) returns (ok: bool)
      requires Valid()
      modifies this`session
      ensures Valid()
      ensures (session, ok) == LoginStep(users, old(session), form, hashing)
    {
      var r := LoginStep(users, session, form, hashing);
      session, ok := r.0, r.1;
    }

    /** GET /logout. */
    method Logout()
      requires Valid()
      modifies this`session
      ensures Valid()
      ensures session == map[]
    {
      session := map[];
    }

    /** A request to a route wrapped in login_required. */
    method Protected<R>(view: () -> R) returns (g: Guarded<R>)
      ensures g == LoginRequired(session, view)
    {
      g := LoginRequired(session, view);
    }
  }
}

=== FILE: calendar.dfy ===
/** Calendar arithmetic behind the pages' date columns: Python's proleptic
    Gregorian day ordinal (date.toordinal, used for Month_Ordinal and for
    day differences), weekday names (dt.day_name), monthly periods
    (dt.to_period('M')), month offsets (pd.DateOffset(months=i)) and month
    ends (the 'M' frequency of pd.date_range). */
module Calendar {
  import opened Collections

  datatype Date = Date(year: int, month: int, day: int)

  predicate IsLeapYear(y: int) {
    y % 4 == 0 && (y % 100 != 0 || y % 400 == 0)
  }

  function DaysInMonth(y: int, m: int): int {
    if m == 2 then (if IsLeapYear(y) then 29 else 28)
    else if m == 4 || m == 6 || m == 9 || m == 11 then 30
    else 31
  }

  function DaysInYear(y: int): int {
    if IsLeapYear(y) then 366 else 365
  }

  /** A calendar date: a month 1..12 and a day that exists in that month. */
  predicate ValidDate(d: Date) {
    1 <= d.month <= 12 && 1 <= d.day <= DaysInMonth(d.year, d.month)
  }

  /** The dates a parser can produce. */
  type Day = d: Date | ValidDate(d) witness Date(1, 1, 1)

  /** Days in the years before year y (the proleptic Gregorian count that
      date.toordinal starts from). */
  function DaysBeforeYear(y: int): int {
    var k := y - 1;
    k * 365 + k / 4 - k / 100 + k / 400
  }

  /** Days in year y before the first day of month m. */
  function DaysBeforeMonth(y: int, m: int): int
    requires 1 <= m <= 12
  {
    [0, 31, 59, 90, 120, 151, 181, 212, 243, 273, 304, 334][m - 1]
      + (if m > 2 && IsLeapYear(y) then 1 else 0)
  }

  /** date.toordinal(): 0001-01-01 is day 1. */
  function Ordinal(d: Date): (o: int)
    requires 1 <= d.month <= 12
    ensures d == Date(1, 1, 1) ==> o == 1
    ensures ValidDate(d) ==> DaysBeforeYear(d.year) < o <= DaysBeforeYear(d.year) + DaysInYear(d.year)
  {
    MonthWithinYear(d.year, d.month);
    DaysBeforeYear(d.year) + DaysBeforeMonth(d.year, d.month) + d.day
  }

  lemma YearStep(y: int)
    ensures DaysBeforeYear(y + 1) == DaysBeforeYear(y) + DaysInYear(y)
  {
    var k := y - 1;
    DivStep(k, 4);
    DivStep(k, 100);
    DivStep(k, 400);
    DivisibilityChain(y);
  }

  /** A multiple of 400 is a multiple of 100, and a multiple of 100 one of 4. */
  lemma DivisibilityChain(y: int)
    ensures y % 400 == 0 ==> y % 100 == 0
    ensures y % 100 == 0 ==> y % 4 == 0
  {
    if y % 400 == 0 {
      MultipleOfMultiple(y, 400, 100);
    }
    if y % 100 == 0 {
      MultipleOfMultiple(y, 100, 4);
    }
  }

  lemma MultipleOfMultiple(y: int, n: int, m: int)
    requires (n == 400 && m == 100) || (n == 100 && m == 4)
    requires y % n == 0
    ensures y % m == 0
  {
    var q := y / n;
    assert y == n * q;
    var t := (n / m) * q;
    assert y == m * t;
  }

  /** Floor division by n gains one exactly when the numerator reaches a
      multiple of n. */
  lemma DivStep(k: int, n: int)
    requires n == 4 || n == 100 || n == 400
    ensures (k + 1) / n == k / n + (if (k + 1) % n == 0 then 1 else 0)
  {
    var q, r := k / n, k % n;
    assert k == q * n + r && 0 <= r < n;
    if r == n - 1 {
      assert k + 1 == (q + 1) * n;
    } else {
      assert k + 1 == q * n + (r + 1);
    }
  }

  lemma MonthStep(y: int, m: int)
    requires 1 <= m < 12
    ensures DaysBeforeMonth(y, m + 1) == DaysBeforeMonth(y, m) + DaysInMonth(y, m)
  {
  }

  lemma YearEnd(y: int)
    ensures DaysBeforeMonth(y, 12) + DaysInMonth(y, 12) == DaysInYear(y)
  {
  }

  /** Every day of an earlier month comes before the first day of a later
      month of the same year. */
  lemma {:induction false} MonthsAdvance(y: int, m1: int, m2: int)
    requires 1 <= m1 < m2 <= 12
    ensures DaysBeforeMonth(y, m1) + DaysInMonth(y, m1) <= DaysBeforeMonth(y, m2)
    decreases m2 - m1
  {
    MonthStep(y, m1);
    if m1 + 1 < m2 {
      MonthsAdvance(y, m1 + 1, m2);
    }
  }

  lemma {:induction false} MonthWithinYear(y: int, m: int)
    requires 1 <= m <= 12
    ensures DaysBeforeMonth(y, m) + DaysInMonth(y, m) <= DaysInYear(y)
  {
    YearEnd(y);
    if m < 12 {
      MonthsAdvance(y, m, 12);
    }
  }

  /** Every day of an earlier year comes before the first day of a later
      year. */
  lemma {:induction false} YearsAdvance(a: int, b: int)
    requires a < b
    ensures DaysBeforeYear(a) + DaysInYear(a) <= DaysBeforeYear(b)
    decreases b - a
  {
    YearStep(a);
    if a + 1 < b {
      YearsAdvance(a + 1, b);
      YearStep(a + 1);
    }
  }

  /** Chronological order on dates: by year, then month, then day (the order
      of pandas Timestamps without a time part). */
  predicate DateLess(a: Date, b: Date) {
    || a.year < b.year
    || (a.year == b.year && a.month < b.month)
    || (a.year == b.year && a.month == b.month && a.day < b.day)
  }

  lemma DateLessIsStrictTotalOrder()
    ensures StrictTotalOrder(DateLess)
  {
  }

  lemma {:induction false} OrdinalIncreasing(a: Date, b: Date)
    requires ValidDate(a) && ValidDate(b) && DateLess(a, b)
    ensures Ordinal(a) < Ordinal(b)
  {
    MonthWithinYear(a.year, a.month);
    if a.year < b.year {
      YearsAdvance(a.year, b.year);
    } else if a.month < b.month {
      MonthsAdvance(a.year, a.month, b.month);
    }
  }

  /** The day ordinal orders valid dates exactly as the calendar does, and
      equal ordinals mean equal dates. */
  lemma OrdinalOrder(a: Date, b: Date)
    requires ValidDate(a) && ValidDate(b)
    ensures DateLess(a, b) <==> Ordinal(a) < Ordinal(b)
    ensures a == b <==> Ordinal(a) == Ordinal(b)
  {
    if DateLess(a, b) {
      OrdinalIncreasing(a, b);
    } else if DateLess(b, a) {
      OrdinalIncreasing(b, a);
    }
  }

  /** The calendar day after d. */
  function NextDay(d: Day): (n: Day)
    ensures DateLess(d, n)
  {
    if d.day < DaysInMonth(d.year, d.month) then Date(d.year, d.month, d.day + 1)
    else if d.month < 12 then Date(d.year, d.month + 1, 1)
    else Date(d.year + 1, 1, 1)
  }

  /** Consecutive days have consecutive ordinals, so the difference of two
      ordinals counts the days from one date to the other. */
  lemma OrdinalNextDay(d: Day)
    ensures Ordinal(NextDay(d)) == Ordinal(d) + 1
  {
    if d.day == DaysInMonth(d.year, d.month) {
      if d.month < 12 {
        MonthStep(d.year, d.month);
      } else {
        YearEnd(d.year);
        YearStep(d.year);
      }
    }
  }

  /** No date lies strictly between a day and the next one. */
  lemma NextDayIsSuccessor(d: Day, x: Day)
    requires DateLess(d, x)
    ensures x == NextDay(d) || DateLess(NextDay(d), x)
  {
    OrdinalNextDay(d);
    OrdinalOrder(d, x);
    OrdinalOrder(NextDay(d), x);
  }

  /* ---------- weekdays ---------- */

  const DayNames: seq<string> :=
    ["Monday", "Tuesday", "Wednesday", "Thursday", "Friday", "Saturday", "Sunday"]

  /** date.weekday(): 0 is Monday. */
  function WeekdayIndex(d: Date): (w: int)
    requires 1 <= d.month <= 12
    ensures 0 <= w < 7
  {
    (Ordinal(d) + 6) % 7
  }

  /** 0001-01-01, ordinal 1, was a Monday. */
  lemma WeekdayAnchor()
    ensures WeekdayIndex(Date(1, 1, 1)) == 0 && DayName(Date(1, 1, 1)) == "Monday"
  {
  }

  /** The weekday moves on by one each day, wrapping from Sunday to Monday:
      with the anchor this fixes the weekday of every date. */
  lemma WeekdayNextDay(d: Day)
    ensures WeekdayIndex(NextDay(d)) == (WeekdayIndex(d) + 1) % 7
    ensures DayName(NextDay(d)) == DayNames[(WeekdayIndex(d) + 1) % 7]
  {
    OrdinalNextDay(d);
    ModSevenStep(Ordinal(d) + 6);
  }

  lemma ModSevenStep(k: int)
    ensures (k + 1) % 7 == (k % 7 + 1) % 7
  {
    var q, r := k / 7, k % 7;
    assert k == 7 * q + r && 0 <= r < 7;
    if r == 6 {
      assert k + 1 == 7 * (q + 1);
    } else {
      assert k + 1 == 7 * q + (r + 1);
    }
  }

  /** Series.dt.day_name(). */
  function DayName(d: Date): (n: string)
    requires 1 <= d.month <= 12
    ensures n in DayNames
  {
    DayNames[WeekdayIndex(d)]
  }

  /* ---------- monthly periods ---------- */

  /** A monthly period, the value of Series.dt.to_period('M'). */
  datatype YearMonth = YearMonth(year: int, month: int)

  predicate ValidMonth(ym: YearMonth) {
    1 <= ym.month <= 12
  }

  type Month = ym: YearMonth | ValidMonth(ym) witness YearMonth(1, 1)

  /** The monthly period a date falls in. */
  function Bucket(d: Day): (p: Month)
    ensures !DateLess(d, FirstOfMonth(p)) && !DateLess(MonthEnd(p), d)
  {
    YearMonth(d.year, d.month)
  }

  /** Months since year 0: consecutive periods have consecutive indices. */
  function MonthIndex(ym: Month): int {
    ym.year * 12 + ym.month - 1
  }

  function FromMonthIndex(i: int): (ym: Month)
    ensures MonthIndex(ym) == i
  {
    YearMonth(i / 12, i % 12 + 1)
  }

  lemma MonthIndexInjective(a: Month, b: Month)
    requires MonthIndex(a) == MonthIndex(b)
    ensures a == b
  {
  }

  /** Period + n months (Timestamp + pd.DateOffset(months=n) on the first of a
      month). */
  function AddMonths(ym: Month, n: int): (r: Month)
    ensures MonthIndex(r) == MonthIndex(ym) + n
  {
    FromMonthIndex(MonthIndex(ym) + n)
  }

  lemma AddMonthsZero(ym: Month)
    ensures AddMonths(ym, 0) == ym
  {
    MonthIndexInjective(AddMonths(ym, 0), ym);
  }

  /** Chronological order on periods. */
  predicate YMLess(a: Month, b: Month) {
    a.year < b.year || (a.year == b.year && a.month < b.month)
  }

  lemma YMLessIsStrictTotalOrder()
    ensures StrictTotalOrder(YMLess)
  {
  }

  lemma YMLessIsIndexOrder(a: Month, b: Month)
    ensures YMLess(a, b) <==> MonthIndex(a) < MonthIndex(b)
  {
  }

  function FirstOfMonth(ym: Month): Day {
    Date(ym.year, ym.month, 1)
  }

  /** The last day of the period: the dates pd.date_range(freq='M') yields. */
  function MonthEnd(ym: Month): Day {
    Date(ym.year, ym.month, DaysInMonth(ym.year, ym.month))
  }

  /** The month ends of the n periods after ym, in order (pd.date_range with
      the month-end frequency, started just after period ym). */
  function MonthEndsAfter(ym: Month, n: nat): (ds: seq<Day>)
    ensures |ds| == n
    ensures forall i :: 0 <= i < n ==> ds[i] == MonthEnd(AddMonths(ym, i + 1))
  {
    seq(n, i => MonthEndAfter(ym, i + 1))
  }

  /** The month end of the period k months after ym. */
  function MonthEndAfter(ym: Month, k: int): Day {
    MonthEnd(AddMonths(ym, k))
  }

  /** Those dates strictly increase and all come after every date of period
      ym or of an earlier period. */
  lemma MonthEndsAfterOrdered(ym: Month, n: nat, d: Day)
    requires !YMLess(ym, Bucket(d))
    ensures forall i, j :: 0 <= i < j < n ==> DateLess(MonthEndsAfter(ym, n)[i], MonthEndsAfter(ym, n)[j])
    ensures forall i :: 0 <= i < n ==> DateLess(d, MonthEndsAfter(ym, n)[i])
  {
    var ds := MonthEndsAfter(ym, n);
    forall i, j | 0 <= i < j < n ensures DateLess(ds[i], ds[j]) {
      YMLessIsIndexOrder(AddMonths(ym, i + 1), AddMonths(ym, j + 1));
    }
    forall i | 0 <= i < n ensures DateLess(d, ds[i]) {
      YMLessIsIndexOrder(ym, AddMonths(ym, i + 1));
    }
  }

  /** Chronological order on parsed dates. */
  predicate DayLess(a: Day, b: Day) {
    DateLess(a, b)
  }

  lemma DayLessIsStrictTotalOrder()
    ensures StrictTotalOrder(DayLess)
  {
  }

  /** Month_Ordinal: the ordinal of the first day of the period. */
  function MonthOrdinal(ym: Month): (o: int)
    ensures Ordinal(MonthEnd(ym)) == o + DaysInMonth(ym.year, ym.month) - 1
  {
    Ordinal(FirstOfMonth(ym))
  }

  /** Month_Ordinal strictly increases with the period. */
  lemma MonthOrdinalIncreasing(a: Month, b: Month)
    requires YMLess(a, b)
    ensures MonthOrdinal(a) < MonthOrdinal(b)
  {
    OrdinalIncreasing(FirstOfMonth(a), FirstOfMonth(b));
  }

  /** A date in a later period is a later date. */
  lemma LaterPeriodLaterDate(a: Day, b: Day)
    requires YMLess(Bucket(a), Bucket(b))
    ensures DateLess(a, b)
  {
  }
}

=== FILE: category_predictions.dfy ===
/** The category page: KPIs and breakdowns of the cleaned table, the
    chronologically sorted monthly sales, the (category, sub-category, month)
    table the product-level regressor trains on, its two label encoders, the
    grid of future feature rows and the two dropdown callbacks. The
    Holt-Winters and XGBoost models are parameters. */
module CategoryPredictions {
  import opened Wrappers
  import opened Collections
  import opened Text
  import opened Calendar
  import opened Transactions
  import opened Forecasting

  /* ---------- KPIs and breakdowns ---------- */

  datatype Kpis = Kpis(totalSales: real, totalProfit: real, avgDiscount: Option<real>)

  /** Total sales and profit, and the mean discount (NaN on an empty table). */
  function ComputeKpis(df: seq<Row<Day>>): (k: Kpis)
    ensures k.avgDiscount.Some? <==> |df| > 0
    ensures k.avgDiscount.Some? ==> k.avgDiscount.value * (|df| as real) == Total(df, DiscountOf)
    ensures k.totalSales == Total(df, SalesOf) && k.totalProfit == Total(df, ProfitOf)
  {
    Kpis(Total(df, SalesOf), Total(df, ProfitOf), Mean(df, DiscountOf))
  }

  function CategorySubOf<D>(r: Row<D>): (string, string) {
    (r.category, r.subCategory)
  }

  /** Sales per region. */
  function RegionalSales(df: seq<Row<Day>>): (g: seq<Group<string>>)
    ensures IsGroupSum(g, df, RegionOf, SalesOf, LexLess)
  {
    LexLessIsStrictTotalOrder();
    GroupSum(df, RegionOf, SalesOf, LexLess)
  }

  /** Sales per category. */
  function CategorySales(df: seq<Row<Day>>): (g: seq<Group<string>>)
    ensures IsGroupSum(g, df, CategoryOf, SalesOf, LexLess)
  {
    LexLessIsStrictTotalOrder();
    GroupSum(df, CategoryOf, SalesOf, LexLess)
  }

  /** Sales per (category, sub-category) pair. */
  function SubcategorySales(df: seq<Row<Day>>): (g: seq<Group<(string, string)>>)
    ensures IsGroupSum(g, df, CategorySubOf, SalesOf, PairLess(LexLess, LexLess))
  {
    LexLessIsStrictTotalOrder();
    PairLessIsStrictTotalOrder(LexLess, LexLess);
    GroupSum(df, CategorySubOf, SalesOf, PairLess(LexLess, LexLess))
  }

  /** Sales per monthly period. */
  function MonthlySales(df: seq<Row<Day>>): (g: seq<Group<Month>>)
    ensures IsGroupSum(g, df, MonthOf, SalesOf, YMLess)
  {
    YMLessIsStrictTotalOrder();
    GroupSum(df, MonthOf, SalesOf, YMLess)
  }

  /** Every breakdown the page shows adds up to the total sales KPI. */
  lemma BreakdownsAddUp(df: seq<Row<Day>>)
    ensures GroupTotal(RegionalSales(df)) == ComputeKpis(df).totalSales
    ensures GroupTotal(CategorySales(df)) == ComputeKpis(df).totalSales
    ensures GroupTotal(SubcategorySales(df)) == ComputeKpis(df).totalSales
    ensures GroupTotal(MonthlySales(df)) == ComputeKpis(df).totalSales
  {
    LexLessIsStrictTotalOrder();
    PairLessIsStrictTotalOrder(LexLess, LexLess);
    YMLessIsStrictTotalOrder();
    GroupSumAdditive(df, RegionOf, SalesOf, LexLess);
    GroupSumAdditive(df, CategoryOf, SalesOf, LexLess);
    GroupSumAdditive(df, CategorySubOf, SalesOf, PairLess(LexLess, LexLess));
    GroupSumAdditive(df, MonthOf, SalesOf, YMLess);
  }

  /* ---------- sorting the monthly table in place ---------- */

  /** The sort key of a monthly row: its period as a month count. */
  function MonthKey(g: Group<Month>): int {
    MonthIndex(g.key)
  }

  ghost predicate SortedByMonth(s: seq<Group<Month>>) {
    forall i, j :: 0 <= i < j < |s| ==> MonthKey(s[i]) <= MonthKey(s[j])
  }

  /** sort_values('YearMonth_dt', inplace=True), as an insertion sort: the
      rows end up in chronological order and are a permutation of the rows
      before. */
  method SortByMonth(a: array<Group<Month>>)
    modifies a
    ensures SortedByMonth(a[..])
    ensures multiset(a[..]) == multiset(old(a[..]))
  {
    var i := 0;
    while i < a.Length
      invariant 0 <= i <= a.Length
      invariant SortedByMonth(a[..i])
      invariant multiset(a[..]) == multiset(old(a[..]))
    {
      InsertIntoSorted(a, i);
      i := i + 1;
    }
    assert a[..a.Length] == a[..];
  }

  /** One insertion step: a[i] sinks into the sorted prefix a[..i]. */
  method InsertIntoSorted(a: array<Group<Month>>, i: int)
    requires 0 <= i < a.Length && SortedByMonth(a[..i])
    modifies a
    ensures SortedByMonth(a[..i + 1])
    ensures multiset(a[..]) == multiset(old(a[..]))
  {
    var j := i;
    assert SortedExcept(a[..], i, j);
    while j > 0 && MonthKey(a[j - 1]) > MonthKey(a[j])
      invariant 0 <= j <= i
      invariant SortedExcept(a[..], i, j)
      invariant multiset(a[..]) == multiset(old(a[..]))
    {
      ghost var before := a[..];
      a[j - 1], a[j] := a[j], a[j - 1];
      SwapPermutes(before, a[..], j - 1, j);
      SwapMovesHole(before, a[..], i, j);
      j := j - 1;
    }
    HoleClosed(a[..], i, j);
  }

  /** a[..i + 1] is sorted except for pairs ending at the hole j. */
  ghost predicate SortedExcept(s: seq<Group<Month>>, i: int, j: int)
    requires 0 <= i < |s|
  {
    forall k, l :: 0 <= k < l <= i && l != j ==> MonthKey(s[k]) <= MonthKey(s[l])
  }

  lemma SwapMovesHole(s: seq<Group<Month>>, t: seq<Group<Month>>, i: int, j: int)
    requires 0 < j <= i < |s| && SortedExcept(s, i, j)
    requires MonthKey(s[j - 1]) > MonthKey(s[j])
    requires t == s[j - 1 := s[j]][j := s[j - 1]]
    ensures SortedExcept(t, i, j - 1)
  {
  }

  lemma HoleClosed(s: seq<Group<Month>>, i: int, j: int)
    requires 0 <= j <= i < |s| && SortedExcept(s, i, j)
    requires j == 0 || MonthKey(s[j - 1]) <= MonthKey(s[j])
    ensures SortedByMonth(s[..i + 1])
  {
    forall k, l | 0 <= k < l <= i ensures MonthKey(s[k]) <= MonthKey(s[l]) {
      if l == j && k < j - 1 {
        assert MonthKey(s[k]) <= MonthKey(s[j - 1]);
      }
    }
  }

  lemma SwapPermutes<T>(s: seq<T>, t: seq<T>, i: int, j: int)
    requires 0 <= i < |s| && 0 <= j < |s|
    requires t == s[i := s[j]][j := s[i]]
    ensures multiset(t) == multiset(s)
  {
  }

  /** Sorting the group-by output changes nothing: any chronologically sorted
      permutation of the monthly table is the monthly table itself. */
  lemma SortingMonthlySalesKeepsIt(df: seq<Row<Day>>, t: seq<Group<Month>>)
    requires SortedByMonth(t)
    requires multiset(t) == multiset(MonthlySales(df))
    ensures t == MonthlySales(df)
  {
    var s := MonthlySales(df);
    forall i, j | 0 <= i < j < |s| ensures YMLess(s[i].key, s[j].key) {
      assert GroupKeys(s)[i] == s[i].key && GroupKeys(s)[j] == s[j].key;
    }
    SortedPermutationOfChronological(s, t);
  }

  lemma {:induction false} SortedPermutationOfChronological(s: seq<Group<Month>>, t: seq<Group<Month>>)
    requires forall i, j :: 0 <= i < j < |s| ==> YMLess(s[i].key, s[j].key)
    requires SortedByMonth(t)
    requires multiset(t) == multiset(s)
    ensures t == s
  {
    assert |t| == |multiset(t)| == |multiset(s)| == |s|;
    if s != [] {
      SmallestComesFirst(s, t);
      assert s == [s[0]] + s[1..] && t == [t[0]] + t[1..];
      assert multiset(t[1..]) == multiset(t) - multiset([t[0]]);
      assert multiset(s[1..]) == multiset(s) - multiset([s[0]]);
      assert SortedByMonth(t[1..]) by {
        forall i, j | 0 <= i < j < |t[1..]| ensures MonthKey(t[1..][i]) <= MonthKey(t[1..][j]) {
          assert t[1..][i] == t[i + 1] && t[1..][j] == t[j + 1];
        }
      }
      forall i, j | 0 <= i < j < |s[1..]| ensures YMLess(s[1..][i].key, s[1..][j].key) {
        assert s[1..][i] == s[i + 1] && s[1..][j] == s[j + 1];
      }
      SortedPermutationOfChronological(s[1..], t[1..]);
    }
  }

  /** The first row of the sorted permutation is the earliest month, which
      is the first row of the chronological table. */
  lemma SmallestComesFirst(s: seq<Group<Month>>, t: seq<Group<Month>>)
    requires s != []
    requires forall i, j :: 0 <= i < j < |s| ==> YMLess(s[i].key, s[j].key)
    requires SortedByMonth(t)
    requires multiset(t) == multiset(s)
    ensures t[0] == s[0]
  {
    assert |t| == |multiset(t)| == |multiset(s)| == |s|;
    assert t[0] in multiset(s) && s[0] in multiset(t);
    var m :| 0 <= m < |s| && s[m] == t[0];
    var n :| 0 <= n < |t| && t[n] == s[0];
    assert MonthKey(t[0]) <= MonthKey(t[n]);
    if m != 0 {
      YMLessIsIndexOrder(s[0].key, s[m].key);
    }
  }

  /* ---------- Holt-Winters table ---------- */

  /** hw_df: forecast(3) over the sorted monthly Sales, indexed by the month
      ends of the three periods after the last one (its first day plus one
      month, then freq='ME'). Without any month the page fails (iloc[-1]). */
  function HoltWintersTable(monthly: seq<Group<Month>>, f: Forecaster): (t: Option<seq<(Day, real)>>)
    ensures t.Some? <==> monthly != []
    ensures t.Some? ==> |t.value| == 3
    ensures t.Some? ==> forall i :: 0 <= i < 3 ==> t.value[i].0 == MonthEnd(AddMonths(monthly[|monthly| - 1].key, i + 1))
    ensures t.Some? ==> forall i :: 0 <= i < 3 ==>
              t.value[i].1 == f(Project(monthly, (g: Group<Month>) => g.total), 3)[i]
  {
    if monthly == [] then None
    else Some(ForecastTable(Project(monthly, (g: Group<Month>) => g.total), monthly[|monthly| - 1].key, f, 3))
  }

  /** On the chronological monthly table, the forecast dates strictly
      increase and each comes after every cleaned order date. */
  lemma HoltWintersAfterHistory(df: seq<Row<Day>>, f: Forecaster)
    requires df != []
    ensures var t := HoltWintersTable(MonthlySales(df), f);
            && t.Some?
            && (forall i, j :: 0 <= i < j < 3 ==> DateLess(t.value[i].0, t.value[j].0))
            && (forall x, i :: x in df && 0 <= i < 3 ==> DateLess(x.orderDate, t.value[i].0))
  {
    var m := MonthlySales(df);
    LastMonthIsLatest(df);
    var last := m[|m| - 1].key;
    var series := Project(m, (g: Group<Month>) => g.total);
    forall x | x in df
      ensures forall i :: 0 <= i < 3 ==> DateLess(x.orderDate, ForecastTable(series, last, f, 3)[i].0)
    {
      ForecastTableOrdered(series, last, f, 3, x.orderDate);
    }
    ForecastTableOrdered(series, last, f, 3, FirstOfMonth(last));
  }

  /** The last row of the monthly table holds the latest order's month. */
  lemma LastMonthIsLatest(df: seq<Row<Day>>)
    requires df != []
    ensures MonthlySales(df) != []
    ensures forall x :: x in df ==> !YMLess(MonthlySales(df)[|MonthlySales(df)| - 1].key, Bucket(x.orderDate))
  {
    var m := MonthlySales(df);
    LastKeyIsGreatest(m, df, MonthOf, SalesOf, YMLess, df[0]);
    forall x | x in df ensures !YMLess(m[|m| - 1].key, Bucket(x.orderDate)) {
      LastKeyIsGreatest(m, df, MonthOf, SalesOf, YMLess, x);
    }
  }

  /* ---------- label encoders ---------- */

  datatype LabelEncoder = LabelEncoder(classes: seq<string>)

  /** LabelEncoder().fit(column): classes_ are the sorted distinct values. */
  function Fit(column: seq<string>): (e: LabelEncoder)
    ensures StrictlySorted(e.classes, LexLess)
    ensures forall x :: x in e.classes <==> x in column
  {
    LexLessIsStrictTotalOrder();
    LabelEncoder(SortedDistinct(column, LexLess))
  }

  /** transform of one label: its index in classes_, or the error raised for
      a label fit never saw. */
  function Transform(e: LabelEncoder, x: string): (r: Result<nat, string>)
    ensures r.Success? <==> x in e.classes
    ensures r.Success? ==> r.value < |e.classes| && e.classes[r.value] == x
  {
    if x in e.classes then Success(IndexOf(e.classes, x))
    else Failure("y contains previously unseen labels")
  }

  /** transform of a whole column: every code, or the error of the first
      unseen label. */
  function TransformAll(e: LabelEncoder, xs: seq<string>): (r: Result<seq<nat>, string>)
    ensures r.Success? <==> forall x :: x in xs ==> x in e.classes
    ensures r.Success? ==> |r.value| == |xs|
    ensures r.Success? ==> forall i :: 0 <= i < |xs| ==> Transform(e, xs[i]) == Success(r.value[i])
  {
    if xs == [] then Success([])
    else
      match Transform(e, xs[0])
      case Failure(err) => Failure(err)
      case Success(c) =>
        match TransformAll(e, xs[1..])
        case Failure(err) => Failure(err)
        case Success(cs) =>
          assert forall x :: x in xs ==> x == xs[0] || x in xs[1..];
          Success([c] + cs)
  }

  /** A column can always be encoded with the encoder fitted on it. */
  lemma FitThenTransform(column: seq<string>)
    ensures TransformAll(Fit(column), column).Success?
  {
  }

  /** Codes are injective and follow the string order of the labels. */
  lemma CodesFollowLabelOrder(column: seq<string>, x: string, y: string)
    requires x in column && y in column
    ensures Transform(Fit(column), x).Success? && Transform(Fit(column), y).Success?
    ensures LexLess(x, y) <==> Transform(Fit(column), x).value < Transform(Fit(column), y).value
    ensures x == y <==> Transform(Fit(column), x).value == Transform(Fit(column), y).value
  {
    LexLessIsStrictTotalOrder();
    var e := Fit(column);
    var i, j := Transform(e, x).value, Transform(e, y).value;
    assert i < j ==> LexLess(x, y);
    assert j < i ==> LexLess(y, x);
  }

  /** A label's code is the number of distinct labels that sort before it. */
  lemma CodeCountsSmallerLabels(column: seq<string>, x: string)
    requires x in column
    ensures Transform(Fit(column), x).Success?
    ensures Transform(Fit(column), x).value == |Keep(Fit(column).classes, (y: string) => LexLess(y, x))|
  {
    LexLessIsStrictTotalOrder();
    var cs := Fit(column).classes;
    var i := Transform(Fit(column), x).value;
    var p := (y: string) => LexLess(y, x);
    assert cs == cs[..i] + cs[i..];
    KeepAppend(cs[..i], cs[i..], p);
    KeepAll(cs[..i], p);
    KeepNone(cs[i..], p);
  }

  /* ---------- the training table grp ---------- */

  /** The key of grp: (Category, (Sub Category, YearMonth)). */
  type GrpKey = (string, (string, Month))

  function GrpKeyOf(r: Row<Day>): GrpKey {
    (r.category, (r.subCategory, Bucket(r.orderDate)))
  }

  const GrpLess: (GrpKey, GrpKey) -> bool := PairLess(LexLess, PairLess(LexLess, YMLess))

  lemma GrpLessIsStrictTotalOrder()
    ensures StrictTotalOrder(GrpLess)
  {
    LexLessIsStrictTotalOrder();
    YMLessIsStrictTotalOrder();
    PairLessIsStrictTotalOrder(LexLess, YMLess);
    PairLessIsStrictTotalOrder(LexLess, PairLess(LexLess, YMLess));
  }

  type GrpRow = Group<GrpKey>

  function CategoryOfGroup(g: GrpRow): string { g.key.0 }
  function SubCategoryOfGroup(g: GrpRow): string { g.key.1.0 }
  function MonthOfGroup(g: GrpRow): Month { g.key.1.1 }

  /** groupby(['Category', 'Sub Category', 'YearMonth'])['Sales'].sum(). */
  function Grp(df: seq<Row<Day>>): (g: seq<GrpRow>)
    ensures IsGroupSum(g, df, GrpKeyOf, SalesOf, GrpLess)
  {
    GrpLessIsStrictTotalOrder();
    GroupSum(df, GrpKeyOf, SalesOf, GrpLess)
  }

  datatype Encoders = Encoders(category: LabelEncoder, subCategory: LabelEncoder)

  /** le_cat and le_sub, fitted on grp's two label columns. */
  function FitEncoders(grp: seq<GrpRow>): (e: Encoders)
    ensures forall c :: c in e.category.classes <==> exists g :: g in grp && g.key.0 == c
    ensures forall s :: s in e.subCategory.classes <==> exists g :: g in grp && g.key.1.0 == s
  {
    ProjectMembershipAll(grp, CategoryOfGroup);
    ProjectMembershipAll(grp, SubCategoryOfGroup);
    Encoders(Fit(Project(grp, CategoryOfGroup)), Fit(Project(grp, SubCategoryOfGroup)))
  }

  /** One row of the regressor's input X. */
  datatype Features = Features(categoryCode: nat, subCode: nat, monthOrdinal: int)

  /** X = grp[['Category_enc', 'Sub_enc', 'Month_Ordinal']]: one row per grp
      row, carrying the encoders' codes of its labels and the ordinal of the
      first day of its month. */
  function TrainingFeatures(grp: seq<GrpRow>): (x: seq<Features>)
    ensures |x| == |grp|
    ensures forall i :: 0 <= i < |grp| ==>
              && Transform(FitEncoders(grp).category, grp[i].key.0) == Success(x[i].categoryCode)
              && Transform(FitEncoders(grp).subCategory, grp[i].key.1.0) == Success(x[i].subCode)
              && x[i].monthOrdinal == MonthOrdinal(grp[i].key.1.1)
  {
    var e := FitEncoders(grp);
    seq(|grp|, i requires 0 <= i < |grp| =>
      assert grp[i] in grp;
      Features(Transform(e.category, grp[i].key.0).value,
               Transform(e.subCategory, grp[i].key.1.0).value,
               MonthOrdinal(grp[i].key.1.1)))
  }

  /* ---------- the future months ---------- */

  /** grp['YearMonth_dt'].max(): the latest period in grp (NaT when empty). */
  function LatestMonth(grp: seq<GrpRow>): (last: Option<Month>)
    ensures last.None? <==> grp == []
    ensures last.Some? ==> exists g :: g in grp && g.key.1.1 == last.value
    ensures last.Some? ==> forall g :: g in grp ==> MonthIndex(g.key.1.1) <= MonthIndex(last.value)
  {
    if grp == [] then None
    else
      var rest := LatestMonth(grp[1..]);
      assert forall g :: g in grp <==> g == grp[0] || g in grp[1..];
      if rest.None? || MonthIndex(rest.value) < MonthIndex(grp[0].key.1.1) then Some(grp[0].key.1.1)
      else rest
  }

  /** last + DateOffset(months=i) for i = 1, 2, 3. */
  function FutureMonths(last: Month): (ms: seq<Month>)
    ensures |ms| == 3
    ensures forall i :: 0 <= i < 3 ==> MonthIndex(ms[i]) == MonthIndex(last) + i + 1
  {
    [AddMonths(last, 1), AddMonths(last, 2), AddMonths(last, 3)]
  }

  /** The future months are in order, distinct, and each later than every
      period of grp; so is each one's Month_Ordinal. */
  lemma FutureMonthsAfterHistory(grp: seq<GrpRow>)
    requires grp != []
    ensures var ms := FutureMonths(LatestMonth(grp).value);
            && StrictlySorted(ms, YMLess) && Distinct(ms)
            && (forall m, g :: m in ms && g in grp ==> YMLess(g.key.1.1, m))
            && (forall m, g :: m in ms && g in grp ==> MonthOrdinal(g.key.1.1) < MonthOrdinal(m))
  {
    var ms := FutureMonths(LatestMonth(grp).value);
    forall i, j | 0 <= i < j < 3 ensures YMLess(ms[i], ms[j]) {
      YMLessIsIndexOrder(ms[i], ms[j]);
    }
    forall m, g | m in ms && g in grp
      ensures YMLess(g.key.1.1, m) && MonthOrdinal(g.key.1.1) < MonthOrdinal(m)
    {
      YMLessIsIndexOrder(g.key.1.1, m);
      MonthOrdinalIncreasing(g.key.1.1, m);
    }
  }

  /* ---------- the future grid ---------- */

  /** One row of future_df before prediction. */
  datatype FutureRow = FutureRow(
    category: string,
    subCategory: string,
    categoryCode: nat,
    subCode: nat,
    monthOrdinal: int,
    month: Month)

  /** The row the loop appends for category c, sub-category s and month m. */
  function MakeRow(e: Encoders, c: string, s: string, m: Month): FutureRow
    requires c in e.category.classes && s in e.subCategory.classes
  {
    FutureRow(c, s, Transform(e.category, c).value, Transform(e.subCategory, s).value, MonthOrdinal(m), m)
  }

  /** (category, sub-category) occurs in grp. */
  ghost predicate Observed(grp: seq<GrpRow>, c: string, s: string) {
    exists g :: g in grp && g.key.0 == c && g.key.1.0 == s
  }

  /** grp['Category'].unique(). */
  function Categories(grp: seq<GrpRow>): (cs: seq<string>)
    ensures Distinct(cs)
    ensures forall c :: c in cs <==> exists g :: g in grp && g.key.0 == c
  {
    ProjectMembershipAll(grp, CategoryOfGroup);
    Unique(Project(grp, CategoryOfGroup))
  }

  /** grp[grp['Category'] == c]['Sub Category'].unique(). */
  function SubCategoriesOf(grp: seq<GrpRow>, c: string): (ss: seq<string>)
    ensures Distinct(ss)
    ensures forall s :: s in ss <==> Observed(grp, c, s)
  {
    var rows := Keep(grp, (g: GrpRow) => g.key.0 == c);
    ProjectMembershipAll(rows, SubCategoryOfGroup);
    Unique(Project(rows, SubCategoryOfGroup))
  }

  function WithCategory(c: string, subs: seq<string>): (ps: seq<(string, string)>)
    ensures |ps| == |subs|
    ensures forall i :: 0 <= i < |subs| ==> ps[i] == (c, subs[i])
  {
    Project(subs, (s: string) => (c, s))
  }

  /** The (category, sub-category) pairs in the order the two outer loops
      visit them. */
  function PairsOf(grp: seq<GrpRow>, cats: seq<string>): seq<(string, string)> {
    if cats == [] then []
    else
      var c := cats[|cats| - 1];
      PairsOf(grp, cats[..|cats| - 1]) + WithCategory(c, SubCategoriesOf(grp, c))
  }

  lemma {:induction false} PairsOfMembership(grp: seq<GrpRow>, cats: seq<string>)
    ensures forall p :: p in PairsOf(grp, cats) <==> p.0 in cats && Observed(grp, p.0, p.1)
  {
    if cats != [] {
      var init, c := cats[..|cats| - 1], cats[|cats| - 1];
      PairsOfMembership(grp, init);
      assert forall x :: x in cats <==> x in init || x == c;
      var w := WithCategory(c, SubCategoriesOf(grp, c));
      forall p ensures p in w <==> p.0 == c && Observed(grp, p.0, p.1) {
        if p in w {
          var i :| 0 <= i < |w| && w[i] == p;
        }
        if p.0 == c && Observed(grp, p.0, p.1) {
          var i :| 0 <= i < |SubCategoriesOf(grp, c)| && SubCategoriesOf(grp, c)[i] == p.1;
          assert w[i] == p;
        }
      }
    }
  }

  lemma {:induction false} PairsOfDistinct(grp: seq<GrpRow>, cats: seq<string>)
    requires Distinct(cats)
    ensures Distinct(PairsOf(grp, cats))
  {
    if cats != [] {
      var init, c := cats[..|cats| - 1], cats[|cats| - 1];
      PairsOfDistinct(grp, init);
      PairsOfMembership(grp, init);
      var a, w := PairsOf(grp, init), WithCategory(c, SubCategoriesOf(grp, c));
      assert c !in init;
      forall i, j | 0 <= i < j < |a + w| ensures (a + w)[i] != (a + w)[j] {
        if j >= |a| && i < |a| {
          assert a[i] in a;
        }
      }
    }
  }

  /** The observed pairs in loop order: each observed pair exactly once. */
  function ObservedPairs(grp: seq<GrpRow>): (ps: seq<(string, string)>)
    ensures Distinct(ps)
    ensures forall p :: p in ps <==> Observed(grp, p.0, p.1)
  {
    PairsOfMembership(grp, Categories(grp));
    PairsOfDistinct(grp, Categories(grp));
    PairsOf(grp, Categories(grp))
  }

  /** Every pair made of labels grp holds can be encoded. */
  ghost predicate Encodable(e: Encoders, pairs: seq<(string, string)>) {
    forall p :: p in pairs ==> p.0 in e.category.classes && p.1 in e.subCategory.classes
  }

  lemma ObservedIsEncodable(grp: seq<GrpRow>, pairs: seq<(string, string)>)
    requires ObservedOnly(grp, pairs)
    ensures Encodable(FitEncoders(grp), pairs)
  {
  }

  /** The rows for one pair, one per month of ms, in order. */
  function MonthRows(e: Encoders, c: string, s: string, ms: seq<Month>): seq<FutureRow>
    requires c in e.category.classes && s in e.subCategory.classes
  {
    if ms == [] then [] else MonthRows(e, c, s, ms[..|ms| - 1]) + [MakeRow(e, c, s, ms[|ms| - 1])]
  }

  /** The rows for a list of pairs, pair after pair. */
  function GridFor(e: Encoders, pairs: seq<(string, string)>, ms: seq<Month>): seq<FutureRow>
    requires Encodable(e, pairs)
  {
    if pairs == [] then []
    else
      var p := pairs[|pairs| - 1];
      GridFor(e, pairs[..|pairs| - 1], ms) + MonthRows(e, p.0, p.1, ms)
  }

  /** future_df (before prediction) for the months ms. */
  function FutureGrid(grp: seq<GrpRow>, ms: seq<Month>): (g: seq<FutureRow>)
    ensures |g| == |ObservedPairs(grp)| * |ms|
    ensures forall x :: x in g ==> Observed(grp, x.category, x.subCategory) && x.month in ms
    ensures Distinct(ms) ==> Distinct(g)
  {
    var e, ps := FitEncoders(grp), ObservedPairs(grp);
    ObservedIsEncodable(grp, ps);
    GridSize(e, ps, ms);
    GridRowsListed(e, ps, ms);
    assert Distinct(ms) ==> Distinct(GridFor(e, ps, ms)) by {
      if Distinct(ms) {
        GridDistinct(e, ps, ms);
      }
    }
    GridFor(e, ps, ms)
  }

  /** The triple loop building rows: for each category, each of its
      sub-categories and each future month, append the feature row. The
      two inner loops are the methods below. */
  method BuildFutureRows(grp: seq<GrpRow>, ms: seq<Month>) returns (rows: seq<FutureRow>)
    ensures rows == FutureGrid(grp, ms)
  {
    var e := FitEncoders(grp);
    var cats := Categories(grp);
    rows := [];
    var i := 0;
    while i < |cats|
      invariant 0 <= i <= |cats|
      invariant ObservedOnly(grp, PairsOf(grp, cats[..i]))
      invariant Encodable(e, PairsOf(grp, cats[..i]))
      invariant rows == GridFor(e, PairsOf(grp, cats[..i]), ms)
    {
      rows := AppendCategory(grp, PairsOf(grp, cats[..i]), cats[i], ms, rows);
      PairsOfSnoc(grp, cats, i);
      i := i + 1;
    }
    assert cats[..|cats|] == cats;
  }

  /** The middle loop: the blocks of every sub-category of c, in order. */
  method AppendCategory(grp: seq<GrpRow>, done: seq<(string, string)>, c: string, ms: seq<Month>,
                        rows0: seq<FutureRow>) returns (rows: seq<FutureRow>)
    requires ObservedOnly(grp, done) && rows0 == GridFor(FitEncoders(grp), done, ms)
    ensures ObservedOnly(grp, done + WithCategory(c, SubCategoriesOf(grp, c)))
    ensures Encodable(FitEncoders(grp), done + WithCategory(c, SubCategoriesOf(grp, c)))
    ensures rows == GridFor(FitEncoders(grp), done + WithCategory(c, SubCategoriesOf(grp, c)), ms)
  {
    var e := FitEncoders(grp);
    var subs := SubCategoriesOf(grp, c);
    assert done + WithCategory(c, subs[..0]) == done;
    rows := rows0;
    var j := 0;
    while j < |subs|
      invariant 0 <= j <= |subs|
      invariant ObservedOnly(grp, done + WithCategory(c, subs[..j]))
      invariant Encodable(e, done + WithCategory(c, subs[..j]))
      invariant rows == GridFor(e, done + WithCategory(c, subs[..j]), ms)
    {
      assert Observed(grp, c, subs[j]);
      ObservedIsEncodable(grp, [(c, subs[j])]);
      assert (c, subs[j]) in [(c, subs[j])];
      rows := AppendMonthRows(e, c, subs[j], ms, rows);
      GridForSnoc(grp, done, c, subs, j, ms);
      j := j + 1;
    }
    assert subs[..|subs|] == subs;
  }

  /** The inner loop: one row per month of ms for the pair (c, s). */
  method AppendMonthRows(e: Encoders, c: string, s: string, ms: seq<Month>, rows0: seq<FutureRow>)
    returns (rows: seq<FutureRow>)
    requires c in e.category.classes && s in e.subCategory.classes
    ensures rows == rows0 + MonthRows(e, c, s, ms)
  {
    rows := rows0;
    var k := 0;
    while k < |ms|
      invariant 0 <= k <= |ms|
      invariant rows == rows0 + MonthRows(e, c, s, ms[..k])
    {
      MonthRowsSnoc(e, c, s, ms, k);
      rows := rows + [MakeRow(e, c, s, ms[k])];
      k := k + 1;
    }
    assert ms[..|ms|] == ms;
  }

  ghost predicate ObservedOnly(grp: seq<GrpRow>, pairs: seq<(string, string)>) {
    forall p :: p in pairs ==> Observed(grp, p.0, p.1)
  }

  lemma MonthRowsSnoc(e: Encoders, c: string, s: string, ms: seq<Month>, k: int)
    requires c in e.category.classes && s in e.subCategory.classes
    requires 0 <= k < |ms|
    ensures MonthRows(e, c, s, ms[..k + 1]) == MonthRows(e, c, s, ms[..k]) + [MakeRow(e, c, s, ms[k])]
  {
    assert ms[..k + 1][..k] == ms[..k];
  }

  /** The middle loop's step: appending the block of sub-category subs[j]
      extends the pair list by (c, subs[j]). */
  lemma GridForSnoc(grp: seq<GrpRow>, done: seq<(string, string)>, c: string, subs: seq<string>, j: int, ms: seq<Month>)
    requires 0 <= j < |subs|
    requires ObservedOnly(grp, done + WithCategory(c, subs[..j]))
    requires Observed(grp, c, subs[j])
    ensures ObservedOnly(grp, done + WithCategory(c, subs[..j + 1]))
    ensures Encodable(FitEncoders(grp), done + WithCategory(c, subs[..j + 1]))
    ensures GridFor(FitEncoders(grp), done + WithCategory(c, subs[..j + 1]), ms)
              == GridFor(FitEncoders(grp), done + WithCategory(c, subs[..j]), ms) + MonthRows(FitEncoders(grp), c, subs[j], ms)
  {
    var before := done + WithCategory(c, subs[..j]);
    assert WithCategory(c, subs[..j + 1]) == WithCategory(c, subs[..j]) + [(c, subs[j])];
    assert done + WithCategory(c, subs[..j + 1]) == before + [(c, subs[j])];
    assert (before + [(c, subs[j])])[..|before|] == before;
  }

  /** The outer loop's step: the pairs of cats[..i + 1] are those of cats[..i]
      followed by category cats[i] with each of its sub-categories. */
  lemma PairsOfSnoc(grp: seq<GrpRow>, cats: seq<string>, i: int)
    requires 0 <= i < |cats|
    ensures PairsOf(grp, cats[..i + 1]) == PairsOf(grp, cats[..i]) + WithCategory(cats[i], SubCategoriesOf(grp, cats[i]))
    ensures ObservedOnly(grp, PairsOf(grp, cats[..i + 1]))
  {
    assert cats[..i + 1][..i] == cats[..i];
    PairsOfMembership(grp, cats[..i + 1]);
  }

  lemma MulStep(n: int, m: int)
    ensures (n - 1) * m + m == n * m
  {
  }

  /** The grid has one block of |ms| rows per pair. */
  lemma {:induction false} GridSize(e: Encoders, pairs: seq<(string, string)>, ms: seq<Month>)
    requires Encodable(e, pairs)
    ensures |GridFor(e, pairs, ms)| == |pairs| * |ms|
  {
    if pairs != [] {
      var p := pairs[|pairs| - 1];
      GridSize(e, pairs[..|pairs| - 1], ms);
      MonthRowsShape(e, p.0, p.1, ms);
      MulStep(|pairs|, |ms|);
    }
  }

  /** The rows of one pair: |ms| rows, the i-th for the i-th month. */
  lemma {:induction false} MonthRowsShape(e: Encoders, c: string, s: string, ms: seq<Month>)
    requires c in e.category.classes && s in e.subCategory.classes
    ensures |MonthRows(e, c, s, ms)| == |ms|
    ensures forall i :: 0 <= i < |ms| ==> MonthRows(e, c, s, ms)[i] == MakeRow(e, c, s, ms[i])
  {
    if ms != [] {
      MonthRowsShape(e, c, s, ms[..|ms| - 1]);
    }
  }

  /** A row is in the grid exactly when its pair is listed, its month is one
      of ms, and its codes and ordinal are the ones MakeRow gives. */
  lemma {:induction false} GridMembership(e: Encoders, pairs: seq<(string, string)>, ms: seq<Month>, x: FutureRow)
    requires Encodable(e, pairs)
    ensures x in GridFor(e, pairs, ms) <==>
              (x.category, x.subCategory) in pairs && x.month in ms
              && x == MakeRow(e, x.category, x.subCategory, x.month)
  {
    if pairs != [] {
      var p := pairs[|pairs| - 1];
      var init := pairs[..|pairs| - 1];
      GridMembership(e, init, ms, x);
      MonthRowsShape(e, p.0, p.1, ms);
      assert forall q :: q in pairs <==> q in init || q == p;
      var block := MonthRows(e, p.0, p.1, ms);
      if x in block {
        var i :| 0 <= i < |block| && block[i] == x;
        assert x.month == ms[i];
      }
      if (x.category, x.subCategory) == p && x.month in ms && x == MakeRow(e, x.category, x.subCategory, x.month) {
        var i :| 0 <= i < |ms| && ms[i] == x.month;
        assert block[i] == x;
      }
    }
  }

  /** Every row of the grid belongs to a listed pair and one of the months. */
  lemma GridRowsListed(e: Encoders, pairs: seq<(string, string)>, ms: seq<Month>)
    requires Encodable(e, pairs)
    ensures forall x :: x in GridFor(e, pairs, ms) ==> (x.category, x.subCategory) in pairs && x.month in ms
  {
    forall x | x in GridFor(e, pairs, ms) ensures (x.category, x.subCategory) in pairs && x.month in ms {
      GridMembership(e, pairs, ms, x);
    }
  }

  /** No row appears twice when neither the pairs nor the months repeat. */
  lemma {:induction false} GridDistinct(e: Encoders, pairs: seq<(string, string)>, ms: seq<Month>)
    requires Encodable(e, pairs)
    requires Distinct(pairs) && Distinct(ms)
    ensures Distinct(GridFor(e, pairs, ms))
  {
    if pairs != [] {
      var p := pairs[|pairs| - 1];
      var init := pairs[..|pairs| - 1];
      GridDistinct(e, init, ms);
      MonthRowsShape(e, p.0, p.1, ms);
      var a, b := GridFor(e, init, ms), MonthRows(e, p.0, p.1, ms);
      assert p !in init;
      forall i, j | 0 <= i < j < |a + b| ensures (a + b)[i] != (a + b)[j] {
        if i < |a| && j >= |a| {
          GridMembership(e, init, ms, a[i]);
          assert a[i] in a;
        }
      }
    }
  }

  /** The mask future_df['Category'] == c & future_df['Sub Category'] == s. */
  function PairFilter(c: string, s: string): FutureRow -> bool {
    (x: FutureRow) => x.category == c && x.subCategory == s
  }

  /** A block is kept whole by its own pair's mask and dropped by any other. */
  lemma BlockSelect(e: Encoders, p: (string, string), ms: seq<Month>, c: string, s: string)
    requires p.0 in e.category.classes && p.1 in e.subCategory.classes
    ensures Keep(MonthRows(e, p.0, p.1, ms), PairFilter(c, s)) == (if p == (c, s) then MonthRows(e, p.0, p.1, ms) else [])
  {
    var block := MonthRows(e, p.0, p.1, ms);
    MonthRowsShape(e, p.0, p.1, ms);
    if p == (c, s) {
      KeepAll(block, PairFilter(c, s));
    } else {
      forall x | x in block ensures !PairFilter(c, s)(x) {
        var i :| 0 <= i < |block| && block[i] == x;
      }
      KeepNone(block, PairFilter(c, s));
    }
  }

  /** Selecting one listed pair's rows gives exactly its block, in month
      order; selecting an unlisted pair gives nothing. */
  lemma {:induction false} GridSelect(e: Encoders, pairs: seq<(string, string)>, ms: seq<Month>, c: string, s: string)
    requires Encodable(e, pairs) && Distinct(pairs)
    ensures (c, s) in pairs ==>
              Keep(GridFor(e, pairs, ms), PairFilter(c, s)) == MonthRows(e, c, s, ms)
    ensures (c, s) !in pairs ==>
              Keep(GridFor(e, pairs, ms), PairFilter(c, s)) == []
  {
    if pairs != [] {
      var p := pairs[|pairs| - 1];
      var init := pairs[..|pairs| - 1];
      assert p !in init;
      assert forall q :: q in pairs <==> q in init || q == p;
      GridSelect(e, init, ms, c, s);
      BlockSelect(e, p, ms, c, s);
      KeepAppend(GridFor(e, init, ms), MonthRows(e, p.0, p.1, ms), PairFilter(c, s));
    }
  }

  /* ---------- future_df ---------- */

  /** future_df before prediction: the grid over the three months after the
      latest period of grp, or no rows when grp is empty. */
  function FutureTable(grp: seq<GrpRow>): (t: seq<FutureRow>)
    ensures |t| == 3 * |ObservedPairs(grp)|
    ensures Distinct(t)
    ensures forall x :: x in t ==> Observed(grp, x.category, x.subCategory)
    ensures grp != [] ==> forall x :: x in t ==> x.month in FutureMonths(LatestMonth(grp).value)
  {
    if grp == [] then
      []
    else
      var ms := FutureMonths(LatestMonth(grp).value);
      FutureMonthsAfterHistory(grp);
      FutureGrid(grp, ms)
  }

  /** future_df holds exactly one row per (observed pair, future month): three
      times as many rows as observed pairs, no repeats, no unseen pair, codes
      equal to the encoders' codes, and every Month_Ordinal later than every
      historical one. */
  lemma FutureTableShape(grp: seq<GrpRow>)
    ensures |FutureTable(grp)| == 3 * |ObservedPairs(grp)| || grp == []
    ensures Distinct(FutureTable(grp))
    ensures forall x :: x in FutureTable(grp) ==>
              && Observed(grp, x.category, x.subCategory)
              && Transform(FitEncoders(grp).category, x.category) == Success(x.categoryCode)
              && Transform(FitEncoders(grp).subCategory, x.subCategory) == Success(x.subCode)
              && x.monthOrdinal == MonthOrdinal(x.month)
              && (forall g :: g in grp ==> MonthOrdinal(g.key.1.1) < x.monthOrdinal)
    ensures grp != [] ==> forall c, s, m :: Observed(grp, c, s) && m in FutureMonths(LatestMonth(grp).value) ==>
              exists x :: x in FutureTable(grp) && x.category == c && x.subCategory == s && x.month == m
  {
    if grp != [] {
      var e := FitEncoders(grp);
      var ps := ObservedPairs(grp);
      var ms := FutureMonths(LatestMonth(grp).value);
      ObservedIsEncodable(grp, ps);
      FutureMonthsAfterHistory(grp);
      StrictlySortedIsDistinct(ms, YMLess) by { YMLessIsStrictTotalOrder(); }
      GridSize(e, ps, ms);
      GridDistinct(e, ps, ms);
      forall x | x in FutureTable(grp)
        ensures && Observed(grp, x.category, x.subCategory)
                && Transform(e.category, x.category) == Success(x.categoryCode)
                && Transform(e.subCategory, x.subCategory) == Success(x.subCode)
                && x.monthOrdinal == MonthOrdinal(x.month)
                && (forall g :: g in grp ==> MonthOrdinal(g.key.1.1) < x.monthOrdinal)
      {
        GridMembership(e, ps, ms, x);
      }
      forall c, s, m | Observed(grp, c, s) && m in ms
        ensures exists x :: x in FutureTable(grp) && x.category == c && x.subCategory == s && x.month == m
      {
        var x := MakeRow(e, c, s, m);
        GridMembership(e, ps, ms, x);
      }
    }
  }

  /* ---------- callbacks ---------- */

  /** Python truthiness of a dropdown value: neither None nor "". */
  predicate Given(v: Option<string>) {
    v.Some? && v.value != ""
  }

  datatype SubOptions = SubOptions(options: seq<string>, disabled: bool)

  /** set_sub_options: no category gives no options and a disabled dropdown;
      a category gives its observed sub-categories, enabled. */
  function SetSubOptions(grp: seq<GrpRow>, cat: Option<string>): (r: SubOptions)
    ensures r.disabled <==> !Given(cat)
    ensures !Given(cat) ==> r.options == []
    ensures Given(cat) ==> Distinct(r.options) && forall s :: s in r.options <==> Observed(grp, cat.value, s)
  {
    if !Given(cat) then SubOptions([], true)
    else SubOptions(SubCategoriesOf(grp, cat.value), false)
  }

  /** int(x): truncation toward zero. */
  function TruncToInt(x: real): (n: int)
    ensures 0.0 <= x ==> 0 <= n && n as real <= x < n as real + 1.0
    ensures x < 0.0 ==> n <= 0 && n as real - 1.0 < x <= n as real
  {
    if x >= 0.0 then x.Floor else -((-x).Floor)
  }

  lemma TruncIsOdd(x: real)
    ensures TruncToInt(-x) == -TruncToInt(x)
  {
  }

  /** The chart and message of update_xgb: nothing when a selection is
      missing; otherwise the bars of the pair's future rows and the number of
      100-rupee units their predicted sales cover. */
  datatype XgbView = Blank | Chart(bars: seq<(Month, real)>, units: int)

  /** Predicted_Sales of one row: the regressor applied to its features. */
  function Predicted(predict: (nat, nat, int) -> real, r: FutureRow): real {
    predict(r.categoryCode, r.subCode, r.monthOrdinal)
  }

  /** future_df rows of one (category, sub-category) pair. */
  function PairRows(futureDf: seq<FutureRow>, c: string, s: string): seq<FutureRow> {
    Keep(futureDf, PairFilter(c, s))
  }

  function UpdateXgb(futureDf: seq<FutureRow>, predict: (nat, nat, int) -> real,
                     cat: Option<string>, sub: Option<string>): (v: XgbView)
    ensures v.Blank? <==> !Given(cat) || !Given(sub)
    ensures v.Chart? ==>
              var d := PairRows(futureDf, cat.value, sub.value);
              && |v.bars| == |d|
              && (forall i :: 0 <= i < |d| ==> v.bars[i] == (d[i].month, Predicted(predict, d[i])))
              && v.units == TruncToInt(Total(d, (x: FutureRow) => Predicted(predict, x)) / 100.0)
  {
    if !Given(cat) || !Given(sub) then Blank
    else
      var d := PairRows(futureDf, cat.value, sub.value);
      Chart(Project(d, (x: FutureRow) => (x.month, Predicted(predict, x))),
            TruncToInt(Total(d, (x: FutureRow) => Predicted(predict, x)) / 100.0))
  }

  /** For an observed pair the chart has one bar per future month, in order;
      for any other pair it is empty and the advice is 0 units. */
  lemma UpdateXgbOnFutureTable(grp: seq<GrpRow>, predict: (nat, nat, int) -> real, c: string, s: string)
    requires grp != [] && c != "" && s != ""
    ensures var v := UpdateXgb(FutureTable(grp), predict, Some(c), Some(s));
            && v.Chart?
            && (Observed(grp, c, s) ==>
                  |v.bars| == 3 && forall i :: 0 <= i < 3 ==> v.bars[i].0 == FutureMonths(LatestMonth(grp).value)[i])
            && (!Observed(grp, c, s) ==> v.bars == [] && v.units == 0)
  {
    PairRowsOfFutureTable(grp, c, s);
  }

  /** future_df's rows for an observed pair are its three future months in
      order; an unseen pair has none. */
  lemma PairRowsOfFutureTable(grp: seq<GrpRow>, c: string, s: string)
    requires grp != []
    ensures Observed(grp, c, s) ==>
              var d := PairRows(FutureTable(grp), c, s);
              |d| == 3 && forall i :: 0 <= i < 3 ==> d[i].month == FutureMonths(LatestMonth(grp).value)[i]
    ensures !Observed(grp, c, s) ==> PairRows(FutureTable(grp), c, s) == []
  {
    var e := FitEncoders(grp);
    var ps := ObservedPairs(grp);
    var ms := FutureMonths(LatestMonth(grp).value);
    ObservedIsEncodable(grp, ps);
    GridSelect(e, ps, ms, c, s);
    assert PairRows(FutureTable(grp), c, s) == Keep(GridFor(e, ps, ms), PairFilter(c, s));
    if Observed(grp, c, s) {
      MonthRowsShape(e, c, s, ms);
    }
  }
}

=== FILE: collections.dfy ===
/** Sequence helpers shared by every page: orderings, sorted distinct values
    (numpy.unique / sorted(set)), first-appearance distinct values
    (Series.unique), boolean-mask filtering and index lookup. */
module Collections {

  /* ---------- strict total orders ---------- */

  ghost predicate StrictTotalOrder<T(!new)>(less: (T, T) -> bool) {
    && (forall a :: !less(a, a))
    && (forall a, b, c :: less(a, b) && less(b, c) ==> less(a, c))
    && (forall a, b :: a != b ==> less(a, b) || less(b, a))
  }

  /** Lexicographic order on pairs built from orders on the components. */
  function PairLess<A(==), B>(la: (A, A) -> bool, lb: (B, B) -> bool): ((A, B), (A, B)) -> bool {
    (p: (A, B), q: (A, B)) => la(p.0, q.0) || (p.0 == q.0 && lb(p.1, q.1))
  }

  lemma PairLessIsStrictTotalOrder<A(!new), B(!new)>(la: (A, A) -> bool, lb: (B, B) -> bool)
    requires StrictTotalOrder(la) && StrictTotalOrder(lb)
    ensures StrictTotalOrder(PairLess(la, lb))
  {
    var less := PairLess(la, lb);
    forall p: (A, B), q: (A, B), r: (A, B) | less(p, q) && less(q, r)
      ensures less(p, r)
    {
      if la(p.0, q.0) && la(q.0, r.0) {
        assert la(p.0, r.0);
      }
    }
    forall p: (A, B), q: (A, B) | p != q
      ensures less(p, q) || less(q, p)
    {
      if p.0 == q.0 {
        assert p.1 != q.1;
      }
    }
  }

  function IntLess(a: int, b: int): bool { a < b }

  function RealLess(a: real, b: real): bool { a < b }

  lemma NumericOrdersAreStrictTotalOrders()
    ensures StrictTotalOrder(IntLess) && StrictTotalOrder(RealLess)
  {
  }

  /* ---------- sortedness and distinctness ---------- */

  ghost predicate StrictlySorted<T>(s: seq<T>, less: (T, T) -> bool) {
    forall i, j :: 0 <= i < j < |s| ==> less(s[i], s[j])
  }

  ghost predicate Distinct<T>(s: seq<T>) {
    forall i, j :: 0 <= i < j < |s| ==> s[i] != s[j]
  }

  lemma StrictlySortedIsDistinct<T(!new)>(s: seq<T>, less: (T, T) -> bool)
    requires StrictTotalOrder(less) && StrictlySorted(s, less)
    ensures Distinct(s)
  {
  }

  /** Inserts x into a strictly sorted sequence, keeping it strictly sorted and
      without duplicates. */
  function Insert<T(==,!new)>(x: T, s: seq<T>, less: (T, T) -> bool): (r: seq<T>)
    requires StrictTotalOrder(less) && StrictlySorted(s, less)
    ensures StrictlySorted(r, less)
    ensures forall y :: y in r <==> y == x || y in s
    decreases |s|
  {
    if s == [] then [x]
    else if x == s[0] then s
    else if less(x, s[0]) then
      assert forall j :: 0 <= j < |s| ==> less(x, s[j]);
      [x] + s
    else
      var t := Insert(x, s[1..], less);
      assert less(s[0], x);
      assert forall y :: y in t ==> less(s[0], y);
      [s[0]] + t
  }

  /** The sorted distinct values of xs (what numpy.unique, sorted(set(...))
      and the key order of a pandas group-by produce). */
  function SortedDistinct<T(==,!new)>(xs: seq<T>, less: (T, T) -> bool): (r: seq<T>)
    requires StrictTotalOrder(less)
    ensures StrictlySorted(r, less)
    ensures forall y :: y in r <==> y in xs
    ensures |r| <= |xs|
  {
    if xs == [] then []
    else
      var r := Insert(xs[|xs| - 1], SortedDistinct(xs[..|xs| - 1], less), less);
      StrictlySortedIsDistinct(r, less);
      DistinctSubsetSize(r, xs);
      r
  }

  /** A sequence without duplicates is no longer than any sequence holding all
      of its elements. */
  lemma {:induction false} DistinctSubsetSize<T>(r: seq<T>, xs: seq<T>)
    requires Distinct(r)
    requires forall y :: y in r ==> y in xs
    ensures |r| <= |xs|
  {
    if r != [] {
      var x := r[|r| - 1];
      assert x in r;
      var k :| 0 <= k < |xs| && xs[k] == x;
      var xs' := xs[..k] + xs[k + 1..];
      forall y | y in r[..|r| - 1]
        ensures y in xs'
      {
        var i :| 0 <= i < |r| - 1 && r[i] == y;
        assert y != x;
        assert y in xs;
        var m :| 0 <= m < |xs| && xs[m] == y;
        if m < k {
          assert xs'[m] == y;
        } else {
          assert m != k;
          assert xs'[m - 1] == y;
        }
      }
      DistinctSubsetSize(r[..|r| - 1], xs');
    }
  }

  /** Strictly sorted sequences over the same elements are equal. */
  lemma {:induction false} StrictlySortedUnique<T(!new)>(s: seq<T>, t: seq<T>, less: (T, T) -> bool)
    requires StrictTotalOrder(less)
    requires StrictlySorted(s, less) && StrictlySorted(t, less)
    requires forall x :: x in s <==> x in t
    ensures s == t
  {
    if s != [] || t != [] {
      assert (s != [] ==> s[0] in t) && (t != [] ==> t[0] in s);
      assert s[0] in t && t[0] in s;
      var i :| 0 <= i < |t| && t[i] == s[0];
      var j :| 0 <= j < |s| && s[j] == t[0];
      assert s[0] == t[0];
      forall x
        ensures x in s[1..] <==> x in t[1..]
      {
        if x in s[1..] {
          var k :| 1 <= k < |s| && s[k] == x;
          assert less(s[0], x);
          assert x in s && x in t;
          var m :| 0 <= m < |t| && t[m] == x;
          assert t[1..][m - 1] == x;
        }
        if x in t[1..] {
          var k :| 1 <= k < |t| && t[k] == x;
          assert less(t[0], x);
          assert x in t && x in s;
          var m :| 0 <= m < |s| && s[m] == x;
          assert s[1..][m - 1] == x;
        }
      }
      StrictlySortedUnique(s[1..], t[1..], less);
    }
  }

  /* ---------- first-appearance distinct values ---------- */

  /** The distinct values of s in order of first appearance (Series.unique,
      DataFrame.drop_duplicates). */
  function Unique<T(==,!new)>(s: seq<T>): (r: seq<T>)
    ensures Distinct(r)
    ensures forall x :: x in r <==> x in s
  {
    if s == [] then []
    else
      var u := Unique(s[..|s| - 1]);
      if s[|s| - 1] in u then u else u + [s[|s| - 1]]
  }

  /** Unique keeps the order of first appearance: of two values it lists,
      the one listed first occurs first in s. */
  lemma {:induction false} UniqueFirstAppearance<T(!new)>(s: seq<T>)
    ensures forall i, j :: 0 <= i < j < |Unique(s)| ==> IndexOf(s, Unique(s)[i]) < IndexOf(s, Unique(s)[j])
  {
    if s != [] {
      var p, x := s[..|s| - 1], s[|s| - 1];
      var u := Unique(p);
      UniqueFirstAppearance(p);
      assert s == p + [x];
      forall y | y in u ensures IndexOf(s, y) == IndexOf(p, y) < |p| {
        IndexOfInPrefix(p, [x], y);
      }
      if x !in u {
        assert IndexOf(s, x) == |p|;
        var r := Unique(s);
        assert r == u + [x];
        forall i, j | 0 <= i < j < |r| ensures IndexOf(s, r[i]) < IndexOf(s, r[j]) {
          assert r[i] == u[i] && r[i] in u;
          if j < |u| {
            assert r[j] == u[j] && r[j] in u;
          }
        }
      }
    }
  }

  /** A sequence without repeats has as many elements as its set of values. */
  lemma {:induction false} DistinctSetSize<T>(r: seq<T>)
    requires Distinct(r)
    ensures |set x | x in r| == |r|
  {
    if r != [] {
      var p := r[..|r| - 1];
      DistinctSetSize(p);
      assert (set x | x in r) == (set x | x in p) + {r[|r| - 1]};
      assert r[|r| - 1] !in p;
    }
  }

  /* ---------- projection and filtering ---------- */

  /** The column obtained by applying f to every row. */
  function Project<T, U>(s: seq<T>, f: T -> U): (r: seq<U>)
    ensures |r| == |s|
    ensures forall i :: 0 <= i < |s| ==> r[i] == f(s[i])
  {
    seq(|s|, i requires 0 <= i < |s| => f(s[i]))
  }

  lemma ProjectMembership<T, U>(s: seq<T>, f: T -> U, u: U)
    ensures u in Project(s, f) <==> exists x :: x in s && f(x) == u
  {
    if exists x :: x in s && f(x) == u {
      var x :| x in s && f(x) == u;
      var i :| 0 <= i < |s| && s[i] == x;
      assert Project(s, f)[i] == u;
    }
  }

  lemma ProjectMembershipAll<T, U>(s: seq<T>, f: T -> U)
    ensures forall u :: u in Project(s, f) <==> exists x :: x in s && f(x) == u
  {
    forall u ensures u in Project(s, f) <==> exists x :: x in s && f(x) == u {
      ProjectMembership(s, f, u);
    }
  }

  /** The rows selected by the boolean mask p, in their original order
      (df[mask]). */
  function Keep<T(!new)>(s: seq<T>, p: T -> bool): (r: seq<T>)
    ensures |r| <= |s|
    ensures forall x :: x in r <==> x in s && p(x)
  {
    if s == [] then []
    else (if p(s[0]) then [s[0]] else []) + Keep(s[1..], p)
  }

  /** r is obtained from s by deleting elements: order is preserved. */
  ghost predicate IsSubsequence<T>(r: seq<T>, s: seq<T>)
    decreases |s|
  {
    if r == [] then true
    else if s == [] then false
    else (r[0] == s[0] && IsSubsequence(r[1..], s[1..])) || IsSubsequence(r, s[1..])
  }

  lemma {:induction false} KeepIsSubsequence<T(!new)>(s: seq<T>, p: T -> bool)
    ensures IsSubsequence(Keep(s, p), s)
  {
    if s != [] {
      KeepIsSubsequence(s[1..], p);
      if !p(s[0]) {
        assert Keep(s, p) == Keep(s[1..], p);
      } else {
        assert Keep(s, p)[1..] == Keep(s[1..], p);
      }
    }
  }

  /** The conjunction of two masks. */
  function And<T>(p: T -> bool, q: T -> bool): T -> bool {
    x => p(x) && q(x)
  }

  /** Applying two masks one after the other is the same as applying their
      conjunction. */
  lemma {:induction false} KeepConjunction<T(!new)>(s: seq<T>, p: T -> bool, q: T -> bool)
    ensures Keep(Keep(s, p), q) == Keep(s, And(p, q))
  {
    if s != [] {
      KeepConjunction(s[1..], p, q);
      if p(s[0]) {
        assert Keep(s, p) == [s[0]] + Keep(s[1..], p);
        assert Keep(s, p)[1..] == Keep(s[1..], p);
      } else {
        assert Keep(s, p) == Keep(s[1..], p);
      }
    }
  }

  /** Masks commute: the order in which filters are applied does not matter. */
  lemma KeepCommutes<T(!new)>(s: seq<T>, p: T -> bool, q: T -> bool)
    ensures Keep(Keep(s, p), q) == Keep(Keep(s, q), p)
  {
    KeepConjunction(s, p, q);
    KeepConjunction(s, q, p);
    KeepExtensional(s, And(p, q), And(q, p));
  }

  lemma {:induction false} KeepExtensional<T(!new)>(s: seq<T>, p: T -> bool, q: T -> bool)
    requires forall x :: p(x) == q(x)
    ensures Keep(s, p) == Keep(s, q)
  {
    if s != [] {
      KeepExtensional(s[1..], p, q);
    }
  }

  lemma {:induction false} KeepAppend<T(!new)>(a: seq<T>, b: seq<T>, p: T -> bool)
    ensures Keep(a + b, p) == Keep(a, p) + Keep(b, p)
  {
    if a == [] {
      assert a + b == b;
    } else {
      assert (a + b)[0] == a[0] && (a + b)[1..] == a[1..] + b;
      KeepAppend(a[1..], b, p);
    }
  }

  lemma {:induction false} KeepNone<T(!new)>(s: seq<T>, p: T -> bool)
    requires forall x :: x in s ==> !p(x)
    ensures Keep(s, p) == []
  {
    if s != [] {
      KeepNone(s[1..], p);
    }
  }

  lemma {:induction false} KeepAll<T(!new)>(s: seq<T>, p: T -> bool)
    requires forall x :: x in s ==> p(x)
    ensures Keep(s, p) == s
  {
    if s != [] {
      KeepAll(s[1..], p);
    }
  }

  /* ---------- lookup ---------- */

  /** The position of the first occurrence of x in s. */
  function IndexOf<T(==)>(s: seq<T>, x: T): (i: nat)
    requires x in s
    ensures i < |s| && s[i] == x
    ensures forall j :: 0 <= j < i ==> s[j] != x
  {
    if s[0] == x then 0 else 1 + IndexOf(s[1..], x)
  }

  /** Only the first occurrence matters, so a prefix holding x fixes its
      position. */
  lemma {:induction false} IndexOfInPrefix<T>(p: seq<T>, q: seq<T>, x: T)
    requires x in p
    ensures IndexOf(p + q, x) == IndexOf(p, x)
  {
    if p[0] != x {
      assert (p + q)[1..] == p[1..] + q;
      IndexOfInPrefix(p[1..], q, x);
    }
  }
}

=== FILE: customer_insights.dfy ===
/** The customer-insights page: the Order Date rewrite and strict parse, the
    recency / frequency / total_spent / clv / repeat_purchase_frequency /
    monetary_segment columns added to the table one after another, and the
    top-ten customers table. */
module CustomerInsights {
  import opened Wrappers
  import opened Collections
  import opened Text
  import opened Calendar
  import opened Transactions

  /* ---------- loading: '-' to '/', then a strict parse ---------- */

  /** One row with every '-' of its Order Date text turned into '/'. */
  function SlashDate(r: Row<string>): (r': Row<string>)
    ensures r' == WithDate(r, ReplaceChar(r.orderDate, '-', '/'))
    ensures '-' !in r'.orderDate
  {
    WithDate(r, ReplaceChar(r.orderDate, '-', '/'))
  }

  /** df['Order Date'].str.replace('-', '/'). */
  function DashesToSlashes(raw: seq<Row<string>>): (t: seq<Row<string>>)
    ensures |t| == |raw|
    ensures forall i :: 0 <= i < |raw| ==> t[i] == WithDate(raw[i], ReplaceChar(raw[i].orderDate, '-', '/'))
    ensures forall i :: 0 <= i < |raw| ==> '-' !in t[i].orderDate
  {
    Project(raw, SlashDate)
  }

  /** pd.to_datetime(..., format='%m/%d/%Y') without errors='coerce': every
      date must parse, and the first one that does not is reported. */
  function ParseStrict(t: seq<Row<string>>, parse: string -> Option<Day>): (r: Result<seq<Row<Day>>, string>)
    ensures r.Success? <==> forall i :: 0 <= i < |t| ==> parse(t[i].orderDate).Some?
    ensures r.Success? ==> |r.value| == |t|
                           && forall i :: 0 <= i < |t| ==> r.value[i] == WithDate(t[i], parse(t[i].orderDate).value)
    ensures r.Failure? ==> exists i :: 0 <= i < |t| && parse(t[i].orderDate).None? && r.error == t[i].orderDate
                                       && forall j :: 0 <= j < i ==> parse(t[j].orderDate).Some?
  {
    if t == [] then Success([])
    else match parse(t[0].orderDate)
      case None => Failure(t[0].orderDate)
      case Some(d) =>
        match ParseStrict(t[1..], parse)
        case Failure(e) =>
          ghost var i :| 0 <= i < |t[1..]| && parse(t[1..][i].orderDate).None? && e == t[1..][i].orderDate
                         && forall j :: 0 <= j < i ==> parse(t[1..][j].orderDate).Some?;
          assert parse(t[i + 1].orderDate).None?;
          Failure(e)
        case Success(rest) =>
          assert forall i :: 1 <= i < |t| ==> parse(t[i].orderDate) == parse(t[1..][i - 1].orderDate);
          Success([WithDate(t[0], d)] + rest)
  }

  /** Lines 16-17 together: the parser only ever sees text without '-'. */
  function LoadOrders(raw: seq<Row<string>>, parse: string -> Option<Day>): (r: Result<seq<Row<Day>>, string>)
    ensures r.Success? <==> forall i :: 0 <= i < |raw| ==> parse(ReplaceChar(raw[i].orderDate, '-', '/')).Some?
    ensures r.Success? ==> |r.value| == |raw|
    ensures r.Success? ==> forall i :: 0 <= i < |raw| ==>
              r.value[i] == WithDate(raw[i], parse(ReplaceChar(raw[i].orderDate, '-', '/')).value)
    ensures r.Failure? ==> '-' !in r.error
  {
    var t := DashesToSlashes(raw);
    ParseStrict(t, parse)
  }

  /** Loading is all or nothing: it never drops a row, unlike the other pages'
      coercing loaders. */
  lemma LoadKeepsEveryRow(raw: seq<Row<string>>, parse: string -> Option<Day>)
    requires LoadOrders(raw, parse).Success?
    ensures |LoadOrders(raw, parse).value| == |raw|
    ensures forall i :: 0 <= i < |raw| ==>
              LoadOrders(raw, parse).value[i].customer == raw[i].customer
              && LoadOrders(raw, parse).value[i].sales == raw[i].sales
  {
  }

  /* ---------- recency ---------- */

  /** df['Order Date'].max(): None (NaT) on an empty table. */
  function LatestDate(rows: seq<Row<Day>>): (m: Option<Day>)
    ensures m.None? <==> rows == []
    ensures m.Some? ==> exists i :: 0 <= i < |rows| && rows[i].orderDate == m.value
    ensures m.Some? ==> forall i :: 0 <= i < |rows| ==> !DateLess(m.value, rows[i].orderDate)
  {
    if rows == [] then None
    else
      var rest := LatestDate(rows[1..]);
      assert forall i :: 1 <= i < |rows| ==> rows[i] == rows[1..][i - 1];
      if rest.None? || DateLess(rest.value, rows[0].orderDate) then Some(rows[0].orderDate)
      else
        assert rest.value == rows[0].orderDate || DateLess(rows[0].orderDate, rest.value);
        rest
  }

  /** (df['Order Date'].max() - df['Order Date']).dt.days: the day count from
      each row's date to the latest date. */
  function Recency(rows: seq<Row<Day>>): (r: seq<int>)
    ensures |r| == |rows|
    ensures forall i :: 0 <= i < |rows| ==> r[i] == Ordinal(LatestDate(rows).value) - Ordinal(rows[i].orderDate)
  {
    match LatestDate(rows)
    case None => []
    case Some(latest) =>
      seq(|rows|, i requires 0 <= i < |rows| => Ordinal(latest) - Ordinal(rows[i].orderDate))
  }

  /** Recency is never negative, is 0 exactly on the rows dated on the latest
      day, and orders the rows the opposite way from their dates. */
  lemma RecencyFacts(rows: seq<Row<Day>>, i: int, j: int)
    requires 0 <= i < |rows| && 0 <= j < |rows|
    ensures Recency(rows)[i] >= 0
    ensures Recency(rows)[i] == 0 <==> rows[i].orderDate == LatestDate(rows).value
    ensures DateLess(rows[i].orderDate, rows[j].orderDate) <==> Recency(rows)[i] > Recency(rows)[j]
  {
    var latest := LatestDate(rows).value;
    OrdinalOrder(rows[i].orderDate, latest);
    OrdinalOrder(rows[i].orderDate, rows[j].orderDate);
  }

  /** Some row always has recency 0. */
  lemma SomeRowIsLatest(rows: seq<Row<Day>>)
    requires rows != []
    ensures exists i :: 0 <= i < |rows| && Recency(rows)[i] == 0
  {
    var i :| 0 <= i < |rows| && rows[i].orderDate == LatestDate(rows).value;
    RecencyFacts(rows, i, i);
  }

  /* ---------- frequency, total_spent, clv ---------- */

  /** The number of rows whose key is k. */
  function CountWhere<T, K(==)>(s: seq<T>, key: T -> K, k: K): nat {
    if s == [] then 0 else (if key(s[0]) == k then 1 else 0) + CountWhere(s[1..], key, k)
  }

  function One<D>(r: Row<D>): real { 1.0 }

  /** groupby(key)['Order ID'].transform('count'): every row gets the number
      of rows of its customer. */
  function Frequency(rows: seq<Row<Day>>): (f: seq<nat>)
    ensures |f| == |rows|
  {
    seq(|rows|, i requires 0 <= i < |rows| => CountWhere(rows, CustomerOf, rows[i].customer))
  }

  /** A count is a sum of ones, so transform('count') is the size of the
      customer's group in groupby('Customer Name'). */
  lemma {:induction false} CountIsSumOfOnes(s: seq<Row<Day>>, c: string)
    ensures CountWhere(s, CustomerOf, c) as real == SumWhere(s, CustomerOf, One, c)
  {
    if s != [] {
      CountIsSumOfOnes(s[1..], c);
    }
  }

  lemma {:induction false} TotalOfOnes(s: seq<Row<Day>>)
    ensures Total(s, One) == |s| as real
  {
    if s != [] {
      TotalOfOnes(s[1..]);
    }
  }

  /** A customer's row is one of the rows counted for it. */
  lemma {:induction false} CountOfPresentKey(s: seq<Row<Day>>, i: int)
    requires 0 <= i < |s|
    ensures CountWhere(s, CustomerOf, s[i].customer) >= 1
  {
    if i > 0 {
      assert s[1..][i - 1] == s[i];
      CountOfPresentKey(s[1..], i - 1);
    }
  }

  /** Frequency counts rows, not distinct orders: it is at least 1, is the
      same on all of a customer's rows, and equals the size of the
      customer's group. */
  lemma FrequencyFacts(rows: seq<Row<Day>>, i: int, j: int)
    requires 0 <= i < |rows| && 0 <= j < |rows|
    ensures Frequency(rows)[i] >= 1
    ensures rows[i].customer == rows[j].customer ==> Frequency(rows)[i] == Frequency(rows)[j]
    ensures Frequency(rows)[i] as real == SumWhere(rows, CustomerOf, One, rows[i].customer)
  {
    CountOfPresentKey(rows, i);
    CountIsSumOfOnes(rows, rows[i].customer);
  }

  /** groupby('Customer Name').size(), as sums of ones. */
  function RowsPerCustomer(rows: seq<Row<Day>>): (g: seq<Group<string>>)
    ensures IsGroupSum(g, rows, CustomerOf, One, LexLess)
  {
    LexLessIsStrictTotalOrder();
    GroupSum(rows, CustomerOf, One, LexLess)
  }

  /** The customers' row counts add up to the number of rows. */
  lemma RowsPerCustomerAddUp(rows: seq<Row<Day>>)
    ensures GroupTotal(RowsPerCustomer(rows)) == |rows| as real
  {
    LexLessIsStrictTotalOrder();
    GroupSumAdditive(rows, CustomerOf, One, LexLess);
    TotalOfOnes(rows);
  }

  /** groupby('Customer Name')['Sales'].transform('sum'). */
  function TotalSpent(rows: seq<Row<Day>>): (t: seq<real>)
    ensures |t| == |rows|
  {
    seq(|rows|, i requires 0 <= i < |rows| => SumWhere(rows, CustomerOf, SalesOf, rows[i].customer))
  }

  /** groupby('Customer Name')['Sales'].sum(). */
  function SpendByCustomer(rows: seq<Row<Day>>): (g: seq<Group<string>>)
    ensures IsGroupSum(g, rows, CustomerOf, SalesOf, LexLess)
  {
    LexLessIsStrictTotalOrder();
    GroupSum(rows, CustomerOf, SalesOf, LexLess)
  }

  /** total_spent is the customer's Sales sum, the same on each of the
      customer's rows, and the total of the customer's group in
      groupby('Customer Name')['Sales'].sum(). */
  lemma TotalSpentFacts(rows: seq<Row<Day>>, i: int, j: int)
    requires 0 <= i < |rows| && 0 <= j < |rows|
    ensures rows[i].customer == rows[j].customer ==> TotalSpent(rows)[i] == TotalSpent(rows)[j]
    ensures exists g :: g in SpendByCustomer(rows) && g.key == rows[i].customer && g.total == TotalSpent(rows)[i]
  {
    var gs := SpendByCustomer(rows);
    var c := rows[i].customer;
    assert rows[i] in rows && CustomerOf(rows[i]) == c;
    assert c in GroupKeys(gs);
    ProjectMembership(gs, (x: Group<string>) => x.key, c);
    var g :| g in gs && g.key == c;
    var k :| 0 <= k < |gs| && gs[k] == g;
  }

  /** df['total_spent'] * df['frequency'], element by element. */
  function Clv(totalSpent: seq<real>, frequency: seq<nat>): (c: seq<real>)
    requires |totalSpent| == |frequency|
    ensures |c| == |totalSpent|
    ensures forall i :: 0 <= i < |c| ==> c[i] == totalSpent[i] * frequency[i] as real
  {
    seq(|totalSpent|, i requires 0 <= i < |totalSpent| => totalSpent[i] * frequency[i] as real)
  }

  /** A row's CLV is the product of its total_spent and frequency cells, and
      all of a customer's rows carry the same CLV. */
  lemma ClvFacts(rows: seq<Row<Day>>, i: int, j: int)
    requires 0 <= i < |rows| && 0 <= j < |rows|
    ensures var c := Clv(TotalSpent(rows), Frequency(rows));
            && c[i] == TotalSpent(rows)[i] * Frequency(rows)[i] as real
            && (rows[i].customer == rows[j].customer ==> c[i] == c[j])
  {
    var t, f := TotalSpent(rows), Frequency(rows);
    if rows[i].customer == rows[j].customer {
      assert t[i] == t[j];
      assert f[i] == f[j];
    }
  }

  /* ---------- monetary segments ---------- */

  /** The five labels of pd.cut, lowest first. */
  datatype Segment = VeryLowSpender | LowSpender | MediumSpender | HighSpender | VeryHighSpender

  /** The bin edges [0, 50, 100, 200, 500, inf] without the infinite one. */
  const MonetaryEdges: seq<real> := [0.0, 50.0, 100.0, 200.0, 500.0]

  function Rank(s: Segment): (k: nat)
    ensures k < |MonetaryEdges|
  {
    match s
    case VeryLowSpender => 0
    case LowSpender => 1
    case MediumSpender => 2
    case HighSpender => 3
    case VeryHighSpender => 4
  }

  function Label(s: Segment): string {
    match s
    case VeryLowSpender => "Very Low Spender"
    case LowSpender => "Low Spender"
    case MediumSpender => "Medium Spender"
    case HighSpender => "High Spender"
    case VeryHighSpender => "Very High Spender"
  }

  /** pd.cut(x, bins=[0, 50, 100, 200, 500, inf]): bins closed on the right,
      open on the left, so 0 and anything below get no label (NaN). */
  function SegmentOf(x: real): (s: Option<Segment>)
    ensures s.None? <==> x <= 0.0
  {
    if x <= 0.0 then None
    else if x <= 50.0 then Some(VeryLowSpender)
    else if x <= 100.0 then Some(LowSpender)
    else if x <= 200.0 then Some(MediumSpender)
    else if x <= 500.0 then Some(HighSpender)
    else Some(VeryHighSpender)
  }

  /** The segment is the bin (edge k, edge k+1] of its rank; the last bin
      has no upper edge. */
  lemma SegmentIsBin(x: real, s: Segment)
    ensures SegmentOf(x) == Some(s) <==>
              MonetaryEdges[Rank(s)] < x && (Rank(s) == |MonetaryEdges| - 1 || x <= MonetaryEdges[Rank(s) + 1])
  {
  }

  /** A larger spend never gets a lower segment. */
  lemma SegmentMonotone(x: real, y: real)
    requires x <= y && SegmentOf(x).Some?
    ensures SegmentOf(y).Some? && Rank(SegmentOf(x).value) <= Rank(SegmentOf(y).value)
  {
  }

  /** The monetary_segment column. */
  function Segments(totalSpent: seq<real>): (s: seq<Option<Segment>>)
    ensures |s| == |totalSpent|
    ensures forall i :: 0 <= i < |s| ==> s[i] == SegmentOf(totalSpent[i])
  {
    Project(totalSpent, SegmentOf)
  }

  /* ---------- top customers ---------- */

  /** df[['Customer Name', 'total_spent']]: the two columns side by side. */
  function SpendPairs(names: seq<string>, spent: seq<real>): (p: seq<(string, real)>)
    requires |names| == |spent|
    ensures |p| == |names|
    ensures forall i :: 0 <= i < |p| ==> p[i] == (names[i], spent[i])
  {
    seq(|names|, i requires 0 <= i < |names| => (names[i], spent[i]))
  }

  ghost predicate NonIncreasing(s: seq<(string, real)>) {
    forall i, j :: 0 <= i < j < |s| ==> s[i].1 >= s[j].1
  }

  /** Places x before the first pair whose value is at most x's, so an
      earlier pair stays ahead of a later one with the same value. */
  function InsertDescending(x: (string, real), s: seq<(string, real)>): (r: seq<(string, real)>)
    requires NonIncreasing(s)
    ensures NonIncreasing(r)
    ensures multiset(r) == multiset(s) + multiset{x}
  {
    if s == [] || s[0].1 <= x.1 then [x] + s
    else
      var t := InsertDescending(x, s[1..]);
      KeepHeadAhead(x, s, t);
      [s[0]] + t
  }

  /** The insertion's recursive case: s's head, larger than x, stays in
      front of the rest with x placed in it. */
  lemma KeepHeadAhead(x: (string, real), s: seq<(string, real)>, t: seq<(string, real)>)
    requires NonIncreasing(s) && s != [] && s[0].1 > x.1
    requires NonIncreasing(t) && multiset(t) == multiset(s[1..]) + multiset{x}
    ensures NonIncreasing([s[0]] + t)
    ensures multiset([s[0]] + t) == multiset(s) + multiset{x}
  {
    forall y | y in t ensures s[0].1 >= y.1 {
      assert y in multiset(t);
      if y != x {
        assert y in multiset(s[1..]);
        var k :| 0 <= k < |s[1..]| && s[1..][k] == y;
        assert s[k + 1] == y;
      }
    }
    assert s == [s[0]] + s[1..];
  }

  /** A sort by value, largest first. */
  function SortDescending(s: seq<(string, real)>): (r: seq<(string, real)>)
    ensures NonIncreasing(r)
    ensures multiset(r) == multiset(s)
  {
    if s == [] then []
    else
      assert s == [s[0]] + s[1..];
      InsertDescending(s[0], SortDescending(s[1..]))
  }

  /** Series.nlargest(n): the n largest values, largest first. */
  function NLargest(s: seq<(string, real)>, n: nat): (r: seq<(string, real)>)
    ensures |r| == if |s| < n then |s| else n
  {
    var sorted := SortDescending(s);
    assert |sorted| == |multiset(sorted)| == |multiset(s)| == |s|;
    sorted[..if |s| < n then |s| else n]
  }

  /** drop_duplicates().nlargest(10, 'total_spent'). */
  function TopCustomers(names: seq<string>, spent: seq<real>): (top: seq<(string, real)>)
    requires |names| == |spent|
    ensures var pairs := Unique(SpendPairs(names, spent));
            |top| == if |pairs| < 10 then |pairs| else 10
    ensures NonIncreasing(top) && Distinct(top)
    ensures forall p :: p in top ==> p in SpendPairs(names, spent)
  {
    var pairs := Unique(SpendPairs(names, spent));
    NLargestShape(pairs, 10);
    NLargest(pairs, 10)
  }

  /** nlargest over a list without repeats: no repeats, largest first, only
      pairs of the list, and no pair left out is larger than a pair kept. */
  lemma NLargestShape(s: seq<(string, real)>, n: nat)
    requires Distinct(s)
    ensures var top := NLargest(s, n);
            && NonIncreasing(top)
            && Distinct(top)
            && (forall p :: p in top ==> p in s)
            && (forall p, q :: p in s && p !in top && q in top ==> p.1 <= q.1)
  {
    var sorted := SortDescending(s);
    var top := NLargest(s, n);
    var k := |top|;
    assert |sorted| == |multiset(sorted)| == |multiset(s)| == |s|;
    assert top == sorted[..k];
    SortKeepsDistinct(s);
    forall p | p in top ensures p in s {
      assert p in sorted;
      assert p in multiset(sorted);
    }
    forall p, q | p in s && p !in top && q in top ensures p.1 <= q.1 {
      assert p in multiset(s);
      assert p in sorted;
      var a :| 0 <= a < |sorted| && sorted[a] == p;
      var b :| 0 <= b < k && top[b] == q;
    }
  }

  /** The table holds min(10, #distinct pairs) distinct pairs of the
      columns, largest spend first, and no pair left out spent more than a
      pair shown. */
  lemma TopCustomersShape(names: seq<string>, spent: seq<real>)
    requires |names| == |spent|
    ensures var pairs := Unique(SpendPairs(names, spent));
            var top := TopCustomers(names, spent);
            && |top| == (if |pairs| < 10 then |pairs| else 10)
            && NonIncreasing(top)
            && Distinct(top)
            && (forall p :: p in top ==> exists i :: 0 <= i < |names| && p == (names[i], spent[i]))
            && (forall p, q :: p in pairs && p !in top && q in top ==> p.1 <= q.1)
  {
    var pairs := Unique(SpendPairs(names, spent));
    NLargestShape(pairs, 10);
    forall p | p in pairs ensures exists i :: 0 <= i < |names| && p == (names[i], spent[i]) {
      var i :| 0 <= i < |names| && SpendPairs(names, spent)[i] == p;
    }
  }

  /** Sorting a list without repeats gives a list without repeats. */
  lemma SortKeepsDistinct(s: seq<(string, real)>)
    requires Distinct(s)
    ensures Distinct(SortDescending(s))
  {
    var r := SortDescending(s);
    forall i, j | 0 <= i < j < |r| ensures r[i] != r[j] {
      if r[i] == r[j] {
        MultisetCount(r, i, j);
        assert multiset(s)[r[i]] >= 2;
        DistinctCountsOnce(s, r[i]);
        assert false;
      }
    }
  }

  /** Two positions holding x put x twice in the multiset. */
  lemma MultisetCount<T>(s: seq<T>, i: int, j: int)
    requires 0 <= i < j < |s| && s[i] == s[j]
    ensures multiset(s)[s[i]] >= 2
  {
    assert s == s[..i] + [s[i]] + s[i + 1..j] + [s[j]] + s[j + 1..];
  }

  /** In a list without repeats every value occurs at most once. */
  lemma {:induction false} DistinctCountsOnce<T>(s: seq<T>, x: T)
    requires Distinct(s)
    ensures multiset(s)[x] <= 1
  {
    if s != [] {
      assert s == [s[0]] + s[1..];
      assert Distinct(s[1..]) by {
        forall i, j | 0 <= i < j < |s[1..]| ensures s[1..][i] != s[1..][j] {
          assert s[1..][i] == s[i + 1] && s[1..][j] == s[j + 1];
        }
      }
      DistinctCountsOnce(s[1..], x);
      if x == s[0] {
        assert x !in s[1..];
      }
    }
  }

  /** When total_spent is the per-customer sum, each customer shows up at
      most once in the table. */
  lemma TopCustomersNamesDistinct(rows: seq<Row<Day>>)
    ensures var top := TopCustomers(Project(rows, CustomerOf), TotalSpent(rows));
            forall i, j :: 0 <= i < j < |top| ==> top[i].0 != top[j].0
  {
    var names := Project(rows, CustomerOf);
    var spent := TotalSpent(rows);
    var top := TopCustomers(names, spent);
    TopCustomersShape(names, spent);
    forall i, j | 0 <= i < j < |top| ensures top[i].0 != top[j].0 {
      assert top[i] in top && top[j] in top;
      var a :| 0 <= a < |names| && top[i] == (names[a], spent[a]);
      var b :| 0 <= b < |names| && top[j] == (names[b], spent[b]);
    }
  }

  /* ---------- the page's table ---------- */

  /** The page's DataFrame: the table as read, then the parsed table and the
      columns lines 20-36 add to it. */
  class CustomerFrame {
    var table: seq<Row<string>>
    var dated: seq<Row<Day>>
    var recency: seq<int>
    var frequency: seq<nat>
    var totalSpent: seq<real>
    var clv: seq<real>
    var repeatPurchaseFrequency: seq<nat>
    var monetarySegment: seq<Option<Segment>>

    /** Every derived column holds what its line computes from the parsed
        table. */
    ghost predicate Derived()
      reads this
    {
      && recency == Recency(dated)
      && frequency == Frequency(dated)
      && totalSpent == TotalSpent(dated)
      && clv == Clv(TotalSpent(dated), Frequency(dated))
      && repeatPurchaseFrequency == frequency
      && monetarySegment == Segments(totalSpent)
    }

    constructor (raw: seq<Row<string>>)
      ensures table == raw && dated == []
      ensures recency == [] && frequency == [] && totalSpent == [] && clv == []
      ensures repeatPurchaseFrequency == [] && monetarySegment == []
    {
      table := raw;
      dated := [];
      recency, frequency, totalSpent, clv := [], [], [], [];
      repeatPurchaseFrequency, monetarySegment := [], [];
    }

    /** Line 16. */
    method RewriteOrderDates()
      modifies this`table
      ensures table == DashesToSlashes(old(table))
    {
      table := DashesToSlashes(table);
    }

    /** Line 17: on failure the page raises and the table is left as it was. */
    method ParseOrderDates(parse: string -> Option<Day>) returns (ok: bool)
      modifies this`dated
      ensures ok == ParseStrict(table, parse).Success?
      ensures ok ==> dated == ParseStrict(table, parse).value
      ensures !ok ==> dated == old(dated)
    {
      var r := ParseStrict(table, parse);
      ok := r.Success?;
      if ok {
        dated := r.value;
      }
    }

    /** Line 20. */
    method AddRecency()
      modifies this`recency
      ensures recency == Recency(dated)
    {
      recency := Recency(dated);
    }

    /** Line 23. */
    method AddFrequency()
      modifies this`frequency
      ensures frequency == Frequency(dated)
    {
      frequency := Frequency(dated);
    }

    /** Line 26. */
    method AddTotalSpent()
      modifies this`totalSpent
      ensures totalSpent == TotalSpent(dated)
    {
      totalSpent := TotalSpent(dated);
    }

    /** Line 29. */
    method AddClv()
      requires |totalSpent| == |frequency|
      modifies this`clv
      ensures clv == Clv(totalSpent, frequency)
    {
      clv := Clv(totalSpent, frequency);
    }

    /** Line 32: the same count as frequency. */
    method AddRepeatPurchaseFrequency()
      modifies this`repeatPurchaseFrequency
      ensures repeatPurchaseFrequency == Frequency(dated)
    {
      repeatPurchaseFrequency := Frequency(dated);
    }

    /** Lines 35-36. */
    method AddMonetarySegment()
      modifies this`monetarySegment
      ensures monetarySegment == Segments(totalSpent)
    {
      monetarySegment := Segments(totalSpent);
    }

    /** Lines 16-36 in order. A date that does not parse stops the page
        before any column is added. */
    method Build(parse: string -> Option<Day>) returns (ok: bool)
      modifies this
      ensures ok == LoadOrders(old(table), parse).Success?
      ensures ok ==> dated == LoadOrders(old(table), parse).value && Derived()
      ensures ok ==> |recency| == |frequency| == |totalSpent| == |clv| == |monetarySegment| == |dated| == |old(table)|
      ensures table == DashesToSlashes(old(table))
      ensures !ok ==> dated == old(dated) && recency == old(recency) && frequency == old(frequency)
                      && totalSpent == old(totalSpent) && clv == old(clv)
                      && repeatPurchaseFrequency == old(repeatPurchaseFrequency)
                      && monetarySegment == old(monetarySegment)
    {
      RewriteOrderDates();
      ok := ParseOrderDates(parse);
      if ok {
        AddColumns();
      }
    }

    /** Lines 20-36, on a parsed table. */
    method AddColumns()
      modifies this`recency, this`frequency, this`totalSpent, this`clv
      modifies this`repeatPurchaseFrequency, this`monetarySegment
      ensures Derived()
      ensures |recency| == |frequency| == |totalSpent| == |clv| == |monetarySegment| == |dated|
    {
      AddRecency();
      AddFrequency();
      AddTotalSpent();
      AddClv();
      AddRepeatPurchaseFrequency();
      AddMonetarySegment();
    }

    /** Line 55, read from the table's columns. */
    method TopCustomerTable() returns (top: seq<(string, real)>)
      requires |totalSpent| == |dated|
      ensures |top| <= 10 && NonIncreasing(top) && Distinct(top)
      ensures forall p :: p in top ==> exists i :: 0 <= i < |dated| && p == (dated[i].customer, totalSpent[i])
      ensures forall i :: 0 <= i < |dated| && (dated[i].customer, totalSpent[i]) !in top ==>
                forall q :: q in top ==> totalSpent[i] <= q.1
      ensures |dated| > 0 ==> |top| > 0
      ensures var pairs := Unique(SpendPairs(Project(dated, CustomerOf), totalSpent));
              |top| == (if |pairs| < 10 then |pairs| else 10)
    {
      var names := Project(dated, CustomerOf);
      top := TopCustomers(names, totalSpent);
      TopCustomersShape(names, totalSpent);
      var pairs := Unique(SpendPairs(names, totalSpent));
      forall i | 0 <= i < |dated| ensures (dated[i].customer, totalSpent[i]) in pairs {
        assert SpendPairs(names, totalSpent)[i] == (dated[i].customer, totalSpent[i]);
      }
      if |dated| > 0 {
        assert (dated[0].customer, totalSpent[0]) in pairs;
      }
    }
  }
}

=== FILE: dashboard.dfy ===
/** The main dashboard page: column-name clean-up and the Order Date check,
    the KPI figures, the per-city / per-category / per-customer / per-day
    Sales sums, the fixed regional matrix and its row totals, the monthly
    resample and the three-month forecast table. */
module Dashboard {
  import opened Wrappers
  import opened Collections
  import opened Text
  import opened Calendar
  import opened Transactions
  import opened Forecasting

  /* ---------- header clean-up ---------- */

  /** df.columns.str.strip(). */
  function StripAll(columns: seq<string>): (r: seq<string>)
    ensures |r| == |columns|
    ensures forall i :: 0 <= i < |columns| ==> r[i] == Strip(columns[i])
  {
    Project(columns, Strip)
  }

  /** Stripping the header twice changes nothing. */
  lemma StripAllIdempotent(columns: seq<string>)
    ensures StripAll(StripAll(columns)) == StripAll(columns)
  {
    forall i | 0 <= i < |columns| ensures StripAll(StripAll(columns))[i] == StripAll(columns)[i] {
      StripIdempotent(columns[i]);
    }
  }

  const OrderDate: string := "Order Date"

  /** The KeyError the page raises, carrying the stripped column names. */
  datatype DashboardError = MissingOrderDate(columns: seq<string>)

  /** The presence check on the stripped header. */
  function CheckOrderDate(columns: seq<string>): (r: Result<seq<string>, DashboardError>)
    ensures r.Success? <==> OrderDate in columns
    ensures r.Success? ==> r.value == columns
    ensures r.Failure? ==> r.error == MissingOrderDate(columns)
  {
    if OrderDate in columns then Success(columns) else Failure(MissingOrderDate(columns))
  }

  /** A header passes exactly when one of its names is "Order Date" once
      surrounding whitespace is removed, so " Order Date " is accepted and
      "order date" is not. */
  lemma HeaderAccepted(columns: seq<string>)
    ensures CheckOrderDate(StripAll(columns)).Success? <==> exists i :: 0 <= i < |columns| && Strip(columns[i]) == OrderDate
  {
    var s := StripAll(columns);
    if OrderDate in s {
      var i :| 0 <= i < |s| && s[i] == OrderDate;
      assert Strip(columns[i]) == OrderDate;
    }
  }

  /** The page's DataFrame: its header and its rows, before and after the
      Order Date column is converted. */
  class SalesFrame {
    var columns: seq<string>
    var rows: seq<Row<string>>
    var coerced: seq<Row<Option<Day>>>

    constructor (header: seq<string>, raw: seq<Row<string>>)
      ensures columns == header && rows == raw && coerced == []
    {
      columns := header;
      rows := raw;
      coerced := [];
    }

    /** Line 15. */
    method StripColumnNames()
      modifies this`columns
      ensures columns == StripAll(old(columns))
    {
      columns := StripAll(columns);
    }

    /** Lines 22-23: nothing changes; the answer is the error, if any. */
    method RequireOrderDate() returns (err: Option<DashboardError>)
      ensures err.None? <==> OrderDate in columns
      ensures err.Some? ==> err.value == MissingOrderDate(columns)
    {
      var r := CheckOrderDate(columns);
      err := if r.Success? then None else Some(r.error);
    }

    /** Line 25, with the page's parser (format='mixed', dayfirst=False). */
    method CoerceOrderDates(parse: string -> Option<Day>)
      modifies this`coerced
      ensures coerced == Coerce(rows, parse)
    {
      coerced := Coerce(rows, parse);
    }

    /** Lines 15 and 22-25 in order: the rows are converted only when the
        stripped header has an Order Date column. */
    method Prepare(parse: string -> Option<Day>) returns (err: Option<DashboardError>)
      modifies this
      ensures columns == StripAll(old(columns)) && rows == old(rows)
      ensures err.None? <==> exists i :: 0 <= i < |old(columns)| && Strip(old(columns)[i]) == OrderDate
      ensures err.None? ==> coerced == Coerce(rows, parse)
      ensures err.Some? ==> coerced == old(coerced) && err.value == MissingOrderDate(columns)
    {
      HeaderAccepted(columns);
      StripColumnNames();
      err := RequireOrderDate();
      if err.None? {
        CoerceOrderDates(parse);
      }
    }
  }

  /* ---------- KPI figures ---------- */

  datatype Figures = Figures(totalSales: real, totalProfit: real, totalOrders: nat, aov: Option<real>)

  /** total_sales, total_profit, total_orders (distinct Order IDs) and
      aov = total_sales / total_orders, which is NaN (None) without orders.
      Rows whose date did not parse still count. */
  function ComputeFigures(rows: seq<Row<Option<Day>>>): (k: Figures)
    ensures k.totalSales == Total(rows, SalesOf) && k.totalProfit == Total(rows, ProfitOf)
    ensures k.totalOrders == DistinctCount(Project(rows, OrderIdOf))
    ensures k.totalOrders <= |rows| && (k.totalOrders == 0 <==> rows == [])
    ensures k.aov.Some? <==> k.totalOrders > 0
    ensures k.aov.Some? ==> k.aov.value * (k.totalOrders as real) == k.totalSales
  {
    var sales := Total(rows, SalesOf);
    var orders := DistinctCount(Project(rows, OrderIdOf));
    Figures(sales, Total(rows, ProfitOf), orders,
            if orders == 0 then None else Some(sales / orders as real))
  }

  /** Several rows of one order count once: the order count is the number of
      distinct Order IDs, which is below the row count as soon as two rows
      share an ID. */
  lemma OrdersCountedOnce(rows: seq<Row<Option<Day>>>, i: int, j: int)
    requires 0 <= i < j < |rows| && rows[i].orderId == rows[j].orderId
    ensures ComputeFigures(rows).totalOrders < |rows|
  {
    var ids := Project(rows, OrderIdOf);
    assert ids[i] == ids[j];
    RepeatLowersDistinctCount(ids, i, j);
  }

  /* ---------- per-key Sales sums ---------- */

  /** groupby('City')['Sales'].sum(), over every row. */
  function CitySales(rows: seq<Row<Option<Day>>>): (g: seq<Group<string>>)
    ensures IsGroupSum(g, rows, CityOf, SalesOf, LexLess)
  {
    LexLessIsStrictTotalOrder();
    GroupSum(rows, CityOf, SalesOf, LexLess)
  }

  /** groupby('Category')['Sales'].sum(). */
  function CategorySales(rows: seq<Row<Option<Day>>>): (g: seq<Group<string>>)
    ensures IsGroupSum(g, rows, CategoryOf, SalesOf, LexLess)
  {
    LexLessIsStrictTotalOrder();
    GroupSum(rows, CategoryOf, SalesOf, LexLess)
  }

  /** groupby('Customer Name')['Sales'].sum(). */
  function CustomerSales(rows: seq<Row<Option<Day>>>): (g: seq<Group<string>>)
    ensures IsGroupSum(g, rows, CustomerOf, SalesOf, LexLess)
  {
    LexLessIsStrictTotalOrder();
    GroupSum(rows, CustomerOf, SalesOf, LexLess)
  }

  /** groupby('Order Date')['Sales'].sum(): NaT keys are dropped, so only the
      rows whose date parsed take part. */
  function DailySales(rows: seq<Row<Option<Day>>>): (g: seq<Group<Day>>)
    ensures IsGroupSum(g, DropUndated(rows), DayOf, SalesOf, DayLess)
  {
    DayLessIsStrictTotalOrder();
    GroupSum(DropUndated(rows), DayOf, SalesOf, DayLess)
  }

  /** The city, category and customer sums each add up to total_sales; the
      daily sums miss exactly the Sales of the rows whose date did not
      parse. */
  lemma BreakdownsAddUp(rows: seq<Row<Option<Day>>>)
    ensures GroupTotal(CitySales(rows)) == ComputeFigures(rows).totalSales
    ensures GroupTotal(CategorySales(rows)) == ComputeFigures(rows).totalSales
    ensures GroupTotal(CustomerSales(rows)) == ComputeFigures(rows).totalSales
    ensures GroupTotal(DailySales(rows)) + SumWhere(rows, Dated, SalesOf, false) == ComputeFigures(rows).totalSales
  {
    LexLessIsStrictTotalOrder();
    DayLessIsStrictTotalOrder();
    GroupSumAdditive(rows, CityOf, SalesOf, LexLess);
    GroupSumAdditive(rows, CategoryOf, SalesOf, LexLess);
    GroupSumAdditive(rows, CustomerOf, SalesOf, LexLess);
    GroupSumAdditive(DropUndated(rows), DayOf, SalesOf, DayLess);
    UndatedSplit(rows);
  }

  /* ---------- the regional matrix ---------- */

  const Regions: seq<string> := ["Central", "East", "South", "West"]

  /** The fixed weekly sales matrix shown on the page, one row per region. */
  const SalesData: seq<seq<real>> := [
    [109543.91, 128017.14, 126587.35, 111517.05, 131699.53, 109261.91, 140179.95],
    [153741.06, 144498.17, 164465.08, 154932.01, 141292.78, 155569.22, 159847.26],
    [89102.07, 84058.78, 93728.18, 94823.55, 92961.26, 73909.18, 94979.87],
    [176134.02, 169031.67, 182576.61, 167890.03, 164446.81, 158753.70, 173171.77]]

  function Sum(s: seq<real>): real {
    if s == [] then 0.0 else s[0] + Sum(s[1..])
  }

  /** ndarray.sum(axis=1). */
  function RowSums(m: seq<seq<real>>): (r: seq<real>)
    ensures |r| == |m|
    ensures forall i :: 0 <= i < |m| ==> r[i] == Sum(m[i])
  {
    seq(|m|, i requires 0 <= i < |m| => Sum(m[i]))
  }

  /** Every entry concatenated, row after row. */
  function Flatten(m: seq<seq<real>>): seq<real> {
    if m == [] then [] else m[0] + Flatten(m[1..])
  }

  lemma {:induction false} SumAppend(a: seq<real>, b: seq<real>)
    ensures Sum(a + b) == Sum(a) + Sum(b)
  {
    if a == [] {
      assert a + b == b;
    } else {
      assert (a + b)[1..] == a[1..] + b;
      SumAppend(a[1..], b);
    }
  }

  /** The row totals add up to the sum of all entries. */
  lemma {:induction false} RowSumsAddUp(m: seq<seq<real>>)
    ensures Sum(RowSums(m)) == Sum(Flatten(m))
  {
    if m != [] {
      RowSumsAddUp(m[1..]);
      assert RowSums(m)[1..] == RowSums(m[1..]);
      SumAppend(m[0], Flatten(m[1..]));
    }
  }

  /** total_sales_per_region: four totals, the i-th belonging to Regions[i]. */
  function TotalSalesPerRegion(): (t: seq<real>)
    ensures |t| == |Regions| == |SalesData|
    ensures forall i :: 0 <= i < |t| ==> |SalesData[i]| == 7 && t[i] == Sum(SalesData[i])
  {
    RowSums(SalesData)
  }

  /** The four totals in exact decimal arithmetic. */
  lemma RegionTotals()
    ensures TotalSalesPerRegion() == [856806.84, 1074345.58, 623562.89, 1192004.61]
  {
    SumOfWeek(SalesData[0]);
    SumOfWeek(SalesData[1]);
    SumOfWeek(SalesData[2]);
    SumOfWeek(SalesData[3]);
  }

  lemma SumOfWeek(s: seq<real>)
    requires |s| == 7
    ensures Sum(s) == s[0] + s[1] + s[2] + s[3] + s[4] + s[5] + s[6]
  {
    assert Sum(s[6..]) == s[6] by { assert s[6..][1..] == []; }
    assert Sum(s[5..]) == s[5] + Sum(s[6..]) by { assert s[5..][1..] == s[6..]; }
    assert Sum(s[4..]) == s[4] + Sum(s[5..]) by { assert s[4..][1..] == s[5..]; }
    assert Sum(s[3..]) == s[3] + Sum(s[4..]) by { assert s[3..][1..] == s[4..]; }
    assert Sum(s[2..]) == s[2] + Sum(s[3..]) by { assert s[2..][1..] == s[3..]; }
    assert Sum(s[1..]) == s[1] + Sum(s[2..]) by { assert s[1..][1..] == s[2..]; }
  }

  /* ---------- monthly resample and forecast ---------- */

  /** The earliest and the latest period of the rows' dates. */
  function MonthBounds(dated: seq<Row<Day>>): (b: Option<(Month, Month)>)
    ensures b.None? <==> dated == []
    ensures b.Some? ==> MonthIndex(b.value.0) <= MonthIndex(b.value.1)
    ensures b.Some? ==> forall x :: x in dated ==>
              MonthIndex(b.value.0) <= MonthIndex(MonthOf(x)) <= MonthIndex(b.value.1)
    ensures b.Some? ==> (exists x :: x in dated && MonthOf(x) == b.value.0)
                        && (exists x :: x in dated && MonthOf(x) == b.value.1)
  {
    if dated == [] then None
    else
      var m := MonthOf(dated[0]);
      assert forall x :: x in dated[1..] ==> x in dated;
      match MonthBounds(dated[1..])
      case None => Some((m, m))
      case Some((lo, hi)) =>
        Some((if MonthIndex(m) < MonthIndex(lo) then m else lo,
              if MonthIndex(hi) < MonthIndex(m) then m else hi))
  }

  /** The n consecutive periods starting at `first`. */
  function MonthRun(first: Month, n: nat): (ms: seq<Month>)
    ensures |ms| == n
    ensures forall k :: 0 <= k < n ==> ms[k] == AddMonths(first, k)
  {
    seq(n, k requires 0 <= k < n => AddMonths(first, k))
  }

  /** set_index('Order Date').resample('M').sum()['Sales']: one row per
      period from the first to the last, including periods without sales,
      NaT rows left out. */
  function Resample(dated: seq<Row<Day>>): (g: seq<Group<Month>>)
    ensures dated == [] ==> g == []
    ensures dated != [] ==> var (lo, hi) := MonthBounds(dated).value;
              |g| == MonthIndex(hi) - MonthIndex(lo) + 1 && g[0].key == lo && g[|g| - 1].key == hi
    ensures forall k :: 0 <= k < |g| ==> g[k].key == AddMonths(g[0].key, k)
    ensures forall k :: 0 <= k < |g| ==> g[k].total == SumWhere(dated, MonthOf, SalesOf, g[k].key)
  {
    match MonthBounds(dated)
    case None => []
    case Some((lo, hi)) =>
      var g := GroupsFor(dated, MonthOf, SalesOf, MonthRun(lo, MonthIndex(hi) - MonthIndex(lo) + 1));
      AddMonthsZero(lo);
      MonthIndexInjective(AddMonths(lo, |g| - 1), hi);
      g
  }

  /** Every dated row's period is in the resampled table, a period without
      rows has a 0 total, and the table adds up to the dated rows' Sales. */
  lemma ResampleFacts(dated: seq<Row<Day>>)
    ensures forall x :: x in dated ==> exists k :: 0 <= k < |Resample(dated)| && Resample(dated)[k].key == MonthOf(x)
    ensures forall k :: 0 <= k < |Resample(dated)| && (forall x :: x in dated ==> MonthOf(x) != Resample(dated)[k].key) ==>
              Resample(dated)[k].total == 0.0
    ensures GroupTotal(Resample(dated)) == Total(dated, SalesOf)
  {
    ResampleCovers(dated);
    ResampleZeroFills(dated);
    ResampleAddsUp(dated);
  }

  lemma ResampleCovers(dated: seq<Row<Day>>)
    ensures forall x :: x in dated ==> exists k :: 0 <= k < |Resample(dated)| && Resample(dated)[k].key == MonthOf(x)
  {
    var g := Resample(dated);
    if dated != [] {
      ResampleKeys(dated);
      var ks := GroupKeys(g);
      forall x | x in dated ensures exists k :: 0 <= k < |g| && g[k].key == MonthOf(x) {
        var k :| 0 <= k < |ks| && ks[k] == MonthOf(x);
      }
    }
  }

  lemma ResampleZeroFills(dated: seq<Row<Day>>)
    ensures forall k :: 0 <= k < |Resample(dated)| && (forall x :: x in dated ==> MonthOf(x) != Resample(dated)[k].key) ==>
              Resample(dated)[k].total == 0.0
  {
    var g := Resample(dated);
    forall k | 0 <= k < |g| && (forall x :: x in dated ==> MonthOf(x) != g[k].key) ensures g[k].total == 0.0 {
      SumWhereAbsent(dated, MonthOf, SalesOf, g[k].key);
    }
  }

  lemma ResampleAddsUp(dated: seq<Row<Day>>)
    ensures GroupTotal(Resample(dated)) == Total(dated, SalesOf)
  {
    if dated != [] {
      ResampleKeys(dated);
      var g := Resample(dated);
      var ks := GroupKeys(g);
      assert g == GroupsFor(dated, MonthOf, SalesOf, ks);
      GroupsTotal(dated, MonthOf, SalesOf, ks);
    }
  }

  /** The resampled periods are the consecutive run from the first to the
      last dated period: distinct, and covering every dated row's period. */
  lemma ResampleKeys(dated: seq<Row<Day>>)
    requires dated != []
    ensures var g := Resample(dated);
            && GroupKeys(g) == MonthRun(MonthBounds(dated).value.0, |g|)
            && Distinct(GroupKeys(g))
            && forall x :: x in dated ==> MonthOf(x) in GroupKeys(g)
  {
    var g := Resample(dated);
    var (lo, hi) := MonthBounds(dated).value;
    var ks := MonthRun(lo, |g|);
    assert GroupKeys(g) == ks;
    forall x | x in dated ensures MonthOf(x) in ks {
      var k := MonthIndex(MonthOf(x)) - MonthIndex(lo);
      MonthIndexInjective(AddMonths(lo, k), MonthOf(x));
      assert ks[k] == MonthOf(x);
    }
    forall i, j | 0 <= i < j < |ks| ensures ks[i] != ks[j] {
      assert MonthIndex(ks[i]) != MonthIndex(ks[j]);
    }
  }

  /** forecast = model_fit.forecast(steps=3) on the monthly series, indexed
      by the three month ends after the last resampled period (the last
      period end plus one day, then freq='M'). The page fails on a table
      without dated rows (index[-1] of an empty index). */
  function DashboardForecast(rows: seq<Row<Option<Day>>>, f: Forecaster): (t: Option<seq<(Day, real)>>)
    ensures t.Some? <==> DropUndated(rows) != []
    ensures t.Some? ==> |t.value| == 3
    ensures t.Some? ==> forall i :: 0 <= i < 3 ==>
              t.value[i].0 == MonthEnd(AddMonths(MonthBounds(DropUndated(rows)).value.1, i + 1))
    ensures t.Some? ==> forall i :: 0 <= i < 3 ==>
              t.value[i].1 == f(Project(Resample(DropUndated(rows)), (g: Group<Month>) => g.total), 3)[i]
  {
    var monthly := Resample(DropUndated(rows));
    if monthly == [] then None
    else Some(ForecastTable(Project(monthly, (g: Group<Month>) => g.total), monthly[|monthly| - 1].key, f, 3))
  }

  /** The forecast dates are month ends, strictly increasing, each later
      than every parsed order date. */
  lemma DashboardForecastDates(rows: seq<Row<Option<Day>>>, f: Forecaster)
    requires DropUndated(rows) != []
    ensures var t := DashboardForecast(rows, f).value;
            && (forall i, j :: 0 <= i < j < |t| ==> DateLess(t[i].0, t[j].0))
            && (forall x, i :: x in DropUndated(rows) && 0 <= i < |t| ==> DateLess(x.orderDate, t[i].0))
  {
    var dated := DropUndated(rows);
    var monthly := Resample(dated);
    var last := monthly[|monthly| - 1].key;
    var series := Project(monthly, (g: Group<Month>) => g.total);
    forall x | x in dated ensures !YMLess(last, Bucket(x.orderDate)) {
      YMLessIsIndexOrder(last, Bucket(x.orderDate));
    }
    forall x | x in dated
      ensures forall i :: 0 <= i < 3 ==> DateLess(x.orderDate, ForecastTable(series, last, f, 3)[i].0)
    {
      ForecastTableOrdered(series, last, f, 3, x.orderDate);
    }
    ForecastTableOrdered(series, last, f, 3, FirstOfMonth(last));
  }
}

=== FILE: forecasting.dfy ===
/** What the pages do around a fitted time-series model: the model itself
    (statsmodels' ExponentialSmoothing) is a parameter that returns as many
    values as it is asked for, and the pages pair those values with the
    month ends that follow the history. */
module Forecasting {
  import opened Calendar

  /** model.fit().forecast(steps): exactly `steps` values for any history. */
  type Forecaster = f: (seq<real>, nat) -> seq<real> | forall s, n :: |f(s, n)| == n witness Flat

  /** A forecaster that predicts zeros. */
  function Flat(s: seq<real>, n: nat): (r: seq<real>)
    ensures |r| == n
  {
    seq(n, i => 0.0)
  }

  /** pd.DataFrame({'Forecasted Sales': forecast}, index=dates), where dates
      are the month ends of the n periods after `last`. */
  function ForecastTable(history: seq<real>, last: Month, f: Forecaster, n: nat): (t: seq<(Day, real)>)
    ensures |t| == n
    ensures forall i :: 0 <= i < n ==> t[i].0 == MonthEnd(AddMonths(last, i + 1)) && t[i].1 == f(history, n)[i]
  {
    var values := f(history, n);
    var dates := MonthEndsAfter(last, n);
    seq(n, i requires 0 <= i < n => (dates[i], values[i]))
  }

  /** The forecast dates strictly increase and come after every date of
      period `last` and before it. */
  lemma ForecastTableOrdered(history: seq<real>, last: Month, f: Forecaster, n: nat, d: Day)
    requires !YMLess(last, Bucket(d))
    ensures var t := ForecastTable(history, last, f, n);
            && (forall i, j :: 0 <= i < j < n ==> DateLess(t[i].0, t[j].0))
            && (forall i :: 0 <= i < n ==> DateLess(d, t[i].0))
  {
    var t := ForecastTable(history, last, f, n);
    var e := FirstOfMonth(last);
    MonthEndsAfterOrdered(last, n, e);
    forall i | 0 <= i < n ensures DateLess(d, t[i].0) {
      assert DateLess(e, t[i].0);
    }
  }
}

=== FILE: geo_forecast.dfy ===
/** The geo-forecast page: day-first date coercion that keeps unparsed rows,
    the four Sales sums (per day, sub-category, discount and city), the
    twelve-step forecast with its month-end dates, and the inventory list
    built from the forecast. */
module GeoForecast {
  import opened Wrappers
  import opened Collections
  import opened Text
  import opened Calendar
  import opened Transactions
  import opened Forecasting

  /** pd.to_datetime(df['Order Date'], dayfirst=True, errors='coerce'): the
      column is overwritten and no row is removed. */
  function LoadTable(raw: seq<Row<string>>, parseDayFirst: string -> Option<Day>): (t: seq<Row<Option<Day>>>)
    ensures |t| == |raw|
    ensures forall i :: 0 <= i < |raw| ==> t[i] == WithDate(raw[i], parseDayFirst(raw[i].orderDate))
  {
    Coerce(raw, parseDayFirst)
  }

  /** groupby('Order Date')['Sales'].sum(): NaT keys take no part. */
  function SalesOverTime(t: seq<Row<Option<Day>>>): (g: seq<Group<Day>>)
    ensures IsGroupSum(g, DropUndated(t), DayOf, SalesOf, DayLess)
  {
    DayLessIsStrictTotalOrder();
    GroupSum(DropUndated(t), DayOf, SalesOf, DayLess)
  }

  /** groupby('Sub Category')['Sales'].sum(), over every row. */
  function SalesBySubCategory(t: seq<Row<Option<Day>>>): (g: seq<Group<string>>)
    ensures IsGroupSum(g, t, SubCategoryOf, SalesOf, LexLess)
  {
    LexLessIsStrictTotalOrder();
    GroupSum(t, SubCategoryOf, SalesOf, LexLess)
  }

  /** groupby('Discount')['Sales'].sum(), keys in ascending discount. */
  function SalesByDiscount(t: seq<Row<Option<Day>>>): (g: seq<Group<real>>)
    ensures IsGroupSum(g, t, DiscountOf, SalesOf, RealLess)
  {
    NumericOrdersAreStrictTotalOrders();
    GroupSum(t, DiscountOf, SalesOf, RealLess)
  }

  /** groupby('City')['Sales'].sum(). */
  function SalesByCity(t: seq<Row<Option<Day>>>): (g: seq<Group<string>>)
    ensures IsGroupSum(g, t, CityOf, SalesOf, LexLess)
  {
    LexLessIsStrictTotalOrder();
    GroupSum(t, CityOf, SalesOf, LexLess)
  }

  /** A row whose date did not parse still counts in the sub-category,
      discount and city sums, which add up to the whole Sales column, while
      the per-day sums miss exactly those rows' Sales. */
  lemma UndatedRowsStillCount(t: seq<Row<Option<Day>>>)
    ensures GroupTotal(SalesBySubCategory(t)) == Total(t, SalesOf)
    ensures GroupTotal(SalesByDiscount(t)) == Total(t, SalesOf)
    ensures GroupTotal(SalesByCity(t)) == Total(t, SalesOf)
    ensures GroupTotal(SalesOverTime(t)) + SumWhere(t, Dated, SalesOf, false) == Total(t, SalesOf)
  {
    LexLessIsStrictTotalOrder();
    NumericOrdersAreStrictTotalOrders();
    DayLessIsStrictTotalOrder();
    GroupSumAdditive(t, SubCategoryOf, SalesOf, LexLess);
    GroupSumAdditive(t, DiscountOf, SalesOf, RealLess);
    GroupSumAdditive(t, CityOf, SalesOf, LexLess);
    GroupSumAdditive(DropUndated(t), DayOf, SalesOf, DayLess);
    UndatedSplit(t);
  }

  /** An undated row's city appears in the city table with a sum that
      includes its Sales. */
  lemma UndatedRowInCityTable(t: seq<Row<Option<Day>>>, i: int)
    requires 0 <= i < |t| && t[i].orderDate.None?
    ensures exists g :: g in SalesByCity(t) && g.key == t[i].city
  {
    var gs := SalesByCity(t);
    assert t[i] in t && CityOf(t[i]) == t[i].city;
    assert t[i].city in GroupKeys(gs);
    ProjectMembership(gs, (x: Group<string>) => x.key, t[i].city);
  }

  /** The latest parsed date: the last key of the per-day table. */
  function LatestDay(t: seq<Row<Option<Day>>>): (d: Option<Day>)
    ensures d.None? <==> DropUndated(t) == []
    ensures d.Some? ==> forall x :: x in DropUndated(t) ==> x.orderDate == d.value || DateLess(x.orderDate, d.value)
    ensures d.Some? ==> exists x :: x in DropUndated(t) && x.orderDate == d.value
  {
    var g := SalesOverTime(t);
    if g == [] then
      assert forall x :: x in DropUndated(t) ==> DayOf(x) in GroupKeys(g);
      None
    else
      var last := g[|g| - 1].key;
      forall x | x in DropUndated(t) ensures x.orderDate == last || DateLess(x.orderDate, last) {
        LastKeyIsGreatest(g, DropUndated(t), DayOf, SalesOf, DayLess, x);
      }
      assert g[0].key in GroupKeys(g);
      assert last in GroupKeys(g);
      var w :| w in DropUndated(t) && DayOf(w) == last;
      Some(last)
  }

  /** forecast = fit().forecast(12) over the per-day series, indexed by
      pd.date_range(start=max date, periods=13, freq='M')[1:]: the month
      ends of the twelve periods after the latest date's. Without a parsed
      date the page fails (date_range from NaT). */
  function GeoForecastTable(t: seq<Row<Option<Day>>>, f: Forecaster): (r: Option<seq<(Day, real)>>)
    ensures r.Some? <==> DropUndated(t) != []
    ensures r.Some? ==> |r.value| == 12
    ensures r.Some? ==> forall i :: 0 <= i < 12 ==> r.value[i].0 == MonthEnd(AddMonths(Bucket(LatestDay(t).value), i + 1))
    ensures r.Some? ==> forall i :: 0 <= i < 12 ==>
              r.value[i].1 == f(Project(SalesOverTime(t), (g: Group<Day>) => g.total), 12)[i]
  {
    match LatestDay(t)
    case None => None
    case Some(d) =>
      Some(ForecastTable(Project(SalesOverTime(t), (g: Group<Day>) => g.total), Bucket(d), f, 12))
  }

  /** The twelve dates strictly increase and each is later than every
      parsed order date. */
  lemma GeoForecastDates(t: seq<Row<Option<Day>>>, f: Forecaster)
    requires DropUndated(t) != []
    ensures var r := GeoForecastTable(t, f).value;
            && (forall i, j :: 0 <= i < j < 12 ==> DateLess(r[i].0, r[j].0))
            && (forall x, i :: x in DropUndated(t) && 0 <= i < 12 ==> DateLess(x.orderDate, r[i].0))
  {
    var d := LatestDay(t).value;
    var series := Project(SalesOverTime(t), (g: Group<Day>) => g.total);
    ForecastTableOrdered(series, Bucket(d), f, 12, d);
    forall x | x in DropUndated(t) ensures !YMLess(Bucket(d), Bucket(x.orderDate)) {
    }
    forall x | x in DropUndated(t)
      ensures forall i :: 0 <= i < 12 ==> DateLess(x.orderDate, ForecastTable(series, Bucket(d), f, 12)[i].0)
    {
      ForecastTableOrdered(series, Bucket(d), f, 12, x.orderDate);
    }
  }

  /** One inventory line: the product number and the forecast it is based
      on. */
  datatype InventoryItem = InventoryItem(product: nat, forecast: real)

  /** The recommendation list: one line per forecast value, numbered from 1. */
  function InventoryList(forecast: seq<real>): (items: seq<InventoryItem>)
    ensures |items| == |forecast|
    ensures forall i :: 0 <= i < |items| ==> items[i] == InventoryItem(i + 1, forecast[i])
  {
    seq(|forecast|, i requires 0 <= i < |forecast| => InventoryItem(i + 1, forecast[i]))
  }

  /** The product numbers run from 1 to n without gaps or repeats. */
  lemma InventoryNumbering(forecast: seq<real>)
    ensures var items := InventoryList(forecast);
            && (forall i :: 0 <= i < |items| ==> 1 <= items[i].product <= |forecast|)
            && (forall i, j :: 0 <= i < j < |items| ==> items[i].product < items[j].product)
            && (|items| > 0 ==> items[0].product == 1 && items[|items| - 1].product == |forecast|)
  {
  }

  /** On the page the list has twelve lines, one per forecast month. */
  lemma InventoryFollowsForecast(t: seq<Row<Option<Day>>>, f: Forecaster)
    requires DropUndated(t) != []
    ensures |InventoryList(Project(GeoForecastTable(t, f).value, (p: (Day, real)) => p.1))| == 12
  {
  }
}

=== FILE: sales_analysis.dfy ===
/** The sales-analysis page: the cleaned table with its Year, Month and
    Weekday columns, the four filter dropdowns, the filter chain of the
    update_dashboard callback, and the sub-category bar chart and
    weekday-by-month heatmap it draws from the filtered rows. */
module SalesAnalysis {
  import opened Wrappers
  import opened Collections
  import opened Text
  import opened Calendar
  import opened Transactions

  /* ---------- derived calendar columns ---------- */

  /** A cleaned row with the three columns the page adds to it. */
  datatype Enriched = Enriched(row: Row<Day>, year: int, month: int, weekday: string)

  /** df['Year'], df['Month'] and df['Weekday'] (dt.year, dt.month,
      dt.day_name()) written next to every row that survived cleaning. */
  function Enrich(df: seq<Row<Day>>): (t: seq<Enriched>)
    ensures |t| == |df|
    ensures forall i :: 0 <= i < |df| ==>
              && t[i].row == df[i]
              && t[i].year == df[i].orderDate.year
              && t[i].month == df[i].orderDate.month && 1 <= t[i].month <= 12
              && t[i].weekday == DayName(df[i].orderDate) && t[i].weekday in DayNames
  {
    Project(df, (r: Row<Day>) => Enriched(r, r.orderDate.year, r.orderDate.month, DayName(r.orderDate)))
  }

  /** The page's table: day-unparsable rows dropped, then enriched. */
  function LoadTable(raw: seq<Row<string>>, parseInferred: string -> Option<Day>): (t: seq<Enriched>)
    ensures |t| <= |raw|
    ensures |t| == |Clean(raw, parseInferred)|
    ensures forall i :: 0 <= i < |t| ==> t[i].row == Clean(raw, parseInferred)[i]
    ensures forall x :: x in t ==> exists i :: 0 <= i < |raw| && parseInferred(raw[i].orderDate) == Some(x.row.orderDate)
                                      && x.row == WithDate(raw[i], x.row.orderDate)
    ensures forall x :: x in t ==> x.year == x.row.orderDate.year && x.month == x.row.orderDate.month
                                   && x.weekday == DayName(x.row.orderDate)
  {
    var df := Clean(raw, parseInferred);
    var t := Enrich(df);
    assert forall x :: x in t ==> x.row in df by {
      forall x | x in t ensures x.row in df {
        var i :| 0 <= i < |t| && t[i] == x;
        assert df[i] in df;
      }
    }
    t
  }

  /** No row whose date parses is lost: each one is in the table, with its
      parsed date and its derived columns. */
  lemma LoadTableKeepsParsedRows(raw: seq<Row<string>>, parseInferred: string -> Option<Day>, i: int)
    requires 0 <= i < |raw| && parseInferred(raw[i].orderDate).Some?
    ensures var d := parseInferred(raw[i].orderDate).value;
            exists x :: x in LoadTable(raw, parseInferred) && x.row == WithDate(raw[i], d)
                        && x.year == d.year && x.month == d.month && x.weekday == DayName(d)
  {
    var df := Clean(raw, parseInferred);
    var t := LoadTable(raw, parseInferred);
    var r := WithDate(raw[i], parseInferred(raw[i].orderDate).value);
    assert r in df;
    var k :| 0 <= k < |df| && df[k] == r;
    assert t[k].row == r && t[k] in t;
  }

  /* ---------- dropdown options ---------- */

  function CategoryCol(x: Enriched): string { x.row.category }
  function CityCol(x: Enriched): string { x.row.city }
  function YearCol(x: Enriched): int { x.year }
  function MonthCol(x: Enriched): int { x.month }
  function SubCategoryCol(x: Enriched): string { x.row.subCategory }
  function SalesCol(x: Enriched): real { x.row.sales }

  /** sorted(df['Category'].unique()). */
  function CategoryOptions(t: seq<Enriched>): (o: seq<string>)
    ensures StrictlySorted(o, LexLess)
    ensures forall c :: c in o <==> exists x :: x in t && x.row.category == c
  {
    LexLessIsStrictTotalOrder();
    ProjectMembershipAll(t, CategoryCol);
    SortedDistinct(Project(t, CategoryCol), LexLess)
  }

  /** sorted(df['City'].unique()). */
  function CityOptions(t: seq<Enriched>): (o: seq<string>)
    ensures StrictlySorted(o, LexLess)
    ensures forall c :: c in o <==> exists x :: x in t && x.row.city == c
  {
    LexLessIsStrictTotalOrder();
    ProjectMembershipAll(t, CityCol);
    SortedDistinct(Project(t, CityCol), LexLess)
  }

  /** sorted(df['Year'].unique()). */
  function YearOptions(t: seq<Enriched>): (o: seq<int>)
    ensures StrictlySorted(o, IntLess)
    ensures forall y :: y in o <==> exists x :: x in t && x.year == y
  {
    NumericOrdersAreStrictTotalOrders();
    ProjectMembershipAll(t, YearCol);
    SortedDistinct(Project(t, YearCol), IntLess)
  }

  /** sorted(df['Month'].unique()). */
  function MonthValues(t: seq<Enriched>): (o: seq<int>)
    ensures StrictlySorted(o, IntLess)
    ensures forall m :: m in o <==> exists x :: x in t && x.month == m
  {
    NumericOrdersAreStrictTotalOrders();
    ProjectMembershipAll(t, MonthCol);
    SortedDistinct(Project(t, MonthCol), IntLess)
  }

  const MonthNames: seq<string> :=
    ["January", "February", "March", "April", "May", "June", "July",
     "August", "September", "October", "November", "December"]

  /** The month dropdown: each month value, in order, labelled with its full
      name (strftime('%B')). */
  function MonthOptions(t: seq<Enriched>): (o: seq<(string, int)>)
    requires forall x :: x in t ==> 1 <= x.month <= 12
    ensures |o| == |MonthValues(t)|
    ensures forall i :: 0 <= i < |o| ==> o[i].1 == MonthValues(t)[i] && 1 <= o[i].1 <= 12
    ensures forall i :: 0 <= i < |o| ==> o[i].0 == MonthNames[o[i].1 - 1]
  {
    var ms := MonthValues(t);
    assert forall i :: 0 <= i < |ms| ==> ms[i] in ms;
    seq(|ms|, i requires 0 <= i < |ms| => (MonthNames[ms[i] - 1], ms[i]))
  }

  /* ---------- the filter chain ---------- */

  /** The five callback inputs. A dropdown value is None when cleared; the
      discount range is None when the slider sends an empty list. */
  datatype Filters = Filters(
    category: Option<string>,
    city: Option<string>,
    year: Option<int>,
    month: Option<int>,
    discount: Option<(real, real)>)

  /** Python truthiness of a dropdown value. */
  predicate GivenText(v: Option<string>) { v.Some? && v.value != "" }
  predicate GivenNumber(v: Option<int>) { v.Some? && v.value != 0 }

  predicate KeepsCategory(f: Filters, x: Enriched) { !GivenText(f.category) || x.row.category == f.category.value }
  predicate KeepsCity(f: Filters, x: Enriched) { !GivenText(f.city) || x.row.city == f.city.value }
  predicate KeepsYear(f: Filters, x: Enriched) { !GivenNumber(f.year) || x.year == f.year.value }
  predicate KeepsMonth(f: Filters, x: Enriched) { !GivenNumber(f.month) || x.month == f.month.value }

  /** Inclusive at both ends. */
  predicate KeepsDiscount(f: Filters, x: Enriched) {
    f.discount.None? || (f.discount.value.0 <= x.row.discount && x.row.discount <= f.discount.value.1)
  }

  /** A row survives the chain exactly when it passes every supplied filter. */
  predicate Matches(f: Filters, x: Enriched) {
    KeepsCategory(f, x) && KeepsCity(f, x) && KeepsYear(f, x) && KeepsMonth(f, x) && KeepsDiscount(f, x)
  }

  /** The mask the whole chain applies. */
  function MatchesMask(f: Filters): Enriched -> bool {
    (x: Enriched) => Matches(f, x)
  }

  /** The five masks of the chain; an absent filter's mask keeps every row. */
  function CategoryMask(f: Filters): Enriched -> bool { (x: Enriched) => KeepsCategory(f, x) }
  function CityMask(f: Filters): Enriched -> bool { (x: Enriched) => KeepsCity(f, x) }
  function YearMask(f: Filters): Enriched -> bool { (x: Enriched) => KeepsYear(f, x) }
  function MonthMask(f: Filters): Enriched -> bool { (x: Enriched) => KeepsMonth(f, x) }
  function DiscountMask(f: Filters): Enriched -> bool { (x: Enriched) => KeepsDiscount(f, x) }

  /** update_dashboard's filtering: each supplied filter narrows
      filtered_df in turn, and the result is the rows passing all of them. */
  method FilterRows(df: seq<Enriched>, f: Filters) returns (filtered: seq<Enriched>)
    ensures filtered == Keep(df, MatchesMask(f))
  {
    filtered := df;
    if GivenText(f.category) {
      filtered := Keep(filtered, CategoryMask(f));
    } else {
      KeepAll(filtered, CategoryMask(f));
    }
    if GivenText(f.city) {
      filtered := Keep(filtered, CityMask(f));
    } else {
      KeepAll(filtered, CityMask(f));
    }
    if GivenNumber(f.year) {
      filtered := Keep(filtered, YearMask(f));
    } else {
      KeepAll(filtered, YearMask(f));
    }
    if GivenNumber(f.month) {
      filtered := Keep(filtered, MonthMask(f));
    } else {
      KeepAll(filtered, MonthMask(f));
    }
    if f.discount.Some? {
      filtered := Keep(filtered, DiscountMask(f));
    } else {
      KeepAll(filtered, DiscountMask(f));
    }
    ChainIsConjunction(df, f);
  }

  /** Five masks applied one after another act as their conjunction. */
  lemma KeepFive(s: seq<Enriched>, p1: Enriched -> bool, p2: Enriched -> bool, p3: Enriched -> bool,
                 p4: Enriched -> bool, p5: Enriched -> bool)
    ensures Keep(Keep(Keep(Keep(Keep(s, p1), p2), p3), p4), p5)
         == Keep(s, And(And(And(And(p1, p2), p3), p4), p5))
  {
    KeepConjunction(s, p1, p2);
    KeepConjunction(s, And(p1, p2), p3);
    KeepConjunction(s, And(And(p1, p2), p3), p4);
    KeepConjunction(s, And(And(And(p1, p2), p3), p4), p5);
  }

  /** The chain in the page's order is the single conjunctive mask. */
  lemma ChainIsConjunction(df: seq<Enriched>, f: Filters)
    ensures Keep(Keep(Keep(Keep(Keep(df, CategoryMask(f)), CityMask(f)), YearMask(f)), MonthMask(f)), DiscountMask(f))
         == Keep(df, MatchesMask(f))
  {
    var conj := And(And(And(And(CategoryMask(f), CityMask(f)), YearMask(f)), MonthMask(f)), DiscountMask(f));
    KeepFive(df, CategoryMask(f), CityMask(f), YearMask(f), MonthMask(f), DiscountMask(f));
    MasksMeanMatches(f, conj);
    KeepExtensional(df, conj, MatchesMask(f));
  }

  lemma MasksMeanMatches(f: Filters, conj: Enriched -> bool)
    requires conj == And(And(And(And(CategoryMask(f), CityMask(f)), YearMask(f)), MonthMask(f)), DiscountMask(f))
          || conj == And(And(And(And(DiscountMask(f), MonthMask(f)), YearMask(f)), CityMask(f)), CategoryMask(f))
    ensures forall x :: conj(x) == MatchesMask(f)(x)
  {
  }

  /** The filtered table keeps the rows passing every filter, in their
      original order, and nothing else. */
  lemma FilteredIsOrderedSubset(df: seq<Enriched>, f: Filters)
    ensures IsSubsequence(Keep(df, MatchesMask(f)), df)
    ensures forall x :: x in Keep(df, MatchesMask(f)) <==> x in df && Matches(f, x)
  {
    KeepIsSubsequence(df, MatchesMask(f));
  }

  /** The order of the chain does not matter: running it backwards, from the
      discount range to the category, gives the same table. */
  lemma FilterOrderIrrelevant(df: seq<Enriched>, f: Filters)
    ensures Keep(Keep(Keep(Keep(Keep(df, DiscountMask(f)), MonthMask(f)), YearMask(f)), CityMask(f)), CategoryMask(f))
         == Keep(df, MatchesMask(f))
  {
    var conj := And(And(And(And(DiscountMask(f), MonthMask(f)), YearMask(f)), CityMask(f)), CategoryMask(f));
    KeepFive(df, DiscountMask(f), MonthMask(f), YearMask(f), CityMask(f), CategoryMask(f));
    MasksMeanMatches(f, conj);
    KeepExtensional(df, conj, MatchesMask(f));
  }

  /** The discount filter keeps exactly the rows with low <= Discount <= high. */
  lemma DiscountRangeInclusive(df: seq<Enriched>, low: real, high: real, x: Enriched)
    requires x in df
    ensures var f := Filters(None, None, None, None, Some((low, high)));
            x in Keep(df, MatchesMask(f)) <==> low <= x.row.discount <= high
  {
  }

  /* ---------- sub-category bar chart ---------- */

  ghost predicate SortedByTotal<K>(s: seq<Group<K>>) {
    forall i, j :: 0 <= i < j < |s| ==> s[i].total <= s[j].total
  }

  /** Inserts g before the first group with a larger total. */
  function InsertByTotal<K(!new)>(g: Group<K>, s: seq<Group<K>>): (r: seq<Group<K>>)
    requires SortedByTotal(s)
    ensures SortedByTotal(r)
    ensures forall y :: y in r <==> y == g || y in s
    ensures multiset(r) == multiset(s) + multiset{g}
  {
    if s == [] then [g]
    else if g.total <= s[0].total then [g] + s
    else
      var t := InsertByTotal(g, s[1..]);
      assert forall y :: y in t ==> s[0].total <= y.total;
      assert s == [s[0]] + s[1..];
      assert multiset([s[0]] + t) == multiset{s[0]} + multiset(t);
      [s[0]] + t
  }

  /** Series.sort_values(): ascending by total. */
  function SortByTotal<K(!new)>(s: seq<Group<K>>): (r: seq<Group<K>>)
    ensures SortedByTotal(r)
    ensures forall y :: y in r <==> y in s
    ensures multiset(r) == multiset(s)
  {
    if s == [] then []
    else
      assert s == [s[0]] + s[1..];
      InsertByTotal(s[0], SortByTotal(s[1..]))
  }

  ghost predicate DistinctKeys<K>(s: seq<Group<K>>) {
    forall i, j :: 0 <= i < j < |s| ==> s[i].key != s[j].key
  }

  lemma {:induction false} InsertKeepsKeysDistinct<K(!new)>(g: Group<K>, s: seq<Group<K>>)
    requires SortedByTotal(s) && DistinctKeys(s)
    requires forall y :: y in s ==> y.key != g.key
    ensures DistinctKeys(InsertByTotal(g, s))
  {
    if s != [] && g.total > s[0].total {
      assert forall y :: y in s[1..] ==> y in s;
      InsertKeepsKeysDistinct(g, s[1..]);
      var t := InsertByTotal(g, s[1..]);
      assert s[0].key != g.key;
      assert forall y :: y in t ==> y.key != s[0].key;
    }
  }

  lemma {:induction false} InsertAddsTotal<K(!new)>(g: Group<K>, s: seq<Group<K>>)
    requires SortedByTotal(s)
    ensures GroupTotal(InsertByTotal(g, s)) == g.total + GroupTotal(s)
  {
    var r := InsertByTotal(g, s);
    if s == [] {
      assert r == [g] && r[1..] == [];
    } else if g.total <= s[0].total {
      assert r[0] == g && r[1..] == s;
    } else {
      InsertAddsTotal(g, s[1..]);
      assert r[0] == s[0] && r[1..] == InsertByTotal(g, s[1..]);
    }
  }

  /** Sorting by total keeps the keys distinct and the total unchanged. */
  lemma {:induction false} SortKeepsKeysAndTotal<K(!new)>(s: seq<Group<K>>)
    requires DistinctKeys(s)
    ensures DistinctKeys(SortByTotal(s))
    ensures GroupTotal(SortByTotal(s)) == GroupTotal(s)
  {
    if s != [] {
      SortKeepsKeysAndTotal(s[1..]);
      InsertKeepsKeysDistinct(s[0], SortByTotal(s[1..]));
      InsertAddsTotal(s[0], SortByTotal(s[1..]));
    }
  }

  /** groupby('Sub Category')['Sales'].sum().sort_values(). */
  function SubSales(filtered: seq<Enriched>): (g: seq<Group<string>>)
    ensures SortedByTotal(g)
    ensures multiset(g) == multiset(SubGroups(filtered))
  {
    SortByTotal(SubGroups(filtered))
  }

  /** groupby('Sub Category')['Sales'].sum(), before sorting. */
  function SubGroups(filtered: seq<Enriched>): (g: seq<Group<string>>)
    ensures IsGroupSum(g, filtered, SubCategoryCol, SalesCol, LexLess)
  {
    LexLessIsStrictTotalOrder();
    GroupSum(filtered, SubCategoryCol, SalesCol, LexLess)
  }

  lemma SameRowsSameKeys<K>(h: seq<Group<K>>, g: seq<Group<K>>)
    requires multiset(g) == multiset(h)
    ensures forall k :: k in GroupKeys(g) <==> k in GroupKeys(h)
    ensures forall b :: b in g <==> b in h
  {
    forall b ensures b in g <==> b in h {
      assert b in g <==> b in multiset(g);
      assert b in h <==> b in multiset(h);
    }
    forall k ensures k in GroupKeys(g) <==> k in GroupKeys(h) {
      ProjectMembership(g, (x: Group<K>) => x.key, k);
      ProjectMembership(h, (x: Group<K>) => x.key, k);
    }
  }

  /** One bar per sub-category present after filtering, no repeats, each its
      Sales sum, in ascending order of that sum; the bars add up to the
      filtered sales. */
  lemma SubSalesShape(filtered: seq<Enriched>)
    ensures var g := SubSales(filtered);
            && SortedByTotal(g)
            && (forall s :: s in GroupKeys(g) <==> exists x :: x in filtered && x.row.subCategory == s)
            && (forall b :: b in g ==> b.total == SumWhere(filtered, SubCategoryCol, SalesCol, b.key))
            && DistinctKeys(g)
            && GroupTotal(g) == Total(filtered, SalesCol)
  {
    LexLessIsStrictTotalOrder();
    var h := SubGroups(filtered);
    SameRowsSameKeys(h, SubSales(filtered));
    forall b | b in h ensures b.total == SumWhere(filtered, SubCategoryCol, SalesCol, b.key) {
      var i :| 0 <= i < |h| && h[i] == b;
    }
    StrictlySortedIsDistinct(GroupKeys(h), LexLess);
    assert DistinctKeys(h) by {
      forall i, j | 0 <= i < j < |h| ensures h[i].key != h[j].key {
        assert GroupKeys(h)[i] == h[i].key && GroupKeys(h)[j] == h[j].key;
      }
    }
    SortKeepsKeysAndTotal(h);
    GroupSumAdditive(filtered, SubCategoryCol, SalesCol, LexLess);
  }

  /* ---------- weekday x month heatmap ---------- */

  function WeekdayCol(x: Enriched): string { x.weekday }

  function WeekdayMonthCol(x: Enriched): (string, int) { (x.weekday, x.month) }

  /** groupby(['Weekday', 'Month'])['Sales'].sum().unstack(fill_value=0): the
      present weekdays (in string order) as rows, the present months (in
      number order) as columns, each cell the Sales sum of its pair. */
  datatype Heatmap = Heatmap(weekdays: seq<string>, months: seq<int>, cells: seq<seq<real>>)

  function HeatmapTable(filtered: seq<Enriched>): (h: Heatmap)
    ensures StrictlySorted(h.weekdays, LexLess)
    ensures forall w :: w in h.weekdays <==> exists x :: x in filtered && x.weekday == w
    ensures StrictlySorted(h.months, IntLess)
    ensures forall m :: m in h.months <==> exists x :: x in filtered && x.month == m
    ensures |h.cells| == |h.weekdays|
    ensures forall i :: 0 <= i < |h.weekdays| ==> |h.cells[i]| == |h.months|
    ensures forall i, j :: 0 <= i < |h.weekdays| && 0 <= j < |h.months| ==>
              h.cells[i][j] == SumWhere(filtered, WeekdayMonthCol, SalesCol, (h.weekdays[i], h.months[j]))
  {
    LexLessIsStrictTotalOrder();
    NumericOrdersAreStrictTotalOrders();
    ProjectMembershipAll(filtered, WeekdayCol);
    ProjectMembershipAll(filtered, MonthCol);
    var ws := SortedDistinct(Project(filtered, WeekdayCol), LexLess);
    var ms := SortedDistinct(Project(filtered, MonthCol), IntLess);
    Heatmap(ws, ms,
      seq(|ws|, i requires 0 <= i < |ws| =>
        seq(|ms|, j requires 0 <= j < |ms| =>
          SumWhere(filtered, WeekdayMonthCol, SalesCol, (ws[i], ms[j])))))
  }

  /** groupby(['Weekday', 'Month'])['Sales'].sum() before unstacking. */
  function HeatGroups(filtered: seq<Enriched>): (g: seq<Group<(string, int)>>)
    ensures IsGroupSum(g, filtered, WeekdayMonthCol, SalesCol, PairLess(LexLess, IntLess))
  {
    LexLessIsStrictTotalOrder();
    NumericOrdersAreStrictTotalOrders();
    PairLessIsStrictTotalOrder(LexLess, IntLess);
    GroupSum(filtered, WeekdayMonthCol, SalesCol, PairLess(LexLess, IntLess))
  }

  /** A cell whose (weekday, month) pair has no rows holds 0; a cell whose
      pair has rows holds the pair's group-by sum. */
  lemma HeatmapCells(filtered: seq<Enriched>, i: int, j: int)
    requires 0 <= i < |HeatmapTable(filtered).weekdays| && 0 <= j < |HeatmapTable(filtered).months|
    ensures var h := HeatmapTable(filtered);
            var key := (h.weekdays[i], h.months[j]);
            && ((forall x :: x in filtered ==> WeekdayMonthCol(x) != key) ==> h.cells[i][j] == 0.0)
            && (forall g :: g in HeatGroups(filtered) && g.key == key ==> h.cells[i][j] == g.total)
  {
    LexLessIsStrictTotalOrder();
    NumericOrdersAreStrictTotalOrders();
    PairLessIsStrictTotalOrder(LexLess, IntLess);
    var h := HeatmapTable(filtered);
    var key := (h.weekdays[i], h.months[j]);
    if forall x :: x in filtered ==> WeekdayMonthCol(x) != key {
      SumWhereAbsent(filtered, WeekdayMonthCol, SalesCol, key);
    }
    var gs := HeatGroups(filtered);
    forall g | g in gs && g.key == key ensures h.cells[i][j] == g.total {
      var k :| 0 <= k < |gs| && gs[k] == g;
    }
  }
}

=== FILE: text.dfy ===
/** The string operations the pages apply: Python's str.strip() (column names,
    login e-mail), str.lower() (sign-up and login e-mail), str.replace for
    single characters (Order Date rewrite) and Python's code-point order on
    strings (sorted(), numpy.unique and group-by key order). */
module Text {
  import opened Collections

  /** Python's str.isspace on one code point: the characters str.strip()
      removes when called without arguments. */
  predicate IsSpace(c: char) {
    || ('\U{9}' <= c <= '\U{D}')
    || ('\U{1C}' <= c <= '\U{20}')
    || c == '\U{85}' || c == '\U{A0}' || c == '\U{1680}'
    || ('\U{2000}' <= c <= '\U{200A}')
    || c == '\U{2028}' || c == '\U{2029}' || c == '\U{202F}' || c == '\U{205F}'
    || c == '\U{3000}'
  }

  /** s with its leading whitespace removed (str.lstrip()). */
  function TrimStart(s: string): (r: string)
    ensures |r| <= |s| && r == s[|s| - |r|..]
    ensures r == [] || !IsSpace(r[0])
    ensures forall k :: 0 <= k < |s| - |r| ==> IsSpace(s[k])
  {
    if s != [] && IsSpace(s[0]) then
      var r := TrimStart(s[1..]);
      assert s[1..][|s| - 1 - |r|..] == s[|s| - |r|..];
      forall k | 1 <= k < |s| - |r| ensures IsSpace(s[k]) {
        assert s[k] == s[1..][k - 1];
      }
      r
    else s
  }

  /** s with its trailing whitespace removed (str.rstrip()). */
  function TrimEnd(s: string): (r: string)
    ensures |r| <= |s| && r == s[..|r|]
    ensures r == [] || !IsSpace(r[|r| - 1])
    ensures forall k :: |r| <= k < |s| ==> IsSpace(s[k])
  {
    if s != [] && IsSpace(s[|s| - 1]) then
      var r := TrimEnd(s[..|s| - 1]);
      assert s[..|s| - 1][..|r|] == s[..|r|];
      forall k | |r| <= k < |s| - 1 ensures IsSpace(s[k]) {
        assert s[k] == s[..|s| - 1][k];
      }
      r
    else s
  }

  /** str.strip(): the infix of s left once leading and trailing whitespace
      is removed. */
  function Strip(s: string): (r: string)
    ensures |r| <= |s|
    ensures r == [] || (!IsSpace(r[0]) && !IsSpace(r[|r| - 1]))
    ensures exists i :: InfixBetweenSpaces(r, s, i)
  {
    var t := TrimStart(s);
    var r := TrimEnd(t);
    assert r != [] ==> r[0] == t[0];
    InfixOfSuffix(s, t, r);
    r
  }

  /** A prefix r of a suffix t of s sits in s between whitespace when what
      the two cuts removed is whitespace. */
  lemma InfixOfSuffix(s: string, t: string, r: string)
    requires |t| <= |s| && t == s[|s| - |t|..]
    requires |r| <= |t| && r == t[..|r|]
    requires forall k :: 0 <= k < |s| - |t| ==> IsSpace(s[k])
    requires forall k :: |r| <= k < |t| ==> IsSpace(t[k])
    ensures InfixBetweenSpaces(r, s, |s| - |t|)
  {
    var i := |s| - |t|;
    assert r == s[i..i + |r|];
    forall k | i + |r| <= k < |s| ensures IsSpace(s[k]) {
      assert s[k] == t[k - i];
    }
  }

  /** r occurs in s at position i and everything around it is whitespace. */
  ghost predicate InfixBetweenSpaces(r: string, s: string, i: int) {
    && 0 <= i <= |s| - |r| && r == s[i..i + |r|]
    && (forall k :: 0 <= k < i ==> IsSpace(s[k]))
    && (forall k :: i + |r| <= k < |s| ==> IsSpace(s[k]))
  }

  lemma StripIdempotent(s: string)
    ensures Strip(Strip(s)) == Strip(s)
  {
    var r := Strip(s);
    assert r == [] || !IsSpace(r[0]);
    assert TrimStart(r) == r;
    assert TrimEnd(r) == r;
  }

  /** A string without surrounding whitespace is left alone by Strip. */
  lemma StripNoOp(s: string)
    requires s == [] || (!IsSpace(s[0]) && !IsSpace(s[|s| - 1]))
    ensures Strip(s) == s
  {
    assert TrimStart(s) == s;
  }

  /** Lower case of one character: A-Z map to a-z. */
  function LowerChar(c: char): (d: char)
    ensures 'A' <= c <= 'Z' ==> 'a' <= d <= 'z'
    ensures !('A' <= c <= 'Z') ==> d == c
  {
    if 'A' <= c <= 'Z' then (c as int + 32) as char else c
  }

  /** str.lower() on the ASCII letters. */
  function Lower(s: string): (r: string)
    ensures |r| == |s|
    ensures forall i :: 0 <= i < |s| ==> r[i] == LowerChar(s[i])
    ensures forall i :: 0 <= i < |r| ==> !('A' <= r[i] <= 'Z')
  {
    seq(|s|, i requires 0 <= i < |s| => LowerChar(s[i]))
  }

  lemma LowerIdempotent(s: string)
    ensures Lower(Lower(s)) == Lower(s)
  {
  }

  /** Lower-casing never creates or removes whitespace, so the order of
      lower() and strip() does not matter. */
  lemma {:induction false} LowerStripCommute(s: string)
    ensures Strip(Lower(s)) == Lower(Strip(s))
  {
    LowerTrimStart(s);
    LowerTrimEnd(TrimStart(s));
  }

  /** Whitespace is never an upper-case letter, and a lower-case letter is
      never whitespace. */
  lemma SpaceUnderLower(c: char)
    ensures IsSpace(LowerChar(c)) == IsSpace(c)
  {
  }

  lemma {:induction false} LowerTrimStart(s: string)
    ensures TrimStart(Lower(s)) == Lower(TrimStart(s))
  {
    if s != [] {
      var l := Lower(s);
      assert l[0] == LowerChar(s[0]);
      SpaceUnderLower(s[0]);
      if IsSpace(s[0]) {
        assert l[1..] == Lower(s[1..]);
        LowerTrimStart(s[1..]);
      }
    }
  }

  lemma {:induction false} LowerTrimEnd(s: string)
    ensures TrimEnd(Lower(s)) == Lower(TrimEnd(s))
  {
    if s != [] {
      var l := Lower(s);
      assert l[|s| - 1] == LowerChar(s[|s| - 1]);
      SpaceUnderLower(s[|s| - 1]);
      if IsSpace(s[|s| - 1]) {
        assert l[..|s| - 1] == Lower(s[..|s| - 1]);
        LowerTrimEnd(s[..|s| - 1]);
      }
    }
  }

  /** s.replace(old, new) for single characters: every occurrence is
      replaced. */
  function ReplaceChar(s: string, from: char, to: char): (r: string)
    ensures |r| == |s|
    ensures from != to ==> from !in r
    ensures forall i :: 0 <= i < |s| ==> r[i] == (if s[i] == from then to else s[i])
  {
    seq(|s|, i requires 0 <= i < |s| => if s[i] == from then to else s[i])
  }

  /** Python's string comparison: lexicographic by code point, a proper
      prefix sorting first. */
  predicate LexLess(a: string, b: string)
    decreases |a|
  {
    if a == [] then b != []
    else if b == [] then false
    else if a[0] == b[0] then LexLess(a[1..], b[1..])
    else a[0] < b[0]
  }

  lemma {:induction false} LexLessIrreflexive(a: string)
    ensures !LexLess(a, a)
  {
    if a != [] {
      LexLessIrreflexive(a[1..]);
    }
  }

  lemma {:induction false} LexLessTransitive(a: string, b: string, c: string)
    requires LexLess(a, b) && LexLess(b, c)
    ensures LexLess(a, c)
    decreases |a|
  {
    if a != [] && a[0] == b[0] && b[0] == c[0] {
      LexLessTransitive(a[1..], b[1..], c[1..]);
    }
  }

  lemma {:induction false} LexLessConnected(a: string, b: string)
    requires a != b
    ensures LexLess(a, b) || LexLess(b, a)
    decreases |a|
  {
    if a != [] && b != [] && a[0] == b[0] {
      assert a == [a[0]] + a[1..] && b == [b[0]] + b[1..];
      LexLessConnected(a[1..], b[1..]);
    }
  }

  lemma LexLessIsStrictTotalOrder()
    ensures StrictTotalOrder(LexLess)
  {
    forall a | true ensures !LexLess(a, a) {
      LexLessIrreflexive(a);
    }
    forall a, b, c | LexLess(a, b) && LexLess(b, c) ensures LexLess(a, c) {
      LexLessTransitive(a, b, c);
    }
    forall a, b | a != b ensures LexLess(a, b) || LexLess(b, a) {
      LexLessConnected(a, b);
    }
  }
}

=== FILE: transactions.dfy ===
/** The transaction table shared by all pages and the reductions they apply
    to it: date coercion and the dropping of unparsed rows, column sums and
    means, and pandas' groupby(key)[measure].sum(). */
module Transactions {
  import opened Wrappers
  import opened Collections
  import opened Calendar

  /** One CSV row. D is the type of the Order Date column: the raw string,
      Option<Day> after pd.to_datetime(errors='coerce') (None is NaT), or
      Date once the NaT rows are dropped. */
  datatype Row<D> = Row(
    orderId: string,
    customer: string,
    category: string,
    subCategory: string,
    city: string,
    region: string,
    orderDate: D,
    sales: real,
    profit: real,
    discount: real)

  /** The same row with its Order Date column replaced. */
  function WithDate<D, E>(r: Row<D>, d: E): (r': Row<E>)
    ensures r'.orderDate == d
    ensures r'.orderId == r.orderId && r'.customer == r.customer
    ensures r'.category == r.category && r'.subCategory == r.subCategory
    ensures r'.city == r.city && r'.region == r.region
    ensures r'.sales == r.sales && r'.profit == r.profit && r'.discount == r.discount
  {
    Row(r.orderId, r.customer, r.category, r.subCategory, r.city, r.region, d,
        r.sales, r.profit, r.discount)
  }

  /** pd.to_datetime(df['Order Date'], errors='coerce') with the page's date
      parser: the column is replaced row by row, a failed parse giving NaT. */
  function Coerce(rows: seq<Row<string>>, parse: string -> Option<Day>): (r: seq<Row<Option<Day>>>)
    ensures |r| == |rows|
    ensures forall i :: 0 <= i < |rows| ==>
              r[i] == WithDate(rows[i], parse(rows[i].orderDate))
  {
    Project(rows, (x: Row<string>) => WithDate(x, parse(x.orderDate)))
  }

  /** The column accessors the pages group and sum by. */
  function OrderIdOf<D>(r: Row<D>): string { r.orderId }
  function CustomerOf<D>(r: Row<D>): string { r.customer }
  function CategoryOf<D>(r: Row<D>): string { r.category }
  function SubCategoryOf<D>(r: Row<D>): string { r.subCategory }
  function CityOf<D>(r: Row<D>): string { r.city }
  function RegionOf<D>(r: Row<D>): string { r.region }
  function SalesOf<D>(r: Row<D>): real { r.sales }
  function ProfitOf<D>(r: Row<D>): real { r.profit }
  function DiscountOf<D>(r: Row<D>): real { r.discount }
  function DateOf(r: Row<Day>): Date { r.orderDate }
  function MonthOf(r: Row<Day>): Month { Bucket(r.orderDate) }

  function DayOf(r: Row<Day>): Day { r.orderDate }

  /** Coercion followed by dropna(subset=['Order Date']): exactly the rows
      whose date the parser accepts survive, each carrying the parsed date
      and otherwise unchanged. */
  function Clean(raw: seq<Row<string>>, parse: string -> Option<Day>): (df: seq<Row<Day>>)
    ensures |df| <= |raw|
    ensures forall x :: x in df ==> exists i :: 0 <= i < |raw| && parse(raw[i].orderDate) == Some(x.orderDate)
                                       && x == WithDate(raw[i], x.orderDate)
    ensures forall i :: 0 <= i < |raw| && parse(raw[i].orderDate).Some? ==>
              WithDate(raw[i], parse(raw[i].orderDate).value) in df
  {
    CleanSound(raw, parse);
    DropUndated(Coerce(raw, parse))
  }

  lemma CleanSound(raw: seq<Row<string>>, parse: string -> Option<Day>)
    ensures var df := DropUndated(Coerce(raw, parse));
            && (forall x :: x in df ==> exists i :: 0 <= i < |raw| && parse(raw[i].orderDate) == Some(x.orderDate)
                                             && x == WithDate(raw[i], x.orderDate))
            && (forall i :: 0 <= i < |raw| && parse(raw[i].orderDate).Some? ==>
                  WithDate(raw[i], parse(raw[i].orderDate).value) in df)
  {
    var c := Coerce(raw, parse);
    var df := DropUndated(c);
    forall x | x in df
      ensures exists i :: 0 <= i < |raw| && parse(raw[i].orderDate) == Some(x.orderDate)
                          && x == WithDate(raw[i], x.orderDate)
    {
      assert WithDate(x, Some(x.orderDate)) in c;
      var i :| 0 <= i < |c| && c[i] == WithDate(x, Some(x.orderDate));
      assert c[i] == WithDate(raw[i], parse(raw[i].orderDate));
      assert x == WithDate(raw[i], x.orderDate);
    }
    forall i | 0 <= i < |raw| && parse(raw[i].orderDate).Some?
      ensures WithDate(raw[i], parse(raw[i].orderDate).value) in df
    {
      assert c[i] in c;
    }
  }

  predicate HasDate(r: Row<Option<Day>>) {
    r.orderDate.Some?
  }

  /** df.dropna(subset=['Order Date']): the rows whose date parsed, in order,
      each carrying its date. */
  function DropUndated(rows: seq<Row<Option<Day>>>): (r: seq<Row<Day>>)
    ensures |r| <= |rows|
    ensures forall x :: x in r ==> WithDate(x, Some(x.orderDate)) in rows
    ensures forall x :: x in rows && x.orderDate.Some? ==> WithDate(x, x.orderDate.value) in r
  {
    if rows == [] then []
    else
      var rest := DropUndated(rows[1..]);
      assert forall x :: x in rows[1..] ==> x in rows;
      if rows[0].orderDate.Some? then
        var first := WithDate(rows[0], rows[0].orderDate.value);
        assert WithDate(first, Some(first.orderDate)) == rows[0];
        [first] + rest
      else rest
  }

  /** Undoing the drop (putting the dates back as Some) gives exactly the
      dated rows in their original order: nothing else is removed and nothing
      is reordered. */
  lemma {:induction false} DropUndatedIsMask(rows: seq<Row<Option<Day>>>)
    ensures Project(DropUndated(rows), (x: Row<Day>) => WithDate(x, Some(x.orderDate)))
         == Keep(rows, HasDate)
  {
    if rows != [] {
      DropUndatedIsMask(rows[1..]);
      var lift := (x: Row<Day>) => WithDate(x, Some(x.orderDate));
      var rest := DropUndated(rows[1..]);
      if HasDate(rows[0]) {
        var first := WithDate(rows[0], rows[0].orderDate.value);
        assert lift(first) == rows[0];
        assert Project([first] + rest, lift) == [rows[0]] + Project(rest, lift);
      }
    }
  }

  /** The date column as a group key: whether the date parsed. */
  function Dated(r: Row<Option<Day>>): bool { r.orderDate.Some? }

  /** The column total splits into the dated rows' total and the undated
      rows' total: dropping NaT rows loses exactly the latter. */
  lemma {:induction false} UndatedSplit(rows: seq<Row<Option<Day>>>)
    ensures Total(rows, SalesOf) == Total(DropUndated(rows), SalesOf) + SumWhere(rows, Dated, SalesOf, false)
  {
    if rows != [] {
      UndatedSplit(rows[1..]);
    }
  }

  /* ---------- column reductions ---------- */

  /** df[column].sum(). */
  function Total<T>(s: seq<T>, value: T -> real): real {
    if s == [] then 0.0 else value(s[0]) + Total(s[1..], value)
  }

  lemma {:induction false} TotalAppend<T>(a: seq<T>, b: seq<T>, value: T -> real)
    ensures Total(a + b, value) == Total(a, value) + Total(b, value)
  {
    if a != [] {
      assert (a + b)[0] == a[0] && (a + b)[1..] == a[1..] + b;
      TotalAppend(a[1..], b, value);
    } else {
      assert a + b == b;
    }
  }

  /** df[column].mean(): NaN (None) on an empty column. */
  function Mean<T>(s: seq<T>, value: T -> real): (m: Option<real>)
    ensures m.Some? <==> |s| > 0
    ensures m.Some? ==> m.value * (|s| as real) == Total(s, value)
  {
    if |s| == 0 then None else Some(Total(s, value) / (|s| as real))
  }

  /** The measure summed over the rows whose key equals k. */
  function SumWhere<T, K(==)>(s: seq<T>, key: T -> K, value: T -> real, k: K): real {
    if s == [] then 0.0
    else (if key(s[0]) == k then value(s[0]) else 0.0) + SumWhere(s[1..], key, value, k)
  }

  /** A group's sum is the sum of the rows the mask key == k selects. */
  lemma {:induction false} SumWhereIsMaskedTotal<T(!new), K>(s: seq<T>, key: T -> K, value: T -> real, k: K)
    ensures SumWhere(s, key, value, k) == Total(Keep(s, (x: T) => key(x) == k), value)
  {
    if s != [] {
      SumWhereIsMaskedTotal(s[1..], key, value, k);
      var p := (x: T) => key(x) == k;
      TotalAppend(if p(s[0]) then [s[0]] else [], Keep(s[1..], p), value);
    }
  }

  /** A key no row carries sums to zero (this is how unstack(fill_value=0)
      fills an absent cell). */
  lemma {:induction false} SumWhereAbsent<T, K>(s: seq<T>, key: T -> K, value: T -> real, k: K)
    requires forall i :: 0 <= i < |s| ==> key(s[i]) != k
    ensures SumWhere(s, key, value, k) == 0.0
  {
    if s != [] {
      SumWhereAbsent(s[1..], key, value, k);
    }
  }

  /* ---------- group-by ---------- */

  /** One row of groupby(key)[measure].sum().reset_index(). */
  datatype Group<K> = Group(key: K, total: real)

  function GroupKeys<K>(g: seq<Group<K>>): seq<K> {
    Project(g, (x: Group<K>) => x.key)
  }

  function GroupTotal<K>(g: seq<Group<K>>): real {
    Total(g, (x: Group<K>) => x.total)
  }

  /** The group rows for the keys ks, in the order of ks. */
  function GroupsFor<T, K(==)>(s: seq<T>, key: T -> K, value: T -> real, ks: seq<K>): (g: seq<Group<K>>)
    ensures |g| == |ks|
    ensures forall i :: 0 <= i < |ks| ==> g[i] == Group(ks[i], SumWhere(s, key, value, ks[i]))
  {
    if ks == [] then [] else [Group(ks[0], SumWhere(s, key, value, ks[0]))] + GroupsFor(s, key, value, ks[1..])
  }

  /** What groupby(key)[measure].sum() promises: one row per key present in
      s (absent keys do not appear, nothing is zero-filled), keys in
      ascending order, each total the sum of that key's rows. */
  ghost predicate IsGroupSum<T, K(!new)>(g: seq<Group<K>>, s: seq<T>, key: T -> K, value: T -> real, less: (K, K) -> bool) {
    && StrictlySorted(GroupKeys(g), less)
    && (forall k :: k in GroupKeys(g) <==> exists x :: x in s && key(x) == k)
    && (forall i :: 0 <= i < |g| ==> g[i].total == SumWhere(s, key, value, g[i].key))
  }

  /** The last row of a group-by table holds the greatest key: every row's
      key is that one or smaller. */
  lemma LastKeyIsGreatest<T, K(!new)>(g: seq<Group<K>>, s: seq<T>, key: T -> K, value: T -> real,
                                      less: (K, K) -> bool, x: T)
    requires IsGroupSum(g, s, key, value, less)
    requires x in s
    ensures g != []
    ensures key(x) == g[|g| - 1].key || less(key(x), g[|g| - 1].key)
  {
    assert key(x) in GroupKeys(g);
    var k :| 0 <= k < |GroupKeys(g)| && GroupKeys(g)[k] == key(x);
    assert GroupKeys(g)[|g| - 1] == g[|g| - 1].key;
  }

  /** groupby(key)[measure].sum().reset_index(). */
  function GroupSum<T(!new), K(==,!new)>(s: seq<T>, key: T -> K, value: T -> real, less: (K, K) -> bool): (g: seq<Group<K>>)
    requires StrictTotalOrder(less)
    ensures IsGroupSum(g, s, key, value, less)
    ensures |g| <= |s|
  {
    var ks := SortedDistinct(Project(s, key), less);
    var g := GroupsFor(s, key, value, ks);
    assert GroupKeys(g) == ks;
    forall k ensures k in ks <==> exists x :: x in s && key(x) == k {
      ProjectMembership(s, key, k);
    }
    g
  }

  /** The group-by table is determined by its promise: any table with sorted
      keys, exactly the present keys and per-key sums is GroupSum's. */
  lemma GroupSumCharacterized<T(!new), K(!new)>(g: seq<Group<K>>, s: seq<T>, key: T -> K, value: T -> real, less: (K, K) -> bool)
    requires StrictTotalOrder(less)
    requires IsGroupSum(g, s, key, value, less)
    ensures g == GroupSum(s, key, value, less)
  {
    var h := GroupSum(s, key, value, less);
    StrictlySortedUnique(GroupKeys(g), GroupKeys(h), less);
    assert |g| == |GroupKeys(g)| == |GroupKeys(h)| == |h|;
    forall i | 0 <= i < |g| ensures g[i] == h[i] {
      assert g[i].key == GroupKeys(g)[i] == GroupKeys(h)[i] == h[i].key;
    }
  }

  /** Additivity: the group totals add up to the column total. */
  lemma GroupSumAdditive<T(!new), K(!new)>(s: seq<T>, key: T -> K, value: T -> real, less: (K, K) -> bool)
    requires StrictTotalOrder(less)
    ensures GroupTotal(GroupSum(s, key, value, less)) == Total(s, value)
  {
    var ks := SortedDistinct(Project(s, key), less);
    StrictlySortedIsDistinct(ks, less);
    forall x | x in s ensures key(x) in ks {
      ProjectMembership(s, key, key(x));
    }
    GroupsTotal(s, key, value, ks);
  }

  /** Summing the per-key sums over distinct keys that cover every row gives
      the column total. */
  lemma {:induction false} GroupsTotal<T(!new), K>(s: seq<T>, key: T -> K, value: T -> real, ks: seq<K>)
    requires Distinct(ks)
    requires forall x :: x in s ==> key(x) in ks
    ensures GroupTotal(GroupsFor(s, key, value, ks)) == Total(s, value)
  {
    KeyedTotalIsGroupTotal(s, key, value, ks);
    KeyedTotalCovers(s, key, value, ks);
  }

  function KeyedTotal<T, K(==)>(s: seq<T>, key: T -> K, value: T -> real, ks: seq<K>): real {
    if ks == [] then 0.0 else SumWhere(s, key, value, ks[0]) + KeyedTotal(s, key, value, ks[1..])
  }

  /** What one row contributes to the per-key sums over ks. */
  function Share<T, K(==)>(x: T, key: T -> K, value: T -> real, ks: seq<K>): real {
    if ks == [] then 0.0 else (if key(x) == ks[0] then value(x) else 0.0) + Share(x, key, value, ks[1..])
  }

  lemma {:induction false} KeyedTotalIsGroupTotal<T, K>(s: seq<T>, key: T -> K, value: T -> real, ks: seq<K>)
    ensures GroupTotal(GroupsFor(s, key, value, ks)) == KeyedTotal(s, key, value, ks)
  {
    if ks != [] {
      KeyedTotalIsGroupTotal(s, key, value, ks[1..]);
      assert GroupsFor(s, key, value, ks)[1..] == GroupsFor(s, key, value, ks[1..]);
    }
  }

  lemma {:induction false} KeyedTotalSplit<T, K>(s: seq<T>, key: T -> K, value: T -> real, ks: seq<K>)
    requires s != []
    ensures KeyedTotal(s, key, value, ks) == Share(s[0], key, value, ks) + KeyedTotal(s[1..], key, value, ks)
  {
    if ks != [] {
      KeyedTotalSplit(s, key, value, ks[1..]);
    }
  }

  lemma {:induction false} ShareOfAbsentKey<T, K>(x: T, key: T -> K, value: T -> real, ks: seq<K>)
    requires key(x) !in ks
    ensures Share(x, key, value, ks) == 0.0
  {
    if ks != [] {
      ShareOfAbsentKey(x, key, value, ks[1..]);
    }
  }

  lemma {:induction false} ShareOfPresentKey<T, K>(x: T, key: T -> K, value: T -> real, ks: seq<K>)
    requires Distinct(ks) && key(x) in ks
    ensures Share(x, key, value, ks) == value(x)
  {
    if key(x) == ks[0] {
      assert key(x) !in ks[1..];
      ShareOfAbsentKey(x, key, value, ks[1..]);
    } else {
      ShareOfPresentKey(x, key, value, ks[1..]);
    }
  }

  lemma {:induction false} KeyedTotalCovers<T(!new), K>(s: seq<T>, key: T -> K, value: T -> real, ks: seq<K>)
    requires Distinct(ks)
    requires forall x :: x in s ==> key(x) in ks
    ensures KeyedTotal(s, key, value, ks) == Total(s, value)
  {
    if s == [] {
      KeyedTotalOfEmpty(s, key, value, ks);
    } else {
      KeyedTotalSplit(s, key, value, ks);
      ShareOfPresentKey(s[0], key, value, ks);
      assert forall x :: x in s[1..] ==> x in s;
      KeyedTotalCovers(s[1..], key, value, ks);
    }
  }

  lemma {:induction false} KeyedTotalOfEmpty<T, K>(s: seq<T>, key: T -> K, value: T -> real, ks: seq<K>)
    requires s == []
    ensures KeyedTotal(s, key, value, ks) == 0.0
  {
    if ks != [] {
      KeyedTotalOfEmpty(s, key, value, ks[1..]);
    }
  }

  /** The total of the group whose key is k, if there is one. */
  function TotalFor<K(==)>(g: seq<Group<K>>, k: K): real {
    if g == [] then 0.0 else if g[0].key == k then g[0].total else TotalFor(g[1..], k)
  }

  /** Series.nunique(): the number of distinct values. */
  function DistinctCount<K(==,!new)>(s: seq<K>): (n: nat)
    ensures n <= |s|
    ensures n == 0 <==> s == []
    ensures n == |set x | x in s|
  {
    var u := Unique(s);
    DistinctSubsetSize(u, s);
    DistinctSetSize(u);
    assert (set x | x in u) == (set x | x in s);
    assert s != [] ==> s[0] in u;
    |u|
  }

  /** A value that occurs twice makes the distinct count smaller than the
      length. */
  lemma RepeatLowersDistinctCount<K(!new)>(ids: seq<K>, i: int, j: int)
    requires 0 <= i < j < |ids| && ids[i] == ids[j]
    ensures DistinctCount(ids) < |ids|
  {
    var u := Unique(ids);
    var rest := ids[..j] + ids[j + 1..];
    forall y | y in u ensures y in rest {
      assert y in ids;
      if y == ids[j] {
        assert rest[i] == ids[i];
      } else {
        var k :| 0 <= k < |ids| && ids[k] == y;
        if k < j {
          assert rest[k] == y;
        } else {
          assert rest[k - 1] == y;
        }
      }
    }
    DistinctSubsetSize(u, rest);
  }
}

=== FILE: wrappers.dfy ===
/** Option and Result, the two failure-carrying types the model uses for
    pandas' NaT / NaN markers and for the exceptions the pages raise. */
module Wrappers {

  datatype Option<+T> = None | Some(value: T)

  datatype Result<+R, +E> = Success(value: R) | Failure(error: E)
}
